=== FILE: README.md ===
# forgebase-next in Dafny

A model of the application logic of forgebase-next: a personal portfolio,
blog and store built on Next.js with a Supabase (Postgres) back end. The
model covers:

- **Blog actions** (`BlogActions`). These are the server actions behind a post:
  - view counting, through the increment RPC with a read-then-write fallback;
  - like toggling per browser session;
  - share recording;
  - comment and reply submission and listing;
  - the like, share and comment counters.
- **Like and share widgets** (`LikeWidgets`). These are the optimistic client state of the blog card, the home-page preview and the post's interaction bar.
- **The comment thread** (`CommentThread`). This covers the post's comment form, the replies map and the reply toggles.
- **Admin moderation** (`Moderation`). These are the comments list's approve, hide and delete actions for comments and replies, and the expand toggle.
- **Admin forms and slugs** (`AdminForms`, `Slug`). These are the blog, project and product forms: slug generation, tag and technology lists, validation, and the payloads they insert or update.
- **The gallery** (`Gallery`, `YouTube`). This covers its server actions, the sections the gallery page shows, and the YouTube id extraction.
- **Listings** (`Listings`). These are the store page and its search, the blog index with its query and featured split, the admin dashboard's statistics, and the home page's data loading.
- **The blog filter bar** (`BlogFilters`). It rewrites the query string.
- **The database setup code** (`SqlScripts`):
  - the three routes that run the numbered SQL scripts;
  - the command-line setup script;
  - how each one splits a script into statements and reports the outcome.
- **Contact messages** (`Contact`). These are the submit, list, status and reply actions, and the admin list's local state.
- **The setup page** (`SetupPage`). It holds the manual checklist and the automatic setup button.
- **Navigation highlighting** (`Navigation`). This covers the site header, the admin sidebar and the admin mobile menu.
- **The table of contents** (`Toc`). This covers a post's table of contents and its active heading.

Shared helpers live in `Wrappers` (option, outcome and thrown-value types),
`Text` (ASCII string operations: trim, split, join, case mapping, decimal
text), `Seqs` (filtering, subsequences, de-duplication) and `Ordering`
(stable sorting by an integer key).

The database is an immutable record of tables. Round trips to Supabase,
the e-mail service or the network are outcome parameters (`Ok`/`Err`, or a
richer reply type where the code reads the answer), with one exception: the
`.single()` lookups that open `incrementBlogViews` (lib/actions/blog.ts:9)
and `replyToMessage` (lib/actions/contact.ts:121-125) are read from the
tables, succeeding exactly when one row matches, and have no outcome of
their own. A lookup that the store fails for another reason behaves, in
both, like the case where every later call fails: nothing changes, and
`replyToMessage` reports failure. Random
ids, timestamps, `window.confirm` answers and the browser's scroll position
are parameters too. The model follows the code as written, including
these behaviours a reader may not expect:

- new comments and replies are approved on insert;
- the public comment list is not filtered by approval;
- deleting a comment does not delete its replies;
- no server action trims its input;
- the header highlights "/blog" on "/blogroll", because matching is a plain prefix test.

Each of these is stated as a lemma.

## Model

| member | source | states |
|---|---|---|
| BlogActions.IncrementBlogViews | lib/actions/blog.ts:6-22 | a view changes only the blog table and never its length; an unknown or duplicated slug (no single row) and a failure of both the RPC and the fallback leave the store unchanged |
| BlogActions.ViewKeepsIdsAndSlugs | lib/actions/blog.ts:12-19 | a view never changes any row's id or slug |
| BlogActions.ViewNeverLowers | lib/actions/blog.ts:12-19 | with unique ids, no row's count goes down, a null count reading as 0 |
| BlogActions.ViewAddsOne | lib/actions/blog.ts:11-20 | when the slug belongs to exactly one row and either the RPC or the fallback goes through, that row's count becomes its old count plus one, a null count becoming 1 |
| BlogActions.OneViewKeepsSlug | lib/actions/blog.ts:6-22 | after a successful view the slug is still unique to the same row, and that row gained one view |
| BlogActions.ViewsCountEveryVisit | lib/actions/blog.ts:6-22 | n successful views of a post with a unique slug add exactly n to its count and keep the slug unique |
| BlogActions.CheckBlogLiked | lib/actions/blog.ts:48-58 | "liked" is reported exactly when the read succeeds and exactly one like row matches the pair, so zero rows and duplicate rows both read as not liked |
| BlogActions.ToggleBlogLike | lib/actions/blog.ts:24-46 | the answer is the negation of what the lookup saw, whatever the write did; a failed write changes nothing; a successful like appends one row for the pair, and a successful unlike removes at least one row; no other table changes |
| BlogActions.LikesForAppend | lib/actions/blog.ts:42 | after an insert, a pair's like rows are the old ones plus the new row exactly when the row belongs to that pair |
| BlogActions.LikesForDelete | lib/actions/blog.ts:37 | after deleting by id, a pair's like rows are its old rows without that id |
| BlogActions.DeleteKeepsOtherPairs | lib/actions/blog.ts:37 | deleting a row by its unique id leaves every other pair's like rows unchanged |
| BlogActions.ToggleKeepsAtMostOne | lib/actions/blog.ts:28-45 | if the lookup succeeds, a toggle never gives a pair a second like row, whatever the write outcome |
| BlogActions.FailedLookupDuplicatesLike | lib/actions/blog.ts:28-44 | when the lookup fails while a like exists, the toggle inserts a second row and answers "liked", and the check then reports "not liked" |
| BlogActions.ToggleFlipsOnePair | lib/actions/blog.ts:24-46 | a successful toggle answers the opposite of the current like, leaves the pair in the state it answers, keeps at most one row per pair and unique ids, and changes no other pair's like |
| BlogActions.ToggleTwiceRestoresLikes | lib/actions/blog.ts:24-46 | two successful toggles of the same pair give opposite answers, and afterwards every pair's like is as before |
| BlogActions.CheckMatchesHasLike | lib/actions/blog.ts:48-58 | with at most one row per pair, a successful check reports exactly whether a like row exists |
| BlogActions.LikesCount | lib/actions/blog.ts:135-144 | the like count never exceeds the number of like rows and is 0 when the read fails |
| BlogActions.ToggleMovesCountByOne | lib/actions/blog.ts:24-46 | a successful toggle moves the post's like count by exactly one: up when it answers "liked", down otherwise |
| BlogActions.UnlikeDropsOne | lib/actions/blog.ts:37 | deleting the found like row lowers the post's like count by exactly one |
| BlogActions.OnlyTheFoundRowHasItsId | lib/actions/blog.ts:28-37 | among the post's likes, the row the lookup found is the only one with its id |
| BlogActions.TrackBlogShare | lib/actions/blog.ts:60-64 | a successful share appends exactly one (post, platform) row and changes nothing else; a failed insert changes nothing |
| BlogActions.SharesCount | lib/actions/blog.ts:146-155 | the share count never exceeds the number of share rows and is 0 when the read fails |
| BlogActions.ShareIsNeverDeduplicated | lib/actions/blog.ts:60-64 | sharing the same post on the same platform twice raises its share count by two |
| BlogActions.EmailOrNull | lib/actions/blog.ts:72 | an email is stored exactly when it is present and non-empty, and then unchanged |
| BlogActions.SubmitBlogComment | lib/actions/blog.ts:66-80 | the submission fails exactly when the insert fails; otherwise exactly one approved comment is appended, with the name and content as given and the email mapped by EmailOrNull |
| BlogActions.GetBlogComments | lib/actions/blog.ts:82-91 | the result is oldest first and is a permutation of the post's comments, approved or not, with their multiplicities; a failed read gives [] |
| BlogActions.HiddenCommentIsStillListed | lib/actions/blog.ts:82-91 | a comment that is not approved is still in the post's public comment list |
| BlogActions.GetAllComments | lib/actions/blog.ts:113-121 | the result is newest first and a permutation of all comments; a failed read gives [] |
| BlogActions.CommentCount | lib/actions/blog.ts:123-133 | the comment count never exceeds the post's comments and is 0 when the read fails |
| BlogActions.UpdateCommentApproval | lib/actions/blog.ts:93-101 | the update fails exactly when the write fails; on success only the `approved` field of rows with that id changes, and nothing else in the store does |
| BlogActions.HidingOnlyChangesCount | lib/actions/blog.ts:82-133 | hiding an approved comment with a unique id keeps it on the public list but lowers the approved-comment count by exactly one |
| BlogActions.DeleteComment | lib/actions/blog.ts:103-111 | the delete fails exactly when the write fails; on success exactly the comments with that id are gone: every other comment keeps its place in the order and its number of copies, and the replies and every other table are unchanged |
| BlogActions.DeleteLeavesReplies | lib/actions/blog.ts:103-111 | deleting a comment leaves its replies in the reply table |
| BlogActions.SubmitCommentReply | lib/actions/blog.ts:157-171 | the submission fails exactly when the insert fails; otherwise exactly one approved reply is appended under the comment |
| BlogActions.GetCommentReplies | lib/actions/blog.ts:173-183 | the result is oldest first; it holds only approved replies of that comment; when the read succeeds it holds each of them exactly as often as the table does; a failed read gives [] |
| BlogActions.UpdateReplyApproval | lib/actions/blog.ts:195-203 | the update fails exactly when the write fails; on success only the `approved` field of replies with that id changes |
| BlogActions.ReplyVisibleIffApproved | lib/actions/blog.ts:173-203 | after an approval update a reply is on the public list exactly when it was set to approved |
| BlogActions.DeleteCommentReply | lib/actions/blog.ts:185-193 | the delete fails exactly when the write fails; on success exactly the replies with that id are gone: every other reply keeps its place in the order and its number of copies, and nothing else changes |
| LikeWidgets.GetSessionId | components/blog/blog-card.tsx:21-29 | on the server the id is "" and nothing is stored; in the browser a stored non-empty id is returned unchanged; otherwise the generated id is stored and returned |
| LikeWidgets.SessionIdIsStable | components/blog/blog-interactions.tsx:15-23 | once a browser lookup has produced a non-empty id, every later lookup returns the same id and storage, whatever would be generated |
| LikeWidgets.PreviewSessionToken | components/home/blog-preview.tsx:263 | the preview's generated id starts with "session_" and is as long as the two parts plus the prefix and the separator |
| LikeWidgets.WidgetsShareOneSession | components/home/blog-preview.tsx:259-267 | the preview card reuses the id the blog card stored under the shared key instead of generating its own |
| LikeWidgets.CountOrZero | components/blog/blog-card.tsx:33 | a missing like count starts at 0, and a present one is used as is |
| LikeWidgets.InitialButton | components/blog/blog-card.tsx:32-34 | a button starts not liked, with the post's count and no toggle in flight |
| LikeWidgets.SyncLiked | components/blog/blog-card.tsx:36-41 | without a session id the button is untouched; with one, `liked` becomes what the server's check reports; the count and the in-flight flag never change |
| LikeWidgets.ClickLike | components/blog/blog-card.tsx:43-49 | a request is sent exactly when no toggle is in flight; afterwards a toggle is in flight and `liked` and the count are unchanged |
| LikeWidgets.CompleteLike | components/blog/blog-card.tsx:51-59 | the in-flight flag is always cleared; an answer sets `liked` to it and moves the count by +1 or -1; a thrown toggle leaves `liked` and the count as they were |
| LikeWidgets.DoubleClickSendsOnce | components/blog/blog-interactions.tsx:38-40 | a second click before the first toggle returns sends nothing and changes nothing |
| LikeWidgets.ButtonTracksStore | components/blog/blog-interactions.tsx:38-52 | a button whose flag and count agree with the store still agrees after a click and a successful toggle |
| LikeWidgets.PreviewFirstClickUnlikes | components/home/blog-preview.tsx:143-156 | because the preview never asks the server, its first click on a post the session already likes answers "unliked" and shows one less than the starting count |
| LikeWidgets.LikeLabel | components/blog/blog-interactions.tsx:91 | the label reads "Like" exactly for a count of 1 and "Likes" otherwise |
| LikeWidgets.ShareActionFor | components/blog/blog-card.tsx:68-84 | only "twitter", "facebook", "linkedin" and "copy" trigger an action, and only "copy" copies the URL |
| LikeWidgets.HandleShare | components/blog/blog-card.tsx:62-85 | the share is recorded before dispatch for every platform string; a recorded share appends exactly the (post, platform) row |
| LikeWidgets.UnknownPlatformIsCounted | components/blog/blog-card.tsx:66-84 | a platform with no action is still counted as a share |
| LikeWidgets.CopiedAfterShare | components/blog/blog-interactions.tsx:73-75 | the "copied" tick is set by a copy share and otherwise keeps its value |
| LikeWidgets.CopiedAfterTimer | components/blog/blog-interactions.tsx:76 | the tick survives exactly while less than 2000 ms have passed since it was set |
| LikeWidgets.PreviewShare | components/home/blog-preview.tsx:164-185 | with a share sheet, "native" is recorded only after the sheet resolves and a cancel records nothing; without one, "clipboard" is recorded only when the copy went through, and a rejected copy records nothing |
| LikeWidgets.PreviewShareAddsAtMostOne | components/home/blog-preview.tsx:164-185 | a preview share adds at most one share row, for this post, and only after a resolved sheet or a completed copy |
| LikeWidgets.ShownTags | components/blog/blog-card.tsx:110 | a card shows a prefix of its tags of length at most two, and exactly two when there are at least two |
| LikeWidgets.DisplayBlogs | components/home/blog-preview.tsx:85 | the preview shows the first min(4, n) posts when there are any, and the four mock posts otherwise, so it always shows between one and four |
| LikeWidgets.PreviewNeverEmpty | components/home/blog-preview.tsx:87-110 | the "No blog posts yet" branch can never be reached |
| LikeWidgets.PreviewCounters | components/home/blog-preview.tsx:241-245 | a missing comment count or view count displays as 0, and a present one as itself |
| CommentThread.RepliesShown | components/blog/blog-comments.tsx:46-58 | a comment whose reply request throws shows no replies; otherwise it shows exactly the comment's approved replies, each as often as the table holds it, oldest first |
| CommentThread.FetchComments | components/blog/blog-comments.tsx:41-68 | the loading flag is cleared on every path; a thrown comment request empties the thread; otherwise the thread lists the post's comments in the server's order, and each entry carries no replies when its reply request throws and otherwise exactly its comment's approved replies |
| CommentThread.ThreadIsWellFormed | components/blog/blog-comments.tsx:41-68 | every listed comment belongs to the post, every reply shown under a comment is approved and points at that comment, and each entry's replies are what that comment's own reply request yields |
| CommentThread.ReplyFailureIsLocal | components/blog/blog-comments.tsx:52-58 | a reply request that throws for one comment changes no other comment's entry |
| CommentThread.FailureMessage | components/blog/blog-comments.tsx:99 | the failure message is non-empty and is the reply message exactly when a reply was being posted |
| CommentThread.HandleSubmit | components/blog/blog-comments.tsx:74-103 | nothing is posted unless the trimmed name and content are non-empty; a reply goes to the reply target and a comment to the post; success clears the fields and the target; failure leaves the store and the fields and sets the matching message |
| CommentThread.BlankFieldsAreNotPosted | components/blog/blog-comments.tsx:76 | a name or content made only of whitespace never reaches the server |
| CommentThread.PostedCommentIsListed | components/blog/blog-comments.tsx:84-96 | a top-level comment that goes through is listed, untrimmed and approved, among the post's comments on the next fetch |
| CommentThread.PostedReplyIsListed | components/blog/blog-comments.tsx:82-96 | a reply that goes through is listed among its comment's replies on the next fetch |
| CommentThread.StartReply | components/blog/blog-comments.tsx:221-225 | the Reply button targets that comment and clears the error, keeping the name, email and draft |
| CommentThread.CancelReply | components/blog/blog-comments.tsx:166-170 | Cancel drops the reply target, the draft and the error, keeping the name and email |
| CommentThread.CancelUndoesReply | components/blog/blog-comments.tsx:166-170 | starting a reply and cancelling it returns to posting a top-level comment with the same name and email and an empty draft |
| CommentThread.HeadingNoun | components/blog/blog-comments.tsx:183 | the heading reads "Comment" for exactly one comment and "Comments" for any other count |
| Moderation.ToggleExpanded | components/admin/comments-list.tsx:37-45 | the clicked id changes membership in the expanded set and every other id keeps it |
| Moderation.ToggleExpandedTwice | components/admin/comments-list.tsx:37-45 | expanding and collapsing the same comment restores the expanded set |
| Moderation.HandleApproval | components/admin/comments-list.tsx:47-57 | a thrown update leaves the list; otherwise only the approval of the comments with that id changes, and nothing else in any entry |
| Moderation.HandleDelete | components/admin/comments-list.tsx:59-71 | nothing changes without confirmation or when the delete throws; otherwise exactly the comments with that id leave the list, the rest keeping their order |
| Moderation.HandleReplyApproval | components/admin/comments-list.tsx:73-92 | a thrown update leaves the list; otherwise comments and other comments' replies are untouched, and under a comment with that id the replies keep their number and order, the reply with that id takes the new approval, and every other reply and every other field stays as it was (a comment without replies ends with an empty list) |
| Moderation.HandleDeleteReply | components/admin/comments-list.tsx:94-115 | nothing changes without confirmation or when the delete throws; otherwise the reply leaves its comment's replies, the remaining replies keep their order and number of copies, and no other comment changes |
| Moderation.Badge | components/admin/comments-list.tsx:129-131 | the badge reads "Approved" exactly for an approved comment and "Pending" exactly for one that is not |
| Moderation.ApprovalTarget | components/admin/comments-list.tsx:173-191 | the button offers the opposite of the comment's current approval |
| Moderation.ButtonFlipsBadge | components/admin/comments-list.tsx:173-191 | pressing the offered button flips that comment's badge and leaves every other entry as it was |
| Moderation.ApprovalKeepsListInStore | components/admin/comments-list.tsx:47-57 | when the same approval goes through in the store and in the list, every listed comment is still a row of the store |
| Moderation.DeleteKeepsListInStore | components/admin/comments-list.tsx:59-71 | after the same delete on both sides, the list is still a view of the store and no longer shows the deleted id |
| Moderation.RepliesOrEmpty | components/admin/comments-list.tsx:82 | a comment whose replies were not loaded is treated as having none; loaded replies are used as they are |
| Slug.KeepSlugChars | components/admin/blog-form.tsx:63 | only lower-case letters, digits and whitespace survive, so no hyphen is left |
| Slug.Hyphenate | components/admin/blog-form.tsx:64 | the output is empty exactly when the input is |
| Slug.HyphenateFirst | components/admin/blog-form.tsx:64 | the output starts with a hyphen exactly where the input starts with whitespace, and otherwise with the input's first character |
| Slug.HyphenateKeeps | components/admin/blog-form.tsx:64 | every output character is a hyphen or a non-space input character, so any property the input's other characters share carries over |
| Slug.HyphenateLast | components/admin/blog-form.tsx:64 | the output ends with a hyphen exactly where the input ends with whitespace, and otherwise with the input's last character |
| Slug.HyphenateNoDouble | components/admin/blog-form.tsx:64 | an input without hyphens gives an output with no two hyphens in a row, because each hyphen replaces a whole whitespace run |
| Slug.TrimStartKeepsNonSpace | components/admin/blog-form.tsx:64 | swallowing a whitespace run loses no other character |
| Slug.HyphenateLetters | components/admin/blog-form.tsx:64 | on hyphen-free text, the output without its hyphens is the input without its whitespace: only whitespace is replaced, and every other character stays in order |
| Slug.HyphenateNoSpace | components/admin/blog-form.tsx:64 | text without whitespace passes through unchanged |
| Slug.GenerateSlug | components/admin/blog-form.tsx:60-65 | a slug holds only lower-case letters, digits and hyphens, with no two hyphens in a row, and with its hyphens removed it is exactly the lower-cased title's letters and digits in their order |
| Slug.SlugLeadingHyphen | components/admin/blog-form.tsx:60-65 | a title with leading whitespace gets a slug that starts with a hyphen, since nothing trims it |
| Slug.SlugTrailingHyphen | components/admin/blog-form.tsx:60-65 | a title with trailing whitespace gets a slug that ends with a hyphen |
| Slug.KeptEndsWithSpace | components/admin/blog-form.tsx:62-63 | trailing whitespace survives lower-casing and the character filter |
| Slug.SlugOfSlugDropsHyphens | components/admin/blog-form.tsx:60-65 | the slug of a slug is that slug with its hyphens removed |
| Slug.SlugIsNotIdempotent | components/admin/blog-form.tsx:60-65 | "a b" gives "a-b", whose own slug is "ab", so generating a slug twice changes it |
| Slug.WordSpaceWord | components/admin/blog-form.tsx:64 | one whitespace character between two other characters becomes a single hyphen |
| AdminForms.EmptyToNull | components/admin/blog-form.tsx:121 | an empty field is stored as null and any other value as itself |
| AdminForms.TitleChange | components/admin/blog-form.tsx:67-72 | the title always follows the input; the slug is regenerated from it only when no existing post is being edited |
| AdminForms.AddItem | components/admin/blog-form.tsx:74-79 | the trimmed input joins the list, and the input is cleared, exactly when it is non-empty and not yet listed; otherwise nothing changes |
| AdminForms.RemoveItem | components/admin/blog-form.tsx:81-83 | every entry equal to the removed one goes, the others stay in their order |
| AdminForms.AddItemKeepsNoDup | components/admin/project-form.tsx:55-60 | adding never creates a duplicate |
| AdminForms.RemoveUndoesAdd | components/admin/project-form.tsx:55-64 | removing the item just added gives back the list from before |
| AdminForms.AddItemIgnoresDuplicates | components/admin/blog-form.tsx:75 | an input whose trimmed form is already listed changes nothing and stays in the box |
| AdminForms.BlogValidationError | components/admin/blog-form.tsx:90-107 | the post is accepted exactly when the trimmed title, slug and content are all non-empty; otherwise the first blank field, in that order, names the error |
| AdminForms.ShapeBlog | components/admin/blog-form.tsx:116-124 | the title, slug and content are stored trimmed; a blank excerpt and an empty cover are stored as null; the flags and the category are copied |
| AdminForms.ValidatedRecordIsTrimmed | components/admin/blog-form.tsx:90-124 | a post that passes validation is stored with a non-empty title, slug and content, none of which has surrounding whitespace |
| AdminForms.CreateErrorMessage | components/admin/blog-form.tsx:163-170 | a unique violation (code 23505) reads as "slug already taken"; any other error shows the store's message, or a default when that is empty |
| AdminForms.UpdateErrorMessage | components/admin/blog-form.tsx:129-132 | a failed update shows the store's message, or a default when that is empty |
| AdminForms.TagsOfAppend | components/admin/blog-form.tsx:139 | a post's tags in two joined tables are its tags in the first followed by its tags in the second |
| AdminForms.TagsOfRowsFor | components/admin/blog-form.tsx:139 | the rows built for a post hold exactly its tags and none of any other post |
| AdminForms.TagsOfWithout | components/admin/blog-form.tsx:135 | deleting a post's rows leaves it without tags and every other post's tags as they were |
| AdminForms.ReplaceTags | components/admin/blog-form.tsx:134-141 | when both writes go through, the edited post's tags are exactly the form's list; whatever happens, no other post's tags change |
| AdminForms.SubmitBlog | components/admin/blog-form.tsx:85-189 | a validation error stops the save; a failed write shows the create or update message and stays on the form; otherwise the shaped post is written (an edit as an update stamped with the save time, a new post as an insert whose view, like, comment and share counters start at 0), its tags are replaced or added, and the editor returns to the list |
| AdminForms.AddTags | components/admin/blog-form.tsx:172-178 | when the insert goes through, a new post's tags are followed by the form's list; a failed insert leaves the table; other posts are untouched |
| AdminForms.ShapeProject | components/admin/project-form.tsx:74-85 | the project's text fields are stored as typed, with nothing trimmed; empty cover and link fields are stored as null |
| AdminForms.ProjectDefaults | components/admin/project-form.tsx:28-37 | the new-project form starts blank, unfeatured, at order 0 with no stack; an existing project's title, slug, flag, order and stack are taken as stored and its nullable text fields read null as "" |
| AdminForms.ProjectEditRoundTrip | components/admin/project-form.tsx:28-37 | opening a project and saving it unchanged writes back its title, slug, flag, order and stack; a null description or content comes back as ""; a URL column comes back unchanged exactly when it was not "", and an empty one as null |
| AdminForms.NewProjectIsBlank | components/admin/project-form.tsx:28-37 | the new-project form saved untouched writes an empty, unfeatured project at order 0 with no stack and null links |
| AdminForms.ThrownMessage | components/admin/project-form.tsx:97-98 | an Error shows its own message and any other thrown value shows "An error occurred" |
| AdminForms.SubmitProject | components/admin/project-form.tsx:66-102 | an existing project is updated and a new one inserted; the editor returns to the list exactly when the write does not throw, and otherwise shows the thrown message |
| AdminForms.ProjectAcceptsBlankTitle | components/admin/project-form.tsx:66-93 | a project with a blank title is saved as it is, because nothing is validated |
| AdminForms.ProductDefaults | components/admin/product-form.tsx:29-33 | missing or empty price and category default to "0" and "Digital"; only an explicit true makes a product featured; a product is active unless the stored flag says false |
| AdminForms.InactiveProductStaysInactive | components/admin/product-form.tsx:32 | a stored inactive product stays inactive in the editor, because `??` keeps an explicit false |
| AdminForms.ShapeProduct | components/admin/product-form.tsx:59-69 | an unparsable price is stored as 0, and a parsed one as its value; empty cover and link fields are stored as null; the rest is copied |
| AdminForms.ProductEditRoundTrip | components/admin/product-form.tsx:29-33 | saving a product unchanged keeps its featured and active flags and a non-empty category; an empty or missing category is saved as "Digital", a missing featured flag as false and a missing active flag as true |
| AdminForms.SubmitProduct | components/admin/product-form.tsx:51-86 | an existing product is updated and a new one inserted; the editor returns to the list exactly when the write does not throw, and otherwise shows the thrown message |
| Gallery.GetAll | lib/actions/gallery.ts:7-11 | every getter lists all rows of its table in ascending display order, and a failed read lists nothing |
| Gallery.Create | lib/actions/gallery.ts:19-24 | a create adds exactly the given row, and a store error is thrown with the table unchanged |
| Gallery.Delete | lib/actions/gallery.ts:27-34 | a delete removes exactly the rows with the id, keeping every other row in its order and with its number of copies, and a store error is thrown |
| Gallery.CreateThenListed | lib/actions/gallery.ts:7-24 | a row created without error appears in the next listing |
| Gallery.DeleteThenGone | lib/actions/gallery.ts:7-34 | after a delete without error, no row with that id is listed |
| Gallery.CreateGalleryVideo | lib/actions/gallery.ts:43-61 | the video's fields are stored as given, after the existing rows, and it gets a thumbnail exactly when an id can be extracted from its URL |
| Gallery.ShortLinkThumbnail | lib/actions/gallery.ts:49-51 | a youtu.be link's thumbnail is the maxresdefault image of the id it carries |
| Gallery.PageSections | app/gallery/page.tsx:48-284 | About Me is always shown; each media section is shown exactly when its list is non-empty; the "coming soon" note is shown exactly when all six lists are empty |
| Gallery.EmptyStateExcludesMedia | app/gallery/page.tsx:275-284 | the "coming soon" note never appears beside a media section, and about-details alone hide it |
| Gallery.PhotoImage | app/gallery/page.tsx:111-112 | a missing or empty image falls back to the placeholder and a missing or empty title to "Gallery photo"; present values are used as they are |
| Gallery.Attribution | app/gallery/page.tsx:229-234 | a quote has an attribution exactly when it has an author; the source follows the author only when it is present |
| YouTube.Run | lib/actions/gallery.ts:193 | the greedy group `([^&\n?#]+)` takes only id characters and stops just before the first character that is not one, or at the end |
| YouTube.RunIsSlice | lib/actions/gallery.ts:193 | the captured run is the text that follows its start position |
| YouTube.MatchAt | lib/actions/gallery.ts:193 | a match at one position captures a non-empty run of id characters |
| YouTube.MatchAtWitness | lib/actions/gallery.ts:193 | a match at a position is the whole run after one of the pattern's markers occurring there |
| YouTube.MatchAtNone | lib/actions/gallery.ts:193 | when nothing matches at a position, every marker occurring there is followed by no id character |
| YouTube.FirstMatchAt | lib/actions/gallery.ts:198 | the scan returns the leftmost matching position from its start, and finds none only when no later position matches |
| YouTube.Capture | lib/actions/gallery.ts:198-199 | a pattern captures something exactly when it matches somewhere, and then it captures the match at the leftmost matching position |
| YouTube.ExtractYouTubeId | lib/actions/gallery.ts:191-202 | the watch, short-link and embed pattern is tried first and the shorts pattern only when it fails; a returned id is a non-empty run of id characters |
| YouTube.IdIsMaximalRun | lib/actions/gallery.ts:191-202 | a returned id follows one of the four markers and is the whole run of id characters after it |
| YouTube.CaptureIsRun | lib/actions/gallery.ts:197-200 | a pattern's capture is the whole run of id characters after one of its markers |
| YouTube.NoMarkerNoId | lib/actions/gallery.ts:201 | a URL that contains none of the four markers yields null |
| YouTube.NoMarkerNoCapture | lib/actions/gallery.ts:198 | a pattern with no marker occurring in the URL captures nothing |
| YouTube.NoMatchBeforeY | lib/actions/gallery.ts:193-194 | every marker begins with 'y', so nothing matches inside a prefix that has no 'y' |
| YouTube.FirstMatchFinds | lib/actions/gallery.ts:198 | when nothing matches between two positions, scanning from the first finds what scanning from the second finds |
| YouTube.ExtractsWrittenId | lib/actions/gallery.ts:191-202 | a host without 'y', followed by a watch, short-link or embed marker and an id of id characters, gives back exactly that id |
| YouTube.RunToEnd | lib/actions/gallery.ts:193 | a run of id characters that reaches the end of the URL is captured whole |
| YouTube.AlternativesAtMarker | lib/actions/gallery.ts:193 | whichever of the first pattern's markers occurs at a position, the match there is the id after it |
| YouTube.ThumbnailUrl | lib/actions/gallery.ts:51 | a thumbnail exists exactly when an id was found, and it is that id's maxresdefault image |
| YouTube.EmbedSrc | app/gallery/page.tsx:144-149 | a recognised id is embedded as is, and an unrecognised URL interpolates "null" into the embed address |
| YouTube.EmbedSrcRoundTrip | app/gallery/page.tsx:144-149 | the embed address built from a recognised id is itself recognised, with the same id |
| Listings.CategoriesAreDistinctAndListed | app/blog/page.tsx:58 | the category list has no repeats and no empty entry, lists every non-empty category of the rows, and keeps the order of first appearance |
| Listings.FeaturedSplitIsPartition | app/blog/page.tsx:55-56 | splitting by the featured flag loses and duplicates nothing, puts no row on both sides, and keeps each side in list order |
| Listings.SearchProducts | components/store/product-search.tsx:20-31 | the results are the products, in their order, whose lower-cased title or description contains the lower-cased query (any product for an empty query) and whose category is the selected one, if any |
| Listings.EmptySearchFindsAll | components/store/product-search.tsx:23-27 | with no query and no category every product is found, in order |
| Listings.CategorySearchMatchesCategory | components/store/product-search.tsx:27 | with a category selected, every result has exactly that category |
| Listings.SearchIgnoresQueryCase | components/store/product-search.tsx:24-25 | lower-casing the query beforehand changes no result |
| Listings.TitleHitIsFound | components/store/product-search.tsx:24 | a product whose title contains the query verbatim matches the search |
| Listings.ShownProducts | components/store/product-search.tsx:96 | the grid shows the first eight results, or all of them when there are at most eight |
| Listings.FoundNoun | components/store/product-search.tsx:89 | the count reads "product" for exactly one result and "products" otherwise |
| Listings.GetProducts | app/store/page.tsx:20-28 | the store lists exactly the active products, each as often as the table holds it, newest first, and nothing when the read fails |
| Listings.StoreSplitIsPartition | app/store/page.tsx:33-34 | the store's featured and regular lists together hold every product once, each in list order |
| Listings.StoreCategoriesComeFromProducts | app/store/page.tsx:36 | the store offers each category at most once, and offers a category exactly when it is non-empty and some product has it |
| Listings.StorePage | app/store/page.tsx:62-172 | the featured block is shown exactly when some product is featured |
| Listings.StoreGridChoice | app/store/page.tsx:120-172 | "Store coming soon" shows exactly when there are no products; when every product is featured the grid area stays empty |
| Listings.PlanBlogQuery | app/blog/page.tsx:22-30 | the search filter is added only for a search with non-blank text, and uses it untrimmed; the category filter is added unless the category is empty or "all" |
| Listings.JoinTags | app/blog/page.tsx:36-39 | one entry per post, in order, each carrying that post |
| Listings.JoinedTagsBelong | app/blog/page.tsx:38 | each post carries exactly the tag rows with its id, in table order |
| Listings.SelectBlogs | app/blog/page.tsx:20-32 | the query returns exactly the published rows that pass the search and category filters, each as often as the table holds it, newest first, and nothing on a failed read |
| Listings.GetBlogs | app/blog/page.tsx:17-42 | the posts returned are exactly the published rows passing the page's search and category filters, newest first, one entry for each row the query returns and in its order; each carries exactly the tag rows with its id, none when the tag read failed; a failed post read returns nothing |
| Listings.JoinedFromSelected | app/blog/page.tsx:32-39 | attaching tags keeps exactly the posts the query selected, newest first |
| Listings.JoinKeepsPosts | app/blog/page.tsx:36-39 | attaching tags to any list of posts keeps exactly those posts, and keeps a newest-first list newest first |
| Listings.Heading | app/blog/page.tsx:112 | the grid's heading is the search when there is one, else the chosen category, else "All Articles" |
| Listings.BlogPage | app/blog/page.tsx:82-121 | at most two featured posts are shown, each a featured post of the list |
| Listings.AllFeaturedPostsRepeat | app/blog/page.tsx:90-119 | when every post is featured, the grid falls back to all posts, so the first two appear twice |
| Listings.GridHoldsRegularPosts | app/blog/page.tsx:119 | when some post is not featured, the grid holds exactly the posts that are not featured |
| Listings.BlogSplitIsPartition | app/blog/page.tsx:55-56 | the blog page's featured and regular lists together hold every post once |
| Listings.TotalViews | app/admin/page.tsx:16 | the left-to-right reduction adds up every post's views, a null count contributing 0 |
| Listings.SumViewsBounds | app/admin/page.tsx:16 | with non-negative counts the total is at least any single post's views |
| Listings.SumViewsNonNegative | app/admin/page.tsx:16 | with non-negative counts the total is non-negative |
| Listings.GetStats | app/admin/page.tsx:6-27 | the totals are the total views, the numbers of published posts and active products, and each count, or 0 when missing |
| Listings.GetData | app/page.tsx:17-55 | the setup notice is requested exactly when some query reports a missing table (PGRST205) and nothing threw; then, and after a throw, all lists are empty; otherwise each list is its query's rows, or empty |
| Listings.OtherErrorsAreLocal | app/page.tsx:40-45 | any other error empties only its own list; the other lists keep their rows |
| Listings.HomePage | app/page.tsx:68-91 | the home page shows only the setup notice exactly when setup is needed |
| Listings.MatchesSearch | components/store/product-search.tsx:23-25 | an empty query matches every product; otherwise the lower-cased title or description must contain the lower-cased query |
| Listings.MatchesCategory | components/store/product-search.tsx:27 | no selected category (or an empty one) matches every product; otherwise only products of exactly that category |
| Listings.SearchFilter | app/blog/page.tsx:24 | the `or` filter matches the untrimmed search text anywhere in the title, the excerpt or the content |
| Listings.Selected | app/blog/page.tsx:20-30 | a post is selected when it is published, passes the search filter when there is one and has the category when one is chosen |
| BlogFilters.Get | components/blog/blog-filters.tsx:22-27 | `get` finds nothing exactly when no entry has the key |
| BlogFilters.GetIsFirstValue | components/blog/blog-filters.tsx:22-27 | `get` finds a value exactly when the key has values, and then it is the first of them |
| BlogFilters.ValuesOfAppend | components/blog/blog-filters.tsx:22-27 | a key's values in two joined parameter lists are its values in the first followed by those in the second |
| BlogFilters.Delete | components/blog/blog-filters.tsx:26 | after `delete` no entry has the key |
| BlogFilters.DeleteKeepsOthers | components/blog/blog-filters.tsx:26 | `delete` leaves the key without values and every other key's values as they were |
| BlogFilters.ReplaceFirstValues | components/blog/blog-filters.tsx:24 | replacing a present key leaves it with only the new value and every other key's values as they were |
| BlogFilters.SetValues | components/blog/blog-filters.tsx:24 | after `set` the key holds exactly the new value, and every other key keeps its values |
| BlogFilters.NoEntryNoValues | components/blog/blog-filters.tsx:24 | a key that `get` does not find has no values |
| BlogFilters.HandleSearch | components/blog/blog-filters.tsx:20-30 | the search handler pushes the blog page with exactly the query string of its new parameters |
| BlogFilters.HandleCategoryChange | components/blog/blog-filters.tsx:32-42 | the category handler pushes the blog page with exactly the query string of its new parameters |
| BlogFilters.SearchUpdatesOnlySearch | components/blog/blog-filters.tsx:20-30 | `search` ends up holding exactly the typed value, or nothing for an empty value; every other parameter is untouched |
| BlogFilters.CategoryUpdatesOnlyCategory | components/blog/blog-filters.tsx:32-42 | `category` ends up holding exactly the chosen category, or nothing for "all" or an empty value; every other parameter is untouched |
| BlogFilters.EmptyQueryKeepsQuestionMark | components/blog/blog-filters.tsx:26-28 | removing the last parameter pushes "/blog?" with a dangling question mark |
| BlogFilters.HandleClearFilters | components/blog/blog-filters.tsx:44-48 | clearing always goes back to the bare "/blog" with no parameters |
| BlogFilters.FilterBarAndQuery | components/blog/blog-filters.tsx:50 | every filter the page's query applies counts as a filter for the bar, but a blank search counts for the bar while the query ignores it |
| BlogFilters.ReplaceFirst | components/blog/blog-filters.tsx:24 | replacing never lengthens the list; afterwards `get` reads the new value and no entry under the key holds another; a list without the key is unchanged |
| BlogFilters.Set | components/blog/blog-filters.tsx:24 | after `set`, `get` reads the new value and every entry under the key holds it |
| BlogFilters.GetAppendAbsent | components/blog/blog-filters.tsx:24 | appending to a list without the key makes `get` find the appended value |
| BlogFilters.QueryString | components/blog/blog-filters.tsx:28 | no parameters give the empty text; when no encoded pair contains `&`, cutting the text at `&` gives back every pair in order |
| SqlScripts.Statements | app/api/setup/route.ts:49-51 | every statement the splitter produces is non-empty, trimmed and free of `;` |
| SqlScripts.SetupStatements | app/api/setup/route.ts:44-51 | after the comment lines are dropped, every statement sent is non-empty, trimmed and free of `;` |
| SqlScripts.StatementsRoundTrip | app/api/setup/route.ts:49-51 | statements joined with `;` are split back into exactly those statements |
| SqlScripts.NoStatementsInEmptyText | app/api/setup/route.ts:49-51 | empty text holds no statement |
| SqlScripts.StatementsOfStatementPieces | app/api/setup/route.ts:49-51 | text whose `;` pieces are already statements yields exactly those pieces |
| SqlScripts.KeptLinesRoundTrip | app/api/setup/route.ts:46-48 | keeping some of a text's lines and joining them with newlines gives a text whose lines are exactly the kept ones |
| SqlScripts.StrippedLinesAreCodeLines | app/api/setup/route.ts:45-48 | the text left after stripping consists of exactly the script's lines that are not comment lines, in order |
| SqlScripts.StripKeepsCommentFreeScript | app/api/setup/route.ts:45-51 | a script without comment lines is not changed by the stripping and is split like any other text |
| SqlScripts.CommentOnlyScriptHasNoStatements | app/api/setup/route.ts:45-51 | a script made only of comment lines yields no statement |
| SqlScripts.TrailingCommentBecomesStatement | app/api/setup/route.ts:45-51 | only whole comment lines are stripped, so a `--` comment after a statement on the same line is sent as a statement of its own |
| SqlScripts.AnyFailedIff | app/api/setup/route.ts:53-80 | the error flag is set exactly when some statement's request did not come back ok |
| SqlScripts.SetupFile | app/api/setup/route.ts:34-86 | one loop iteration fails exactly when the file cannot be read, with the read error's message; otherwise its entry names its own file |
| SqlScripts.SetupFileStatus | app/api/setup/route.ts:37-86 | a readable file is "skipped" exactly when it is missing and "partial" exactly when one of its statements failed; it is "completed" exactly when no error is reported |
| SqlScripts.SetupLoop | app/api/setup/route.ts:34-87 | the loop fails exactly when some listed file is unreadable, with the first such file's message; otherwise it gives one entry per file, in order, each that file's own result |
| SqlScripts.SetupRoute | app/api/setup/route.ts:9-107 | a missing URL or service key gives the configuration error; an unreadable file gives the set-up failure; otherwise there is one result per listed file, in the listed order |
| SqlScripts.SetupStatus | app/api/setup/route.ts:12-105 | the route answers 200 exactly when setup was initiated, and 500 exactly when the configuration is missing or setup failed |
| SqlScripts.SetupOkUnlessUnreadable | app/api/setup/route.ts:42-105 | once configured, the route answers 200 exactly when no listed file is unreadable, whatever the statements did; a failure reports some unreadable file's message |
| SqlScripts.Terminated | app/api/db/init/route.ts:15 | one terminated statement per statement |
| SqlScripts.TerminatedShape | app/api/db/init/route.ts:15 | a statement followed by `;` has exactly one `;`, at its end |
| SqlScripts.ReadSqlFile | app/api/db/init/route.ts:7-16 | the file reads as one entry per statement, each a trimmed non-empty statement followed by its one `;` |
| SqlScripts.MissingFunction | app/api/db/init/route.ts:43 | an RPC error means "`exec_sql` is missing" when its code is 42883 or its message mentions "does not exist" |
| SqlScripts.ErrorText | app/api/db/init/route.ts:50 | an error is reported by its non-empty message, else by its code, else as "undefined" |
| SqlScripts.ReadSqlFileRoundTrip | app/api/db/init/route.ts:7-16 | a file of statements joined with `;` reads back as those statements, each terminated |
| SqlScripts.CommentLedStatement | app/api/db/init/route.ts:11-14 | a comment line before a one-line statement stays inside it, so the splitter returns one statement that starts with `--` |
| SqlScripts.CommentKeptByDbInit | app/api/db/init/route.ts:7-16 | `/api/db/init` sends the comment line together with its statement |
| SqlScripts.DashLineIsComment | app/api/setup/route.ts:47 | a line starting with `--` is a comment line |
| SqlScripts.CommentStrippedBySetup | app/api/setup/route.ts:45-51 | `/api/setup` strips the comment line and sends only the statement |
| SqlScripts.CodeAfterComment | app/api/setup/route.ts:46-48 | stripping a comment line followed by a code line leaves the code line |
| SqlScripts.CommentDropsStatementInSetupDatabase | scripts/setup-database.ts:57-60 | `setup-database.ts` drops a statement led by a comment line whole, since it starts with `--` |
| SqlScripts.RunStatements | app/api/db/init/route.ts:38-55 | the loop writes at most one detail line per statement |
| SqlScripts.FallbackIgnoresLaterStatements | app/api/db/init/route.ts:42-47 | the first reply saying the function is missing ends the loop: replies to later statements make no difference, and the fallback note is the last line |
| SqlScripts.ErrorsDoNotStopTheLoop | app/api/db/init/route.ts:49-51 | without a missing-function reply every statement is tried, and every failed one leaves its error line |
| SqlScripts.ScriptDetails | app/api/db/init/route.ts:34-60 | each script leaves at least one detail line |
| SqlScripts.ScriptDetailsShape | app/api/db/init/route.ts:34-60 | a readable script opens with its statement count and always closes with the processed line, whatever its statements did; an unreadable one leaves only the failure line |
| SqlScripts.FoundCountIsStatementCount | app/api/db/init/route.ts:36 | the reported count reads back as the number of statements in the file |
| SqlScripts.ScriptBlocks | app/api/db/init/route.ts:33-61 | one block of detail lines per script |
| SqlScripts.EveryScriptReported | app/api/db/init/route.ts:33-61 | every script's lines appear in full, in list order, so a failing script never stops the later ones |
| SqlScripts.ExecuteSqlScripts | app/api/db/init/route.ts:19-75 | the initialisation always reports success, with at least one detail line per script, because each script's failure is caught inside the loop |
| SqlScripts.DbInitStatus | app/api/db/init/route.ts:94-96 | the route answers 200 exactly when the report says success |
| SqlScripts.DbInitAlwaysAnswersOk | app/api/db/init/route.ts:92-96 | `/api/db/init` answers 200 whatever the scripts and the replies |
| SqlScripts.CleanSql | app/api/init-db/route.ts:43-46 | the cleaned text is empty exactly when the script has no line that is neither blank nor a comment |
| SqlScripts.CleanSqlLines | app/api/init-db/route.ts:43-46 | the cleaned text's lines are exactly the script's lines that are neither blank nor comments, in order, and it is empty exactly when there are none |
| SqlScripts.PrepareScript | app/api/init-db/route.ts:31-60 | each entry names its own file and carries text exactly when its status is "ready" |
| SqlScripts.SqlTexts | app/api/init-db/route.ts:67 | one text per entry |
| SqlScripts.AllSql | app/api/init-db/route.ts:65-68 | the batch is empty exactly when no entry has non-empty text |
| SqlScripts.AllSqlParts | app/api/init-db/route.ts:31-68 | every entry that contributes to the batch is a "ready" entry with non-empty text prepared from a script that was loaded, and the batch is empty exactly when no loaded script has display text |
| SqlScripts.InitDbRoute | app/api/init-db/route.ts:5-102 | a missing URL or service key gives the configuration error; otherwise there is one entry per listed file, in order, and success is the batch request's outcome |
| SqlScripts.InitDbStatus | app/api/init-db/route.ts:11-101 | the route answers 500 exactly for missing configuration and 200 otherwise, even when the batch failed |
| SqlScripts.InitDbMessageFollowsBatch | app/api/init-db/route.ts:89-101 | the success message and the "Completed" note appear exactly when the batch went through, with status 200 either way |
| SqlScripts.ScriptStatements | scripts/setup-database.ts:57-60 | every statement the script executes is non-empty, trimmed, free of `;` and does not start with `--` |
| SqlScripts.ScriptStatementsDropComments | scripts/setup-database.ts:57-60 | the script's statements are the shared splitter's statements minus those that start with `--` |
| SqlScripts.ScriptGuardSkipsNothing | scripts/setup-database.ts:63 | the inner blank-statement guard never skips a statement |
| SqlScripts.FileOrdersCountUp | scripts/setup-database.ts:20-44 | the file list numbers its entries 1 to 11 in list order |
| SqlScripts.SortKeepsNumberedList | scripts/setup-database.ts:82 | sorting a list already numbered in list order leaves it as written |
| SqlScripts.RunSqlFile | scripts/setup-database.ts:46-76 | each run names its file, and a file is skipped exactly when it is absent |
| SqlScripts.SetupDatabase | scripts/setup-database.ts:78-89 | one run per file |
| SqlScripts.PresentFileRunsAllStatements | scripts/setup-database.ts:53-70 | a present file has every one of its statements attempted, because statement errors are only logged |
| SqlScripts.SetupDatabaseRunsEveryFile | scripts/setup-database.ts:78-89 | for a list numbered in list order, the files run in that order, and each file's run depends only on that file, so a missing or failing file does not stop the others |
| Contact.SubmitContactMessage | lib/actions/contact.ts:19-73 | a submission succeeds exactly when the insert does; then the message is stored as unread with the given fields and an e-mail is attempted; a failed insert stores nothing and reports the save error |
| Contact.EmailNeverChangesOutcome | lib/actions/contact.ts:39-67 | what the mail service does never changes what a submission reports or stores |
| Contact.GetContactMessages | lib/actions/contact.ts:83-97 | the admin list holds every stored message, newest first, and nothing when the read fails |
| Contact.UpdateMessageStatus | lib/actions/contact.ts:99-114 | any status string is written when the update goes through; a store error is reported as failure, not thrown, and changes nothing |
| Contact.StatusUpdateTouchesOnlyStatus | lib/actions/contact.ts:102-105 | a status update touches no other field of the row and no other row |
| Contact.ReplyToMessage | lib/actions/contact.ts:116-176 | a reply succeeds exactly when one row has the id and the update goes through, and then that row is marked replied; otherwise nothing changes |
| Contact.MissingMessageGetsNoReply | lib/actions/contact.ts:121-127 | a reply to a message that does not exist fails and changes nothing |
| Contact.ReplyMarksReplied | lib/actions/contact.ts:129-168 | a successful reply marks the row replied, with the reply text and status "replied", whatever the mail service did, and leaves the other rows alone |
| Contact.HandleReply | components/admin/contact-messages-list.tsx:29-54 | the server is called exactly when a message is selected and the trimmed reply is non-empty; on success the list marks it replied and the dialog closes, otherwise the list is unchanged |
| Contact.ListFollowsServerReply | components/admin/contact-messages-list.tsx:34-47 | after a successful reply the local list equals what the server wrote, including the untrimmed reply text |
| Contact.HandleMarkAsRead | components/admin/contact-messages-list.tsx:56-59 | the list shows the message as read as if the update had gone through, whatever the server answered |
| Contact.MarkAsReadIgnoresFailure | components/admin/contact-messages-list.tsx:56-59 | when the server update fails the list still shows "read" while the store keeps "unread", so the two disagree |
| Contact.StatusLabel | components/admin/contact-messages-list.tsx:78 | the label is the status with its first letter upper-cased and the rest unchanged |
| Contact.KnownStatusLabels | components/admin/contact-messages-list.tsx:78 | the three statuses the program writes read "Unread", "Read" and "Replied" |
| SetupPage.Toggle | app/setup/page.tsx:38-42 | clicking a script flips whether it is ticked and leaves every other script as it was |
| SetupPage.ToggleKeepsNoDup | app/setup/page.tsx:38-42 | ticking and unticking never lists a script twice |
| SetupPage.ToggleTwice | app/setup/page.tsx:38-42 | clicking the same script twice restores which scripts are ticked, and the exact list when it was unticked |
| SetupPage.ToggleStaysReachable | app/setup/page.tsx:38-42 | clicking a listed script keeps the ticked list free of duplicates and of unlisted names |
| SetupPage.AllCompleteIffEveryScript | app/setup/page.tsx:68-204 | for a reachable ticked list, the length test holds exactly when every listed script is ticked, and the remaining count is the number of unticked scripts |
| SetupPage.AutoSetup | app/setup/page.tsx:44-66 | a result is always shown; it is a success exactly when the response is ok and reports success, and then every script is ticked; a failure leaves the checklist |
| SetupPage.AutoSetupFailureMessage | app/setup/page.tsx:55-62 | a failed setup shows the route's message when it has one, the manual-setup hint when it does not, and an exception's own message |
| SetupPage.AutoSetupCompletesChecklist | app/setup/page.tsx:44-204 | the ticked list stays reachable; after a successful automatic setup every script is ticked and the page says setup is complete, which it says exactly on success or when all scripts were already ticked |
| SetupPage.ChecklistHasNoDuplicates | app/setup/page.tsx:10-31 | the page's four scripts are distinct |
| Navigation.AboutActiveOnlyOnHome | components/layout/site-header.tsx:49-51 | the about anchor is highlighted exactly on the home page |
| Navigation.HeaderActiveIsPrefix | components/layout/site-header.tsx:52 | a plain link is highlighted exactly on the pathnames it prefixes, with no segment boundary, so "/blog" is also highlighted on "/blogroll" |
| Navigation.HeaderAtMostOneActive | components/layout/site-header.tsx:48-53 | in a header list shaped like the site's, at most one link is highlighted |
| Navigation.HeaderHrefsShape | components/layout/site-header.tsx:11-18 | the site's header list has that shape |
| Navigation.OnScroll | components/layout/site-header.tsx:26-28 | the header turns solid exactly when the page is scrolled past 50 pixels, and nothing else changes |
| Navigation.OnPathname | components/layout/site-header.tsx:33-35 | after a navigation to another pathname the mobile menu is closed; staying on the same pathname leaves it |
| Navigation.AdminActiveMeaning | components/admin/admin-sidebar.tsx:42 | the dashboard is highlighted only on "/admin" itself, and a section on every pathname it prefixes |
| Navigation.AdminAtMostOneActive | components/admin/admin-sidebar.tsx:42 | in an admin list shaped like the two menus, at most one entry is highlighted |
| Navigation.NothingActiveOutsideAdmin | components/admin/admin-mobile-nav.tsx:28 | a pathname outside "/admin" highlights no entry |
| Navigation.AdminListsShape | components/admin/admin-sidebar.tsx:18-27 | the sidebar's and the mobile menu's lists both have that shape |
| Navigation.SidebarShape | components/admin/admin-sidebar.tsx:18-27 | the sidebar's list has that shape |
| Navigation.MobileShape | components/admin/admin-mobile-nav.tsx:8-14 | the mobile menu's list has that shape |
| Navigation.MobileMenuOmissions | components/admin/admin-mobile-nav.tsx:8-14 | on the comments, contact and gallery pages the mobile menu highlights nothing, while the sidebar highlights the matching entry |
| Toc.Headings | components/blog/table-of-contents.tsx:26 | exactly the `h2` and `h3` elements, as a subsequence of the page's elements, so in document order |
| Toc.TocItems | components/blog/table-of-contents.tsx:28-35 | one item per heading, each of level 2 or 3 |
| Toc.ItemsFollowHeadings | components/blog/table-of-contents.tsx:29-33 | each item has its heading's own id, or "heading-" and its position when it has none; its text or ""; level 3 exactly for an `h3` |
| Toc.NatToStringInjective | components/blog/table-of-contents.tsx:29 | different positions are written as different numbers |
| Toc.FallbackIdsDiffer | components/blog/table-of-contents.tsx:29 | two headings without an id never get the same generated id |
| Toc.ExplicitIdCanCollide | components/blog/table-of-contents.tsx:29 | a heading whose own id looks generated can collide with a later heading's generated id |
| Toc.NoHeadingsNoToc | components/blog/table-of-contents.tsx:60 | the table of contents is shown exactly when the post has an `h2` or `h3` |
| Toc.OnIntersect | components/blog/table-of-contents.tsx:42-47 | a report in which nothing intersects leaves the active heading |
| Toc.LastIntersectingWins | components/blog/table-of-contents.tsx:43-46 | the active heading is that of the last intersecting entry of a report |
| Toc.ScrollToHeading | components/blog/table-of-contents.tsx:62-70 | the mobile panel closes only when the heading exists in the document; otherwise it is left as it was |
| Contact.MarkReplied | lib/actions/contact.ts:158-166 | every row with the id becomes replied, with status "replied" and the reply text; every other row and every id stay as they were |
| Navigation.HeaderActive | components/layout/site-header.tsx:48-53 | the two home anchors are highlighted only on "/"; any other link on its own pathname or, unless it is "/", on any pathname starting with its part before `#` |
| Navigation.AdminActive | components/admin/admin-sidebar.tsx:42 | a section is highlighted on its own pathname, and every section but the dashboard also on pathnames it prefixes |
| Navigation.HeaderEffectsIndependent | components/layout/site-header.tsx:25-35 | the scroll and pathname effects commute, only the latest scroll position counts, and a repeated pathname changes nothing |
| Toc.ItemId | components/blog/table-of-contents.tsx:29 | an entry's id is never empty, and is the heading's own id exactly when it has one |
| Toc.Level | components/blog/table-of-contents.tsx:33 | the level is one decimal digit, 2 for an `h2` and 3 for an `h3` |
| Toc.ScrollToHeadingSettles | components/blog/table-of-contents.tsx:62-70 | clicking an entry twice is clicking it once, and a closed panel stays closed |
| Text.Lower | components/store/product-search.tsx:24 | lower-casing maps each character on its own and keeps the length |
| Text.Noun | components/store/product-search.tsx:89 | a counted word is the bare word exactly for a count of one, and the word with an "s" appended for any other count |
| Text.TrimStart | components/blog/blog-comments.tsx:76 | dropping leading whitespace leaves a suffix of the input that starts with a non-space character or is empty, and only whitespace was dropped |
| Text.TrimEnd | components/blog/blog-comments.tsx:76 | dropping trailing whitespace leaves a prefix of the input that ends with a non-space character or is empty, and only whitespace was dropped |
| Text.TrimEmptyIffAllSpace | components/blog/blog-comments.tsx:76 | `!s.trim()` holds exactly for strings made only of whitespace |
| Text.TrimIsTrimmed | components/admin/blog-form.tsx:117-120 | a trimmed string neither starts nor ends with whitespace |
| Text.TrimIdempotent | components/admin/blog-form.tsx:117-120 | trimming twice is trimming once |
| Text.Split | app/api/setup/route.ts:46 | `split` gives at least one piece, and no piece contains the separator |
| Text.JoinSplit | app/api/setup/route.ts:46-48 | splitting a text and joining it again with the same separator gives the text back |
| Text.SplitJoin | app/api/setup/route.ts:48-49 | joining separator-free pieces and splitting again gives the pieces back |
| Text.NatToStringRoundTrip | components/blog/table-of-contents.tsx:29 | the decimal text of a position reads back as that position |
| Seqs.Filter | components/store/product-search.tsx:21-30 | `filter` keeps exactly the elements that pass the test, and nothing else |
| Seqs.FilterIsSubsequence | app/store/page.tsx:33-34 | filtering keeps the surviving elements in their original order |
| Seqs.FilterMultiplicity | app/store/page.tsx:33-34 | filtering keeps each passing element exactly as many times as it occurs, and drops every other element |
| Seqs.FilterKeepsCounts | lib/actions/gallery.ts:29 | a filter is an exact deletion: order kept, and each surviving element with its number of copies |
| Seqs.FilterPartition | app/store/page.tsx:33-34 | filtering by a test and by its negation splits a list in two, losing and duplicating nothing |
| Seqs.FilterCounts | app/admin/page.tsx:17 | the length of a filtered list is the number of elements that pass the test |
| Seqs.Distinct | app/blog/page.tsx:58 | `Array.from(new Set(...))` lists each element of the input once |
| Seqs.DistinctFirstOccurrenceOrder | app/blog/page.tsx:58 | the distinct elements come in the order of their first occurrence |
| Seqs.Take | app/blog/page.tsx:90 | `slice(0, n)` is the first n elements, or all of them when there are fewer |
| Ordering.SortBy | lib/actions/gallery.ts:9 | ascending order by a key is a sorted permutation of the input |
| Ordering.SortDescBy | app/store/page.tsx:26 | descending order by a key is a sorted permutation of the input |
| Ordering.SortSortedIsIdentity | scripts/setup-database.ts:82 | sorting an already ordered list leaves it unchanged |

## Left out

- Rendering, styling, icons and loading spinners: the `isLoading`/`isSubmitting` flags only disable buttons, and no operation depends on them.
- Concurrency: two requests racing on the same row are not modelled. Each action is one atomic step on the store.
- Floating point: the scroll position is an integer. `parseFloat` is an input (`None` for NaN). Prices are reals.
- Unicode: trimming and `\s` use the ASCII whitespace characters, and case mapping covers only 'A'..'Z'.
- Postgres `ilike` pattern matching: the blog query's text predicate is an input function. The query string it is given is modelled exactly.
- Form-urlencoding: `URLSearchParams.toString()` encodes each key and value by the application/x-www-form-urlencoded rules. The query-string builder takes that encoder as a parameter.
- Timers: the comment form's 1.5-second callback (components/blog/blog-comments.tsx:93-96) re-fetches the comments and clears `submitted`. It is not modelled, so `CommentThread.HandleSubmit` leaves `submitted` true. The post page's 2-second reset of the "copied" tick is modelled as an elapsed-time input.
- The `increment_blog_views` database function is not part of this model. The model takes it to add one to the post's count, reading a null count as 0, as the fallback update does.
- The DOM: `DOMParser` parsing is left out, and the table of contents takes the document's elements as input. `IntersectionObserver` reports are an input list. `scrollIntoView` is a membership test.
- The database schema's own behaviour: cascading deletes, triggers and row-level security. The schema is not part of this model, so the model takes the code's view, in which deleting a comment leaves its replies.
- `createClient` failing (missing environment variables), the contact actions' outer "unexpected error" catch, and `updated_at` timestamps written by the database.
- The e-mail service: its outcome is a parameter that never changes a result, as in the code.
- scripts/execute-sql.ts and the app/api/db/sql-scripts listing are not part of this model.
- The environment check and `process.exit` in scripts/setup-database.ts: the model starts once the client exists.
- Authentication and routing guards: the admin pages assume a signed-in administrator.
- BlogActions.LikesCount: its contract bounds the count and gives 0 on a failed read. What the count means is stated by `BlogActions.ToggleMovesCountByOne` and `BlogActions.UnlikeDropsOne`.
- BlogActions.SharesCount: its contract bounds the count and gives 0 on a failed read. `BlogActions.ShareIsNeverDeduplicated` states how the count grows.
- BlogActions.CommentCount: its contract bounds the count by the post's comments and gives 0 on a failed read. `BlogActions.HidingOnlyChangesCount` states its link to approval.
- Slug.Hyphenate: its own contract states only emptiness. `Slug.HyphenateLetters` states that the non-hyphen characters are the input's non-whitespace characters in order; `Slug.HyphenateFirst`, `Slug.HyphenateLast` and `Slug.HyphenateNoDouble` state where hyphens may stand at the ends and that none are doubled. No lemma pins the position of each interior hyphen against the whitespace run it replaces.
- Listings.StorePage: its contract states only when the featured block appears. `Listings.StoreSplitIsPartition` and `Listings.StoreGridChoice` carry the split and the grid.
- Listings.BlogPage: its contract bounds the featured slice. `Listings.BlogSplitIsPartition`, `Listings.GridHoldsRegularPosts` and `Listings.AllFeaturedPostsRepeat` carry the rest.
- SqlScripts.RunStatements: its contract bounds the number of detail lines. `SqlScripts.FallbackIgnoresLaterStatements` and `SqlScripts.ErrorsDoNotStopTheLoop` state what the lines say.
- SqlScripts.ScriptDetails: its contract states only that every script is reported. `SqlScripts.ScriptDetailsShape` and `SqlScripts.FoundCountIsStatementCount` carry the rest.

=== FILE: admin_forms.dfy ===
/** The admin editors for posts, projects and products: auto-slugging,
    the tag and tech-stack lists, validation and the record each form
    sends to the store. */
module AdminForms {
  import opened Wrappers
  import opened Seqs
  import opened Text
  import opened Slug

  // ---------------------------------------------------------------- shared

  /** `value || null` on a text field. */
  function EmptyToNull(s: string): (r: Option<string>)
    ensures r.None? <==> s == ""
    ensures r.Some? ==> r.value == s
  {
    if s == "" then None else Some(s)
  }

  /** `handleTitleChange`: the title always follows the input; the slug is
      regenerated from it only on a create form (no record being edited). */
  function TitleChange(slug: string, value: string, editing: bool): (r: (string, string))
    ensures r.0 == value
    ensures editing ==> r.1 == slug
    ensures !editing ==> r.1 == GenerateSlug(value)
  {
    (value, if editing then slug else GenerateSlug(value))
  }

  /** `addTag`/`addTech`: the trimmed input joins the list when it is
      non-empty and not already listed, and only then is the input cleared. */
  function AddItem(items: seq<string>, input: string): (r: (seq<string>, string))
    ensures var t := Trim(input);
      if t != "" && t !in items then r == (items + [t], "") else r == (items, input)
  {
    var t := Trim(input);
    if t != "" && t !in items then (items + [t], "") else (items, input)
  }

  /** `removeTag`/`removeTech`: every equal entry goes, the rest keep order. */
  function RemoveItem(items: seq<string>, item: string): (r: seq<string>)
    ensures item !in r
    ensures forall x :: x in r <==> x in items && x != item
    ensures IsSubsequence(r, items)
  {
    FilterIsSubsequence((x: string) => x != item, items);
    Filter((x: string) => x != item, items)
  }

  /** Adding keeps the list free of duplicates. */
  lemma AddItemKeepsNoDup(items: seq<string>, input: string)
    requires NoDup(items)
    ensures NoDup(AddItem(items, input).0)
  {
  }

  /** Removing what was just added gives back the list before. */
  lemma RemoveUndoesAdd(items: seq<string>, input: string)
    requires Trim(input) != "" && Trim(input) !in items
    ensures RemoveItem(AddItem(items, input).0, Trim(input)) == items
  {
    var t := Trim(input);
    FilterAppend((x: string) => x != t, items, [t]);
    FilterKeepsAll((x: string) => x != t, items);
  }

  /** Adding an item already listed changes nothing but leaves the input. */
  lemma AddItemIgnoresDuplicates(items: seq<string>, input: string)
    requires Trim(input) in items
    ensures AddItem(items, input) == (items, input)
  {
  }

  /** A store write that failed: the Postgres error code and message. */
  datatype DbError = DbError(code: string, message: string)

  // ---------------------------------------------------------------- blog posts

  datatype BlogFields = BlogFields(
    title: string, slug: string, excerpt: string, content: string, coverImage: string,
    published: bool, featured: bool, category: string, tags: seq<string>)

  /** The row the blog editor writes. */
  datatype BlogRecord = BlogRecord(
    title: string, slug: string, excerpt: Option<string>, content: string, coverImage: Option<string>,
    published: bool, featured: bool, category: string)

  /** Title, then slug, then content: the first one that is blank after
      trimming names the error. */
  function BlogValidationError(f: BlogFields): (r: Option<string>)
    ensures r.None? <==> Trim(f.title) != "" && Trim(f.slug) != "" && Trim(f.content) != ""
    ensures Trim(f.title) == "" ==> r == Some("Title is required")
    ensures Trim(f.title) != "" && Trim(f.slug) == "" ==> r == Some("Slug is required")
    ensures Trim(f.title) != "" && Trim(f.slug) != "" && Trim(f.content) == "" ==> r == Some("Content is required")
  {
    if Trim(f.title) == "" then Some("Title is required")
    else if Trim(f.slug) == "" then Some("Slug is required")
    else if Trim(f.content) == "" then Some("Content is required")
    else None
  }

  /** Title, slug, excerpt and content are trimmed; a blank excerpt and an
      empty cover become null. */
  function ShapeBlog(f: BlogFields): (r: BlogRecord)
    ensures r.title == Trim(f.title) && r.slug == Trim(f.slug) && r.content == Trim(f.content)
    ensures r.excerpt.None? <==> Trim(f.excerpt) == ""
    ensures r.excerpt.Some? ==> r.excerpt.value == Trim(f.excerpt)
    ensures r.coverImage == EmptyToNull(f.coverImage)
    ensures r.published == f.published && r.featured == f.featured && r.category == f.category
  {
    BlogRecord(Trim(f.title), Trim(f.slug), EmptyToNull(Trim(f.excerpt)), Trim(f.content),
               EmptyToNull(f.coverImage), f.published, f.featured, f.category)
  }

  /** A validated record has non-blank title, slug and content that carry
      no surrounding whitespace. */
  lemma ValidatedRecordIsTrimmed(f: BlogFields)
    requires BlogValidationError(f).None?
    ensures var r := ShapeBlog(f);
      r.title != "" && r.slug != "" && r.content != ""
      && Trim(r.title) == r.title && Trim(r.slug) == r.slug && Trim(r.content) == r.content
  {
    TrimIdempotent(f.title);
    TrimIdempotent(f.slug);
    TrimIdempotent(f.content);
  }

  const SlugTakenMessage := "A post with this slug already exists. Please use a different slug."

  /** The message a failed create shows: unique violation 23505 means the
      slug is taken; otherwise the store's message, or a default. */
  function CreateErrorMessage(e: DbError): (m: string)
    ensures e.code == "23505" ==> m == SlugTakenMessage
    ensures e.code != "23505" && e.message != "" ==> m == e.message
    ensures m != ""
  {
    if e.code == "23505" then SlugTakenMessage
    else if e.message != "" then e.message
    else "Failed to create post"
  }

  function UpdateErrorMessage(e: DbError): (m: string)
    ensures e.message != "" ==> m == e.message
    ensures m != ""
  {
    if e.message != "" then e.message else "Failed to update post"
  }

  /** One row of `blog_tags`. */
  datatype TagRow = TagRow(blogId: string, tag: string)

  function TagRowsFor(blogId: string, tags: seq<string>): seq<TagRow> {
    seq(|tags|, i requires 0 <= i < |tags| => TagRow(blogId, tags[i]))
  }

  /** The tags the table holds for one post, in table order. */
  function TagsOf(table: seq<TagRow>, blogId: string): (r: seq<string>)
    ensures |r| <= |table|
  {
    if table == [] then []
    else (if table[0].blogId == blogId then [table[0].tag] else []) + TagsOf(table[1..], blogId)
  }

  lemma {:induction false} TagsOfAppend(a: seq<TagRow>, b: seq<TagRow>, blogId: string)
    ensures TagsOf(a + b, blogId) == TagsOf(a, blogId) + TagsOf(b, blogId)
  {
    if a != [] {
      TagsOfAppend(a[1..], b, blogId);
      assert (a + b)[1..] == a[1..] + b;
    } else {
      assert a + b == b;
    }
  }

  lemma {:induction false} TagsOfRowsFor(blogId: string, other: string, tags: seq<string>)
    ensures TagsOf(TagRowsFor(blogId, tags), other) == if other == blogId then tags else []
  {
    if tags != [] {
      TagsOfRowsFor(blogId, other, tags[1..]);
      assert TagRowsFor(blogId, tags)[1..] == TagRowsFor(blogId, tags[1..]);
    }
  }

  lemma {:induction false} TagsOfWithout(table: seq<TagRow>, blogId: string, other: string)
    ensures TagsOf(Filter((t: TagRow) => t.blogId != blogId, table), other)
         == if other == blogId then [] else TagsOf(table, other)
  {
    if table != [] {
      TagsOfWithout(table[1..], blogId, other);
      var p := (t: TagRow) => t.blogId != blogId;
      var head := if p(table[0]) then [table[0]] else [];
      assert Filter(p, table) == head + Filter(p, table[1..]);
      TagsOfAppend(head, Filter(p, table[1..]), other);
    }
  }

  /** Saving an edited post replaces its tags wholesale: every row of the
      post is deleted, then the current list is inserted. The two writes'
      errors are only logged, so each is a separate outcome. */
  function ReplaceTags(table: seq<TagRow>, blogId: string, tags: seq<string>,
                       deleted: Outcome, inserted: Outcome): (r: seq<TagRow>)
    ensures deleted.Ok? && inserted.Ok? ==> TagsOf(r, blogId) == tags
    ensures forall other :: other != blogId ==> TagsOf(r, other) == TagsOf(table, other)
  {
    var kept := if deleted.Ok? then Filter((t: TagRow) => t.blogId != blogId, table) else table;
    var added := if inserted.Ok? && |tags| > 0 then TagRowsFor(blogId, tags) else [];
    TagsOfAppend(kept, added, blogId);
    TagsOfWithout(table, blogId, blogId);
    TagsOfRowsFor(blogId, blogId, tags);
    forall other | other != blogId ensures TagsOf(kept + added, other) == TagsOf(table, other) {
      TagsOfAppend(kept, added, other);
      TagsOfWithout(table, blogId, other);
      TagsOfRowsFor(blogId, other, tags);
    }
    kept + added
  }

  /** The write the blog editor sends: an update of the edited row, stamped
      with the time of the save, or an insert that also starts the post's
      view, like, comment and share counters. */
  datatype BlogWrite =
    | UpdateBlog(record: BlogRecord, updatedAt: string)
    | InsertBlog(record: BlogRecord, views: nat, likesCount: nat, commentsCount: nat, sharesCount: nat)

  /** What the blog editor's submit leaves behind: the message shown (if
      any), the write sent (if any), the tag table, and whether it went
      back to the post list. */
  datatype BlogSave = BlogSave(error: Option<string>, written: Option<BlogWrite>, tags: seq<TagRow>, done: bool)

  /** `handleSubmit` of the blog editor. `editing` is the id of the post
      being edited, if any; `newId` is the id the store gives a created post;
      `now` is the clock reading an update is stamped with. */
  function SubmitBlog(f: BlogFields, editing: Option<string>, newId: string, now: string, writeError: Option<DbError>,
                      table: seq<TagRow>, tagsDeleted: Outcome, tagsInserted: Outcome): (r: BlogSave)
    ensures BlogValidationError(f).Some? ==> r == BlogSave(BlogValidationError(f), None, table, false)
    ensures BlogValidationError(f).None? && writeError.Some? ==>
      r.written.None? && r.tags == table && !r.done
      && r.error == Some(if editing.Some? then UpdateErrorMessage(writeError.value) else CreateErrorMessage(writeError.value))
    ensures BlogValidationError(f).None? && writeError.None? ==>
      r.done && r.error.None? && r.written.Some? && r.written.value.record == ShapeBlog(f)
    ensures (BlogValidationError(f).None? && writeError.None? && editing.Some? ==>
      r.written.value.UpdateBlog? && r.written.value.updatedAt == now
      && r.tags == ReplaceTags(table, editing.value, f.tags, tagsDeleted, tagsInserted))
    ensures (BlogValidationError(f).None? && writeError.None? && editing.None? ==>
      r.written.value.InsertBlog?
      && r.written.value.views == 0 && r.written.value.likesCount == 0
      && r.written.value.commentsCount == 0 && r.written.value.sharesCount == 0
      && r.tags == AddTags(table, newId, f.tags, tagsInserted))
  {
    if BlogValidationError(f).Some? then BlogSave(BlogValidationError(f), None, table, false)
    else if writeError.Some? then
      BlogSave(Some(if editing.Some? then UpdateErrorMessage(writeError.value) else CreateErrorMessage(writeError.value)),
               None, table, false)
    else if editing.Some? then
      BlogSave(None, Some(UpdateBlog(ShapeBlog(f), now)),
               ReplaceTags(table, editing.value, f.tags, tagsDeleted, tagsInserted), true)
    else
      BlogSave(None, Some(InsertBlog(ShapeBlog(f), 0, 0, 0, 0)), AddTags(table, newId, f.tags, tagsInserted), true)
  }

  /** A created post's tags are inserted after it; the insert's error is
      only logged. */
  function AddTags(table: seq<TagRow>, blogId: string, tags: seq<string>, inserted: Outcome): (r: seq<TagRow>)
    ensures inserted.Ok? ==> TagsOf(r, blogId) == TagsOf(table, blogId) + tags
    ensures inserted.Err? ==> r == table
    ensures forall other :: other != blogId ==> TagsOf(r, other) == TagsOf(table, other)
  {
    var added := if inserted.Ok? && |tags| > 0 then TagRowsFor(blogId, tags) else [];
    TagsOfAppend(table, added, blogId);
    TagsOfRowsFor(blogId, blogId, tags);
    forall other | other != blogId ensures TagsOf(table + added, other) == TagsOf(table, other) {
      TagsOfAppend(table, added, other);
      TagsOfRowsFor(blogId, other, tags);
    }
    table + added
  }

  // ---------------------------------------------------------------- projects

  datatype ProjectFields = ProjectFields(
    title: string, slug: string, description: string, content: string, coverImage: string,
    liveUrl: string, githubUrl: string, featured: bool, displayOrder: int, techStack: seq<string>)

  datatype ProjectRecord = ProjectRecord(
    title: string, slug: string, description: string, content: string, coverImage: Option<string>,
    liveUrl: Option<string>, githubUrl: Option<string>, featured: bool, displayOrder: int, techStack: seq<string>)

  /** `projectData`: nothing is trimmed or checked; empty URLs become null. */
  function ShapeProject(f: ProjectFields): (r: ProjectRecord)
    ensures r.title == f.title && r.slug == f.slug && r.description == f.description && r.content == f.content
    ensures r.coverImage == EmptyToNull(f.coverImage) && r.liveUrl == EmptyToNull(f.liveUrl)
      && r.githubUrl == EmptyToNull(f.githubUrl)
    ensures r.featured == f.featured && r.displayOrder == f.displayOrder && r.techStack == f.techStack
  {
    ProjectRecord(f.title, f.slug, f.description, f.content, EmptyToNull(f.coverImage),
                  EmptyToNull(f.liveUrl), EmptyToNull(f.githubUrl), f.featured, f.displayOrder, f.techStack)
  }

  /** A stored project as the editor receives it: the text columns other
      than title and slug are nullable. */
  datatype StoredProject = StoredProject(
    title: string, slug: string, description: Option<string>, content: Option<string>,
    coverImage: Option<string>, liveUrl: Option<string>, githubUrl: Option<string>,
    featured: bool, displayOrder: int, techStack: seq<string>)

  /** `value || ""` on a nullable text column. */
  function TextOrEmpty(v: Option<string>): string {
    v.GetOr("")
  }

  /** The project editor's initial values, `project?.field || default`:
      text fields default to "", `featured` to false, the order to 0 and
      the stack to []; `None` is the new-project form. */
  function ProjectDefaults(p: Option<StoredProject>): (f: ProjectFields)
    ensures p.None? ==> f == ProjectFields("", "", "", "", "", "", "", false, 0, [])
    ensures (p.Some? ==>
      f.title == p.value.title && f.slug == p.value.slug
      && f.featured == p.value.featured && f.displayOrder == p.value.displayOrder
      && f.techStack == p.value.techStack)
    ensures (p.Some? ==>
      f.description == TextOrEmpty(p.value.description)
      && f.content == TextOrEmpty(p.value.content) && f.coverImage == TextOrEmpty(p.value.coverImage)
      && f.liveUrl == TextOrEmpty(p.value.liveUrl) && f.githubUrl == TextOrEmpty(p.value.githubUrl))
  {
    match p
    case None => ProjectFields("", "", "", "", "", "", "", false, 0, [])
    case Some(q) =>
      ProjectFields(q.title, q.slug, TextOrEmpty(q.description), TextOrEmpty(q.content),
                    TextOrEmpty(q.coverImage), TextOrEmpty(q.liveUrl), TextOrEmpty(q.githubUrl),
                    q.featured, q.displayOrder, q.techStack)
  }

  /** Opening a project and saving it unchanged writes back what was
      stored, except that a null description or content comes back as ""
      and an empty URL column comes back as null. */
  lemma ProjectEditRoundTrip(p: StoredProject)
    ensures var r := ShapeProject(ProjectDefaults(Some(p)));
      r.title == p.title && r.slug == p.slug && r.featured == p.featured
      && r.displayOrder == p.displayOrder && r.techStack == p.techStack
      && r.description == TextOrEmpty(p.description) && r.content == TextOrEmpty(p.content)
    ensures var r := ShapeProject(ProjectDefaults(Some(p)));
      (r.coverImage == p.coverImage <==> p.coverImage != Some(""))
      && (r.liveUrl == p.liveUrl <==> p.liveUrl != Some(""))
      && (r.githubUrl == p.githubUrl <==> p.githubUrl != Some(""))
    ensures var r := ShapeProject(ProjectDefaults(Some(p)));
      r.coverImage.Some? ==> r.coverImage.value != ""
  {
  }

  /** The new-project form, saved untouched, writes an empty, unfeatured
      project with null links. */
  lemma NewProjectIsBlank()
    ensures var r := ShapeProject(ProjectDefaults(None));
      r.title == "" && r.slug == "" && !r.featured && r.displayOrder == 0 && r.techStack == []
      && r.coverImage.None? && r.liveUrl.None? && r.githubUrl.None?
  {
  }

  /** The form's error text for a caught value. */
  function ThrownMessage(t: Thrown): (m: string)
    ensures t.ErrorObject? ==> m == t.message
    ensures t.OtherValue? ==> m == "An error occurred"
  {
    match t
    case ErrorObject(msg) => msg
    case OtherValue => "An error occurred"
  }

  /** Where a project or product save writes. */
  datatype Write<R> = Update(id: string, row: R) | Insert(row: R)

  datatype ProjectSave = ProjectSave(error: Option<string>, write: Write<ProjectRecord>, done: bool)

  /** `handleSubmit` of the project editor: update the given project, else
      insert; a failed write shows its message and stays on the form. */
  function SubmitProject(f: ProjectFields, editing: Option<string>, failure: Option<Thrown>): (r: ProjectSave)
    ensures editing.Some? ==> r.write == Update(editing.value, ShapeProject(f))
    ensures editing.None? ==> r.write == Insert(ShapeProject(f))
    ensures r.done <==> failure.None?
    ensures failure.Some? ==> r.error == Some(ThrownMessage(failure.value))
    ensures failure.None? ==> r.error.None?
  {
    var w := if editing.Some? then Update(editing.value, ShapeProject(f)) else Insert(ShapeProject(f));
    match failure
    case None => ProjectSave(None, w, true)
    case Some(t) => ProjectSave(Some(ThrownMessage(t)), w, false)
  }

  /** The project form accepts a blank title: nothing is checked. */
  lemma ProjectAcceptsBlankTitle(f: ProjectFields)
    requires f.title == " "
    ensures SubmitProject(f, None, None).done && SubmitProject(f, None, None).write.row.title == " "
  {
  }

  // ---------------------------------------------------------------- products

  /** The stored product an edit form starts from, with possibly missing fields. */
  datatype StoredProduct = StoredProduct(
    price: Option<string>, featured: Option<bool>, active: Option<bool>, category: Option<string>)

  datatype ProductDraft = ProductDraft(price: string, featured: bool, active: bool, category: string)

  /** The editor's initial values: `price?.toString() || "0"`,
      `featured || false`, `active ?? true`, `category || "Digital"`. A new
      product starts from a record with every field missing. */
  function ProductDefaults(p: StoredProduct): (d: ProductDraft)
    ensures d.price == (if p.price.Some? && p.price.value != "" then p.price.value else "0")
    ensures d.featured <==> p.featured == Some(true)
    ensures p.active.Some? ==> d.active == p.active.value
    ensures p.active.None? ==> d.active
    ensures d.category == (if p.category.Some? && p.category.value != "" then p.category.value else "Digital")
  {
    ProductDraft(
      if p.price.Some? && p.price.value != "" then p.price.value else "0",
      p.featured == Some(true),
      p.active.GetOr(true),
      if p.category.Some? && p.category.value != "" then p.category.value else "Digital")
  }

  /** `??` keeps an explicit `false`; only a missing flag defaults to true. */
  lemma InactiveProductStaysInactive(p: StoredProduct)
    requires p.active == Some(false)
    ensures !ProductDefaults(p).active
  {
  }

  datatype ProductRecord = ProductRecord(
    title: string, slug: string, description: string, price: real, coverImage: Option<string>,
    featured: bool, active: bool, category: string, externalLink: Option<string>)

  /** `productData`: `parseFloat(price) || 0`, where `parsed` is what
      `parseFloat` made of the text (`None` for NaN); empty links become null. */
  function ShapeProduct(title: string, slug: string, description: string, parsed: Option<real>,
                        coverImage: string, d: ProductDraft, externalLink: string): (r: ProductRecord)
    ensures r.price == (if parsed.Some? then parsed.value else 0.0)
    ensures r.coverImage == EmptyToNull(coverImage) && r.externalLink == EmptyToNull(externalLink)
    ensures r.title == title && r.slug == slug && r.description == description
    ensures r.featured == d.featured && r.active == d.active && r.category == d.category
  {
    ProductRecord(title, slug, description, parsed.GetOr(0.0), EmptyToNull(coverImage),
                  d.featured, d.active, d.category, EmptyToNull(externalLink))
  }

  /** Opening a stored product and saving it unchanged keeps its featured
      and active flags and a non-empty category; an empty or missing
      category is saved as "Digital", a missing flag as not featured and
      active. */
  lemma ProductEditRoundTrip(p: StoredProduct, title: string, slug: string, description: string,
                             parsed: Option<real>, coverImage: string, externalLink: string)
    ensures var r := ShapeProduct(title, slug, description, parsed, coverImage, ProductDefaults(p), externalLink);
      (p.featured.Some? ==> r.featured == p.featured.value) && (p.featured.None? ==> !r.featured)
      && (p.active.Some? ==> r.active == p.active.value) && (p.active.None? ==> r.active)
    ensures var r := ShapeProduct(title, slug, description, parsed, coverImage, ProductDefaults(p), externalLink);
      r.category != ""
      && (r.category == "Digital" || p.category == Some(r.category))
      && (p.category.Some? && p.category.value != "" ==> r.category == p.category.value)
  {
  }

  datatype ProductSave = ProductSave(error: Option<string>, write: Write<ProductRecord>, done: bool)

  function SubmitProduct(row: ProductRecord, editing: Option<string>, failure: Option<Thrown>): (r: ProductSave)
    ensures editing.Some? ==> r.write == Update(editing.value, row)
    ensures editing.None? ==> r.write == Insert(row)
    ensures r.done <==> failure.None?
    ensures failure.Some? ==> r.error == Some(ThrownMessage(failure.value))
    ensures failure.None? ==> r.error.None?
  {
    var w := if editing.Some? then Update(editing.value, row) else Insert(row);
    match failure
    case None => ProductSave(None, w, true)
    case Some(t) => ProductSave(Some(ThrownMessage(t)), w, false)
  }
}

=== FILE: blog_actions.dfy ===
/** The engagement store behind the blog: server actions for views, likes,
    shares, comments and replies, each a transition on an immutable record
    of the five tables. Every round trip's outcome is a parameter, and ids and
    timestamps the database would generate are parameters too. */
module BlogActions {
  import opened Wrappers
  import opened Seqs
  import opened Ordering

  /** A post's row; `views` is nullable in the table. */
  datatype BlogRow = BlogRow(id: string, slug: string, views: Option<nat>)
  datatype LikeRow = LikeRow(id: string, blogId: string, sessionId: string)
  datatype ShareRow = ShareRow(blogId: string, platform: string)
  datatype CommentRow = CommentRow(
    id: string, blogId: string, authorName: string, authorEmail: Option<string>,
    content: string, approved: bool, createdAt: int)
  datatype ReplyRow = ReplyRow(
    id: string, commentId: string, authorName: string, authorEmail: Option<string>,
    content: string, approved: bool, createdAt: int)

  datatype Store = Store(
    blogs: seq<BlogRow>, likes: seq<LikeRow>, shares: seq<ShareRow>,
    comments: seq<CommentRow>, replies: seq<ReplyRow>)

  /** A store call that threw: the action rethrows it to its caller. */
  datatype StoreError = StoreError

  /** Result of `toggleBlogLike`: the new store and the `liked` flag returned. */
  datatype Toggle = Toggle(store: Store, liked: bool)

  // ---------------------------------------------------------------- views

  function BlogsWithSlug(s: Store, slug: string): seq<BlogRow> {
    Filter((b: BlogRow) => b.slug == slug, s.blogs)
  }

  /** Row `k` is the only blog whose slug is `slug`. */
  predicate OnlySlugAt(blogs: seq<BlogRow>, slug: string, k: int) {
    0 <= k < |blogs| && blogs[k].slug == slug
    && forall j :: 0 <= j < |blogs| && j != k ==> blogs[j].slug != slug
  }

  predicate UniqueBlogIds(blogs: seq<BlogRow>) {
    forall i, j :: 0 <= i < j < |blogs| ==> blogs[i].id != blogs[j].id
  }

  /** `blog.views || 0`: a null count reads as zero. */
  function ViewCount(b: BlogRow): nat {
    b.views.GetOr(0)
  }

  /** The fallback's `update({ views }).eq("id", id)`. */
  function SetViews(blogs: seq<BlogRow>, id: string, views: nat): seq<BlogRow> {
    seq(|blogs|, i requires 0 <= i < |blogs| =>
      if blogs[i].id == id then blogs[i].(views := Some(views)) else blogs[i])
  }

  /** The `increment_blog_views` RPC on the rows with that id. */
  function BumpViews(blogs: seq<BlogRow>, id: string): seq<BlogRow> {
    seq(|blogs|, i requires 0 <= i < |blogs| =>
      if blogs[i].id == id then blogs[i].(views := Some(ViewCount(blogs[i]) + 1)) else blogs[i])
  }

  /** `incrementBlogViews(slug)`: look the post up by slug with `.single()`;
      if found, call the increment RPC and, when that fails, write
      `(views || 0) + 1` back directly. The fallback's own error is not
      checked. */
  function IncrementBlogViews(s: Store, slug: string, rpc: Outcome, fallback: Outcome): (r: Store)
    ensures r.likes == s.likes && r.shares == s.shares && r.comments == s.comments && r.replies == s.replies
    ensures |r.blogs| == |s.blogs|
    ensures |BlogsWithSlug(s, slug)| != 1 ==> r == s
    ensures rpc.Err? && fallback.Err? ==> r == s
  {
    var found := BlogsWithSlug(s, slug);
    if |found| != 1 then s
    else
      var blog := found[0];
      if rpc.Ok? then s.(blogs := BumpViews(s.blogs, blog.id))
      else if fallback.Ok? then s.(blogs := SetViews(s.blogs, blog.id, ViewCount(blog) + 1))
      else s
  }

  /** A view never changes an id or a slug. */
  lemma ViewKeepsIdsAndSlugs(s: Store, slug: string, rpc: Outcome, fallback: Outcome)
    ensures var r := IncrementBlogViews(s, slug, rpc, fallback);
      forall i :: 0 <= i < |s.blogs| ==> r.blogs[i].id == s.blogs[i].id && r.blogs[i].slug == s.blogs[i].slug
  {
  }

  /** With unique ids a view never lowers a count. */
  lemma ViewNeverLowers(s: Store, slug: string, rpc: Outcome, fallback: Outcome)
    requires UniqueBlogIds(s.blogs)
    ensures var r := IncrementBlogViews(s, slug, rpc, fallback);
      forall i :: 0 <= i < |s.blogs| ==> ViewCount(r.blogs[i]) >= ViewCount(s.blogs[i])
  {
    var found := BlogsWithSlug(s, slug);
    if |found| == 1 {
      assert found[0] in found;
    }
  }

  /** A view of a post whose slug is unique adds exactly one to it when
      either write goes through; a null count becomes 1. */
  lemma ViewAddsOne(s: Store, slug: string, rpc: Outcome, fallback: Outcome, k: nat)
    requires OnlySlugAt(s.blogs, slug, k) && (rpc.Ok? || fallback.Ok?)
    ensures IncrementBlogViews(s, slug, rpc, fallback).blogs[k].views == Some(ViewCount(s.blogs[k]) + 1)
  {
    FilterSingle((b: BlogRow) => b.slug == slug, s.blogs, k);
  }

  /** `n` page renders whose increment RPC went through. */
  function ViewedTimes(s: Store, slug: string, n: nat): Store
    decreases n
  {
    if n == 0 then s else ViewedTimes(IncrementBlogViews(s, slug, Ok, Ok), slug, n - 1)
  }

  /** Every successful view of a post with a unique slug adds exactly one. */
  lemma {:induction false} ViewsCountEveryVisit(s: Store, slug: string, k: nat, n: nat)
    requires OnlySlugAt(s.blogs, slug, k)
    ensures OnlySlugAt(ViewedTimes(s, slug, n).blogs, slug, k)
    ensures ViewCount(ViewedTimes(s, slug, n).blogs[k]) == ViewCount(s.blogs[k]) + n
    decreases n
  {
    if n > 0 {
      var next := IncrementBlogViews(s, slug, Ok, Ok);
      OneViewKeepsSlug(s, slug, k);
      ViewsCountEveryVisit(next, slug, k, n - 1);
    }
  }

  lemma OneViewKeepsSlug(s: Store, slug: string, k: nat)
    requires OnlySlugAt(s.blogs, slug, k)
    ensures var r := IncrementBlogViews(s, slug, Ok, Ok);
      OnlySlugAt(r.blogs, slug, k) && ViewCount(r.blogs[k]) == ViewCount(s.blogs[k]) + 1
  {
    var r := IncrementBlogViews(s, slug, Ok, Ok);
    ViewKeepsIdsAndSlugs(s, slug, Ok, Ok);
    ViewAddsOne(s, slug, Ok, Ok, k);
    forall j | 0 <= j < |r.blogs| && j != k ensures r.blogs[j].slug != slug {
      assert r.blogs[j].slug == s.blogs[j].slug;
    }
  }

  // ---------------------------------------------------------------- likes

  /** The like rows for one (post, session) pair. */
  function LikesFor(s: Store, blogId: string, sessionId: string): seq<LikeRow> {
    Filter((l: LikeRow) => l.blogId == blogId && l.sessionId == sessionId, s.likes)
  }

  /** The session currently likes the post. */
  predicate HasLike(s: Store, blogId: string, sessionId: string) {
    |LikesFor(s, blogId, sessionId)| > 0
  }

  /** No (post, session) pair has two like rows. */
  ghost predicate AtMostOneLike(s: Store) {
    forall b, ss :: |LikesFor(s, b, ss)| <= 1
  }

  /** Like rows that share an id are the same row. */
  predicate UniqueLikeIds(s: Store) {
    forall x, y :: x in s.likes && y in s.likes && x.id == y.id ==> x == y
  }

  predicate FreshLikeId(s: Store, id: string) {
    forall l :: l in s.likes ==> l.id != id
  }

  /** `checkBlogLiked`: `.single()` yields a row only when exactly one row
      matches, so zero rows and duplicates both read as "not liked". */
  function CheckBlogLiked(s: Store, blogId: string, sessionId: string, read: Outcome): (liked: bool)
    ensures liked ==> HasLike(s, blogId, sessionId)
    ensures liked <==> read.Ok? && |LikesFor(s, blogId, sessionId)| == 1
  {
    read.Ok? && |LikesFor(s, blogId, sessionId)| == 1
  }

  function DeleteLike(s: Store, id: string): Store {
    s.(likes := Filter((l: LikeRow) => l.id != id, s.likes))
  }

  /** `toggleBlogLike`: look up the pair with `.single()`; delete the row
      found and answer `liked: false`, or insert a new row and answer
      `liked: true`. The write's error is never inspected, so the answer
      depends only on what the lookup saw. */
  function ToggleBlogLike(s: Store, blogId: string, sessionId: string, newId: string,
                          read: Outcome, write: Outcome): (r: Toggle)
    ensures r.liked <==> !CheckBlogLiked(s, blogId, sessionId, read)
    ensures r.store.blogs == s.blogs && r.store.shares == s.shares
    ensures r.store.comments == s.comments && r.store.replies == s.replies
    ensures write.Err? ==> r.store == s
    ensures write.Ok? && r.liked ==> r.store.likes == s.likes + [LikeRow(newId, blogId, sessionId)]
    ensures write.Ok? && !r.liked ==> |r.store.likes| < |s.likes|
  {
    var found := LikesFor(s, blogId, sessionId);
    if read.Ok? && |found| == 1 then
      assert found[0] in found;
      FilterShrinks((l: LikeRow) => l.id != found[0].id, s.likes, found[0]);
      Toggle(if write.Ok? then DeleteLike(s, found[0].id) else s, false)
    else
      Toggle(if write.Ok? then s.(likes := s.likes + [LikeRow(newId, blogId, sessionId)]) else s, true)
  }

  lemma LikesForAppend(s: Store, row: LikeRow, b: string, ss: string)
    ensures LikesFor(s.(likes := s.likes + [row]), b, ss)
      == LikesFor(s, b, ss) + (if row.blogId == b && row.sessionId == ss then [row] else [])
  {
    FilterAppend((l: LikeRow) => l.blogId == b && l.sessionId == ss, s.likes, [row]);
  }

  lemma LikesForDelete(s: Store, id: string, b: string, ss: string)
    ensures LikesFor(DeleteLike(s, id), b, ss)
      == Filter((l: LikeRow) => l.id != id, LikesFor(s, b, ss))
  {
    FilterCommute((l: LikeRow) => l.blogId == b && l.sessionId == ss, (l: LikeRow) => l.id != id, s.likes);
  }

  /** Deleting a row by its unique id leaves the rows of every other pair. */
  lemma DeleteKeepsOtherPairs(s: Store, e: LikeRow, b: string, ss: string)
    requires UniqueLikeIds(s) && e in s.likes && (b, ss) != (e.blogId, e.sessionId)
    ensures LikesFor(DeleteLike(s, e.id), b, ss) == LikesFor(s, b, ss)
  {
    var other := LikesFor(s, b, ss);
    LikesForDelete(s, e.id, b, ss);
    forall i | 0 <= i < |other| ensures other[i].id != e.id {
      assert other[i] in other;
    }
    FilterKeepsAll((l: LikeRow) => l.id != e.id, other);
  }

  /** Sequential toggles never create a second like for a pair, whatever the
      write outcome, provided the lookup itself went through. */
  lemma ToggleKeepsAtMostOne(s: Store, blogId: string, sessionId: string, newId: string, write: Outcome)
    requires AtMostOneLike(s)
    ensures AtMostOneLike(ToggleBlogLike(s, blogId, sessionId, newId, Ok, write).store)
  {
    var r := ToggleBlogLike(s, blogId, sessionId, newId, Ok, write).store;
    forall b, ss ensures |LikesFor(r, b, ss)| <= 1 {
      assert |LikesFor(s, b, ss)| <= 1;
      if write.Ok? {
        var found := LikesFor(s, blogId, sessionId);
        if |found| == 1 {
          LikesForDelete(s, found[0].id, b, ss);
        } else {
          LikesForAppend(s, LikeRow(newId, blogId, sessionId), b, ss);
        }
      }
    }
  }

  /** With a failed lookup the toggle inserts even when a like exists: the
      pair then holds two rows. */
  lemma FailedLookupDuplicatesLike()
    ensures var s := Store([], [LikeRow("l1", "b", "s")], [], [], []);
      var r := ToggleBlogLike(s, "b", "s", "l2", Err, Ok);
      r.liked && |LikesFor(r.store, "b", "s")| == 2 && !CheckBlogLiked(r.store, "b", "s", Ok)
  {
    var s := Store([], [LikeRow("l1", "b", "s")], [], [], []);
    var r := ToggleBlogLike(s, "b", "s", "l2", Err, Ok);
    assert r.store.likes == [LikeRow("l1", "b", "s"), LikeRow("l2", "b", "s")];
    FilterKeepsAll((l: LikeRow) => l.blogId == "b" && l.sessionId == "s", r.store.likes);
  }

  /** A toggle that goes through flips the like of its own pair and no other. */
  lemma ToggleFlipsOnePair(s: Store, blogId: string, sessionId: string, newId: string)
    requires AtMostOneLike(s) && UniqueLikeIds(s) && FreshLikeId(s, newId)
    ensures var r := ToggleBlogLike(s, blogId, sessionId, newId, Ok, Ok);
      && r.liked == !HasLike(s, blogId, sessionId)
      && HasLike(r.store, blogId, sessionId) == r.liked
      && AtMostOneLike(r.store) && UniqueLikeIds(r.store)
      && forall b, ss :: (b, ss) != (blogId, sessionId) ==> HasLike(r.store, b, ss) == HasLike(s, b, ss)
  {
    var t := ToggleBlogLike(s, blogId, sessionId, newId, Ok, Ok);
    var r := t.store;
    ToggleKeepsAtMostOne(s, blogId, sessionId, newId, Ok);
    var found := LikesFor(s, blogId, sessionId);
    assert |found| <= 1;
    if |found| == 1 {
      var e := found[0];
      assert e in found;
      LikesForDelete(s, e.id, blogId, sessionId);
      FilterDropsAll((l: LikeRow) => l.id != e.id, found);
      forall b, ss | (b, ss) != (blogId, sessionId) ensures HasLike(r, b, ss) == HasLike(s, b, ss) {
        DeleteKeepsOtherPairs(s, e, b, ss);
      }
    } else {
      var row := LikeRow(newId, blogId, sessionId);
      LikesForAppend(s, row, blogId, sessionId);
      forall b, ss | (b, ss) != (blogId, sessionId) ensures HasLike(r, b, ss) == HasLike(s, b, ss) {
        LikesForAppend(s, row, b, ss);
      }
    }
  }

  /** Two successful toggles in a row leave every pair's like as it was. */
  lemma ToggleTwiceRestoresLikes(s: Store, blogId: string, sessionId: string, id1: string, id2: string)
    requires AtMostOneLike(s) && UniqueLikeIds(s) && FreshLikeId(s, id1) && FreshLikeId(s, id2) && id1 != id2
    ensures var t1 := ToggleBlogLike(s, blogId, sessionId, id1, Ok, Ok);
      var t2 := ToggleBlogLike(t1.store, blogId, sessionId, id2, Ok, Ok);
      && t1.liked != t2.liked
      && forall b, ss :: HasLike(t2.store, b, ss) == HasLike(s, b, ss)
  {
    var t1 := ToggleBlogLike(s, blogId, sessionId, id1, Ok, Ok);
    ToggleFlipsOnePair(s, blogId, sessionId, id1);
    assert FreshLikeId(t1.store, id2) by {
      forall l | l in t1.store.likes ensures l.id != id2 {
        if !t1.liked {
          assert l in s.likes;
        } else {
          assert l in s.likes || l == LikeRow(id1, blogId, sessionId);
        }
      }
    }
    ToggleFlipsOnePair(t1.store, blogId, sessionId, id2);
  }

  /** With at most one row per pair, "liked" as the check reports it is
      exactly the presence of a like row. */
  lemma CheckMatchesHasLike(s: Store, blogId: string, sessionId: string)
    requires AtMostOneLike(s)
    ensures CheckBlogLiked(s, blogId, sessionId, Ok) == HasLike(s, blogId, sessionId)
  {
    assert |LikesFor(s, blogId, sessionId)| <= 1;
  }

  function BlogLikes(s: Store, blogId: string): seq<LikeRow> {
    Filter((l: LikeRow) => l.blogId == blogId, s.likes)
  }

  /** `getBlogLikesCount`: the number of like rows of the post, 0 on error. */
  function LikesCount(s: Store, blogId: string, read: Outcome): (n: nat)
    ensures n <= |s.likes|
    ensures read.Err? ==> n == 0
  {
    if read.Err? then 0 else |BlogLikes(s, blogId)|
  }

  /** A toggle that goes through moves the post's like count by exactly one,
      up when it answers "liked" and down otherwise. */
  lemma ToggleMovesCountByOne(s: Store, blogId: string, sessionId: string, newId: string)
    requires AtMostOneLike(s) && UniqueLikeIds(s)
    ensures var t := ToggleBlogLike(s, blogId, sessionId, newId, Ok, Ok);
      LikesCount(t.store, blogId, Ok) == LikesCount(s, blogId, Ok) + (if t.liked then 1 else -1)
  {
    var t := ToggleBlogLike(s, blogId, sessionId, newId, Ok, Ok);
    var isBlog := (l: LikeRow) => l.blogId == blogId;
    var found := LikesFor(s, blogId, sessionId);
    if t.liked {
      FilterAppend(isBlog, s.likes, [LikeRow(newId, blogId, sessionId)]);
    } else {
      UnlikeDropsOne(s, blogId, sessionId);
    }
  }

  lemma UnlikeDropsOne(s: Store, blogId: string, sessionId: string)
    requires AtMostOneLike(s) && UniqueLikeIds(s)
    requires |LikesFor(s, blogId, sessionId)| == 1
    ensures |BlogLikes(DeleteLike(s, LikesFor(s, blogId, sessionId)[0].id), blogId)| + 1
         == |BlogLikes(s, blogId)|
  {
    var e := LikesFor(s, blogId, sessionId)[0];
    var L := BlogLikes(s, blogId);
    var otherId := (l: LikeRow) => l.id != e.id;
    FilterCommute((l: LikeRow) => l.blogId == blogId, otherId, s.likes);
    assert BlogLikes(DeleteLike(s, e.id), blogId) == Filter(otherId, L);
    FilterPartition((l: LikeRow) => l.id == e.id, otherId, L);
    OnlyTheFoundRowHasItsId(s, blogId, sessionId);
  }

  /** Among a post's likes, the row the lookup found is the only one with its id. */
  lemma OnlyTheFoundRowHasItsId(s: Store, blogId: string, sessionId: string)
    requires UniqueLikeIds(s)
    requires |LikesFor(s, blogId, sessionId)| == 1
    ensures var e := LikesFor(s, blogId, sessionId)[0];
      |Filter((l: LikeRow) => l.id == e.id, BlogLikes(s, blogId))| == 1
  {
    var found := LikesFor(s, blogId, sessionId);
    var e := found[0];
    assert found == [e];
    assert e in found;
    var conj := (l: LikeRow) => l.id == e.id && l.blogId == blogId;
    var pair := (l: LikeRow) => l.blogId == blogId && l.sessionId == sessionId;
    FilterConj(conj, (l: LikeRow) => l.id == e.id, (l: LikeRow) => l.blogId == blogId, s.likes);
    forall x | x in s.likes ensures conj(x) == pair(x) {
      if pair(x) {
        assert x in found;
      }
      if x.id == e.id {
        assert x == e;
      }
    }
    FilterExt(conj, pair, s.likes);
  }

  // ---------------------------------------------------------------- shares

  /** `trackBlogShare`: one new row per call, with no deduplication; the
      insert's error is not inspected. */
  function TrackBlogShare(s: Store, blogId: string, platform: string, write: Outcome): (r: Store)
    ensures r.blogs == s.blogs && r.likes == s.likes && r.comments == s.comments && r.replies == s.replies
    ensures write.Ok? ==> r.shares == s.shares + [ShareRow(blogId, platform)]
    ensures write.Err? ==> r == s
  {
    if write.Ok? then s.(shares := s.shares + [ShareRow(blogId, platform)]) else s
  }

  /** `getBlogSharesCount`: the number of share rows of the post, 0 on error. */
  function SharesCount(s: Store, blogId: string, read: Outcome): (n: nat)
    ensures n <= |s.shares|
    ensures read.Err? ==> n == 0
  {
    if read.Err? then 0 else |Filter((x: ShareRow) => x.blogId == blogId, s.shares)|
  }

  /** Sharing the same post on the same platform twice counts twice. */
  lemma ShareIsNeverDeduplicated(s: Store, blogId: string, platform: string)
    ensures var r := TrackBlogShare(TrackBlogShare(s, blogId, platform, Ok), blogId, platform, Ok);
      SharesCount(r, blogId, Ok) == SharesCount(s, blogId, Ok) + 2
  {
    var p := (x: ShareRow) => x.blogId == blogId;
    var row := ShareRow(blogId, platform);
    FilterAppend(p, s.shares, [row]);
    FilterAppend(p, s.shares + [row], [row]);
  }

  // ---------------------------------------------------------------- comments

  /** `authorEmail || null`: an absent or empty email is stored as null. */
  function EmailOrNull(email: Option<string>): (r: Option<string>)
    ensures r.Some? <==> email.Some? && email.value != ""
    ensures r.Some? ==> r == email
  {
    if email.Some? && email.value != "" then email else None
  }

  /** `submitBlogComment`: insert an approved comment. Name and content are
      stored as given, neither trimmed nor checked; an insert error is thrown. */
  function SubmitBlogComment(s: Store, blogId: string, authorName: string, content: string,
                             email: Option<string>, newId: string, now: int, write: Outcome)
    : (r: Result<Store, StoreError>)
    ensures write.Err? <==> r.Failure?
    ensures r.Success? ==> r.value == s.(comments := s.comments
      + [CommentRow(newId, blogId, authorName, EmailOrNull(email), content, true, now)])
  {
    if write.Err? then Failure(StoreError)
    else Success(s.(comments := s.comments
      + [CommentRow(newId, blogId, authorName, EmailOrNull(email), content, true, now)]))
  }

  function CommentsOf(s: Store, blogId: string): seq<CommentRow> {
    Filter((c: CommentRow) => c.blogId == blogId, s.comments)
  }

  /** `getBlogComments`: every comment of the post, oldest first. There is
      no filter on `approved`. A failed read gives an empty list. */
  function GetBlogComments(s: Store, blogId: string, read: Outcome): (r: seq<CommentRow>)
    ensures SortedBy(r, (c: CommentRow) => c.createdAt)
    ensures read.Ok? ==> multiset(r) == multiset(CommentsOf(s, blogId))
    ensures read.Ok? ==> forall c :: c in r <==> c in s.comments && c.blogId == blogId
    ensures read.Err? ==> r == []
  {
    if read.Err? then []
    else
      var r := SortBy(CommentsOf(s, blogId), (c: CommentRow) => c.createdAt);
      assert forall c :: c in r <==> c in CommentsOf(s, blogId) by {
        forall c ensures c in r <==> c in CommentsOf(s, blogId) {
          SortKeepsMembers(CommentsOf(s, blogId), (c: CommentRow) => c.createdAt, c);
        }
      }
      r
  }

  /** A comment that moderation has hidden is still served to readers. */
  lemma HiddenCommentIsStillListed(s: Store, c: CommentRow)
    requires c in s.comments && !c.approved
    ensures c in GetBlogComments(s, c.blogId, Ok)
  {
  }

  /** `getAllComments`: every comment of every post, newest first. */
  function GetAllComments(s: Store, read: Outcome): (r: seq<CommentRow>)
    ensures SortedDescBy(r, (c: CommentRow) => c.createdAt)
    ensures read.Ok? ==> multiset(r) == multiset(s.comments)
    ensures read.Err? ==> r == []
  {
    if read.Err? then [] else SortDescBy(s.comments, (c: CommentRow) => c.createdAt)
  }

  function ApprovedCommentsOf(s: Store, blogId: string): seq<CommentRow> {
    Filter((c: CommentRow) => c.blogId == blogId && c.approved, s.comments)
  }

  /** `getBlogCommentCount`: counts approved comments only; 0 on error. */
  function CommentCount(s: Store, blogId: string, read: Outcome): (n: nat)
    ensures n <= |CommentsOf(s, blogId)|
    ensures read.Err? ==> n == 0
  {
    if read.Err? then 0
    else
      var all := CommentsOf(s, blogId);
      FilterCommute((c: CommentRow) => c.approved, (c: CommentRow) => c.blogId == blogId, s.comments);
      assert ApprovedCommentsOf(s, blogId) == Filter((c: CommentRow) => c.approved, all) by {
        FilterConj((c: CommentRow) => c.blogId == blogId && c.approved,
          (c: CommentRow) => c.approved, (c: CommentRow) => c.blogId == blogId, s.comments);
      }
      |ApprovedCommentsOf(s, blogId)|
  }

  /** `update({ approved }).eq("id", id)` on the comment table. */
  function SetCommentApproval(comments: seq<CommentRow>, id: string, approved: bool): seq<CommentRow> {
    seq(|comments|, i requires 0 <= i < |comments| =>
      if comments[i].id == id then comments[i].(approved := approved) else comments[i])
  }

  /** `updateCommentApproval`: changes the `approved` flag of the rows with
      that id and nothing else; an update error is thrown. */
  function UpdateCommentApproval(s: Store, id: string, approved: bool, write: Outcome)
    : (r: Result<Store, StoreError>)
    ensures write.Err? <==> r.Failure?
    ensures r.Success? ==> (r.value.blogs == s.blogs && r.value.likes == s.likes
      && r.value.shares == s.shares && r.value.replies == s.replies)
    ensures r.Success? ==> (|r.value.comments| == |s.comments|
      && forall i :: 0 <= i < |s.comments| ==>
           r.value.comments[i].(approved := s.comments[i].approved) == s.comments[i]
           && (r.value.comments[i].approved == if s.comments[i].id == id then approved else s.comments[i].approved))
  {
    if write.Err? then Failure(StoreError)
    else Success(s.(comments := SetCommentApproval(s.comments, id, approved)))
  }

  /** Hiding a comment does not take it off the public list; it only stops
      counting towards the approved-comment count. */
  lemma HidingOnlyChangesCount(s: Store, k: nat)
    requires k < |s.comments| && s.comments[k].approved
    requires forall j :: 0 <= j < |s.comments| && j != k ==> s.comments[j].id != s.comments[k].id
    ensures var c := s.comments[k];
      var r := UpdateCommentApproval(s, c.id, false, Ok).value;
      c.(approved := false) in GetBlogComments(r, c.blogId, Ok)
      && CommentCount(r, c.blogId, Ok) + 1 == CommentCount(s, c.blogId, Ok)
  {
    var c := s.comments[k];
    var r := UpdateCommentApproval(s, c.id, false, Ok).value;
    assert r.comments[k] == c.(approved := false);
    var p := (x: CommentRow) => x.blogId == c.blogId && x.approved;
    var pre := s.comments[..k];
    var post := s.comments[k + 1..];
    assert s.comments == pre + [c] + post;
    assert r.comments == pre + [c.(approved := false)] + post by {
      assert r.comments[..k] == pre;
      assert r.comments[k + 1..] == post;
      assert r.comments == r.comments[..k] + [r.comments[k]] + r.comments[k + 1..];
    }
    FilterAppend(p, pre + [c], post);
    FilterAppend(p, pre, [c]);
    FilterAppend(p, pre + [c.(approved := false)], post);
    FilterAppend(p, pre, [c.(approved := false)]);
  }

  /** `deleteComment`: removes the comment row only. */
  function DeleteComment(s: Store, id: string, write: Outcome): (r: Result<Store, StoreError>)
    ensures write.Err? <==> r.Failure?
    ensures r.Success? ==> (r.value.replies == s.replies && r.value.blogs == s.blogs
      && r.value.likes == s.likes && r.value.shares == s.shares)
    ensures r.Success? ==> forall c :: c in r.value.comments <==> c in s.comments && c.id != id
    ensures r.Success? ==> IsSubsequence(r.value.comments, s.comments)
    ensures (r.Success? ==> forall c ::
      multiset(r.value.comments)[c] == if c.id != id then multiset(s.comments)[c] else 0)
  {
    var kept := (c: CommentRow) => c.id != id;
    FilterKeepsCounts(kept, s.comments);
    if write.Err? then Failure(StoreError)
    else Success(s.(comments := Filter(kept, s.comments)))
  }

  /** Deleting a comment leaves its replies in the reply table. */
  lemma DeleteLeavesReplies(s: Store, commentId: string, reply: ReplyRow)
    requires reply in s.replies && reply.commentId == commentId
    ensures var r := DeleteComment(s, commentId, Ok).value;
      reply in r.replies && forall c :: c in r.comments ==> c.id != commentId
  {
  }

  // ---------------------------------------------------------------- replies

  /** `submitCommentReply`: insert an approved reply under `commentId`. */
  function SubmitCommentReply(s: Store, commentId: string, authorName: string, content: string,
                              email: Option<string>, newId: string, now: int, write: Outcome)
    : (r: Result<Store, StoreError>)
    ensures write.Err? <==> r.Failure?
    ensures r.Success? ==> r.value == s.(replies := s.replies
      + [ReplyRow(newId, commentId, authorName, EmailOrNull(email), content, true, now)])
  {
    if write.Err? then Failure(StoreError)
    else Success(s.(replies := s.replies
      + [ReplyRow(newId, commentId, authorName, EmailOrNull(email), content, true, now)]))
  }

  function ApprovedRepliesOf(s: Store, commentId: string): seq<ReplyRow> {
    Filter((x: ReplyRow) => x.commentId == commentId && x.approved, s.replies)
  }

  /** `getCommentReplies`: the approved replies of one comment, oldest first. */
  function GetCommentReplies(s: Store, commentId: string, read: Outcome): (r: seq<ReplyRow>)
    ensures SortedBy(r, (x: ReplyRow) => x.createdAt)
    ensures forall x :: x in r ==> x.approved && x.commentId == commentId
    ensures read.Ok? ==> multiset(r) == multiset(ApprovedRepliesOf(s, commentId))
    ensures read.Ok? ==> forall x :: x in r <==> x in s.replies && x.commentId == commentId && x.approved
    ensures read.Err? ==> r == []
  {
    if read.Err? then []
    else
      var r := SortBy(ApprovedRepliesOf(s, commentId), (x: ReplyRow) => x.createdAt);
      assert forall x :: x in r <==> x in ApprovedRepliesOf(s, commentId) by {
        forall x ensures x in r <==> x in ApprovedRepliesOf(s, commentId) {
          SortKeepsMembers(ApprovedRepliesOf(s, commentId), (x: ReplyRow) => x.createdAt, x);
        }
      }
      r
  }

  /** `update({ approved }).eq("id", id)` on the reply table. */
  function SetReplyApproval(replies: seq<ReplyRow>, id: string, approved: bool): seq<ReplyRow> {
    seq(|replies|, i requires 0 <= i < |replies| =>
      if replies[i].id == id then replies[i].(approved := approved) else replies[i])
  }

  /** `updateReplyApproval`: changes only the `approved` flag of that reply. */
  function UpdateReplyApproval(s: Store, id: string, approved: bool, write: Outcome)
    : (r: Result<Store, StoreError>)
    ensures write.Err? <==> r.Failure?
    ensures r.Success? ==> (r.value.comments == s.comments && r.value.blogs == s.blogs
      && r.value.likes == s.likes && r.value.shares == s.shares)
    ensures r.Success? ==> (|r.value.replies| == |s.replies|
      && forall i :: 0 <= i < |s.replies| ==>
           r.value.replies[i].(approved := s.replies[i].approved) == s.replies[i]
           && (r.value.replies[i].approved == if s.replies[i].id == id then approved else s.replies[i].approved))
  {
    if write.Err? then Failure(StoreError)
    else Success(s.(replies := SetReplyApproval(s.replies, id, approved)))
  }

  /** A reply is publicly listed exactly while it is approved. */
  lemma ReplyVisibleIffApproved(s: Store, k: nat, approved: bool)
    requires k < |s.replies|
    ensures var x := s.replies[k];
      var r := UpdateReplyApproval(s, x.id, approved, Ok).value;
      (x.(approved := approved) in GetCommentReplies(r, x.commentId, Ok)) == approved
  {
    var x := s.replies[k];
    var r := UpdateReplyApproval(s, x.id, approved, Ok).value;
    assert r.replies[k] == x.(approved := approved);
  }

  /** `deleteCommentReply`: removes the reply rows with that id. */
  function DeleteCommentReply(s: Store, id: string, write: Outcome): (r: Result<Store, StoreError>)
    ensures write.Err? <==> r.Failure?
    ensures r.Success? ==> (r.value.comments == s.comments && r.value.blogs == s.blogs
      && r.value.likes == s.likes && r.value.shares == s.shares)
    ensures r.Success? ==> forall x :: x in r.value.replies <==> x in s.replies && x.id != id
    ensures r.Success? ==> IsSubsequence(r.value.replies, s.replies)
    ensures (r.Success? ==> forall x ::
      multiset(r.value.replies)[x] == if x.id != id then multiset(s.replies)[x] else 0)
  {
    var kept := (x: ReplyRow) => x.id != id;
    FilterKeepsCounts(kept, s.replies);
    if write.Err? then Failure(StoreError)
    else Success(s.(replies := Filter(kept, s.replies)))
  }
}

=== FILE: blog_filters.dfy ===
/** The blog index's filter bar: it rewrites the page's query string and
    navigates. The query string is an ordered list of key/value pairs with
    the `set`, `delete` and `get` operations of `URLSearchParams`;
    percent-encoding is an uninterpreted `encode` parameter. */
module BlogFilters {
  import opened Wrappers
  import opened Text
  import opened Listings

  datatype Param = Param(key: string, value: string)

  /** `params.get(key)`: the first value under `key`. */
  function Get(ps: seq<Param>, key: string): (r: Option<string>)
    ensures r.None? <==> forall i :: 0 <= i < |ps| ==> ps[i].key != key
  {
    if |ps| == 0 then None
    else if ps[0].key == key then Some(ps[0].value)
    else Get(ps[1..], key)
  }

  /** All values under `key`, in order (`params.getAll(key)`). */
  function ValuesOf(ps: seq<Param>, key: string): (r: seq<string>)
    ensures |r| <= |ps|
  {
    if |ps| == 0 then []
    else (if ps[0].key == key then [ps[0].value] else []) + ValuesOf(ps[1..], key)
  }

  /** `params.delete(key)`: every entry under `key` goes. */
  function Delete(ps: seq<Param>, key: string): (r: seq<Param>)
    ensures |r| <= |ps|
    ensures forall i :: 0 <= i < |r| ==> r[i].key != key
  {
    if |ps| == 0 then []
    else (if ps[0].key == key then [] else [ps[0]]) + Delete(ps[1..], key)
  }

  /** The first entry under `key` takes the new value, later ones go; a
      list without the key is left as it is. */
  function ReplaceFirst(ps: seq<Param>, key: string, value: string): (r: seq<Param>)
    ensures |r| <= |ps|
    ensures forall i :: 0 <= i < |r| && r[i].key == key ==> r[i].value == value
    ensures Get(ps, key).Some? ==> Get(r, key) == Some(value)
    ensures Get(ps, key).None? ==> r == ps
  {
    if |ps| == 0 then []
    else if ps[0].key == key then [Param(key, value)] + Delete(ps[1..], key)
    else [ps[0]] + ReplaceFirst(ps[1..], key, value)
  }

  /** `params.set(key, value)`: replace in place, or append when absent.
      Afterwards `get` reads the new value and no entry under the key holds
      another one. */
  function Set(ps: seq<Param>, key: string, value: string): (r: seq<Param>)
    ensures Get(r, key) == Some(value)
    ensures forall i :: 0 <= i < |r| && r[i].key == key ==> r[i].value == value
  {
    if Get(ps, key).Some? then ReplaceFirst(ps, key, value)
    else
      GetAppendAbsent(ps, Param(key, value));
      ps + [Param(key, value)]
  }

  /** Appending to a list without the key: `get` finds the appended entry. */
  lemma {:induction false} GetAppendAbsent(ps: seq<Param>, p: Param)
    requires Get(ps, p.key).None?
    ensures Get(ps + [p], p.key) == Some(p.value)
  {
    if |ps| > 0 {
      assert (ps + [p])[1..] == ps[1..] + [p];
      GetAppendAbsent(ps[1..], p);
    }
  }

  lemma {:induction false} ValuesOfAppend(a: seq<Param>, b: seq<Param>, key: string)
    ensures ValuesOf(a + b, key) == ValuesOf(a, key) + ValuesOf(b, key)
  {
    if |a| > 0 {
      ValuesOfAppend(a[1..], b, key);
      assert (a + b)[1..] == a[1..] + b;
    } else {
      assert a + b == b;
    }
  }

  /** Deleting one key leaves every other key's values as they were, and
      none under that key. */
  lemma {:induction false} DeleteKeepsOthers(ps: seq<Param>, key: string, other: string)
    ensures ValuesOf(Delete(ps, key), key) == []
    ensures other != key ==> ValuesOf(Delete(ps, key), other) == ValuesOf(ps, other)
  {
    if |ps| > 0 {
      DeleteKeepsOthers(ps[1..], key, other);
      ValuesOfAppend(if ps[0].key == key then [] else [ps[0]], Delete(ps[1..], key), key);
      ValuesOfAppend(if ps[0].key == key then [] else [ps[0]], Delete(ps[1..], key), other);
    }
  }

  lemma {:induction false} ReplaceFirstValues(ps: seq<Param>, key: string, value: string, other: string)
    requires Get(ps, key).Some?
    ensures ValuesOf(ReplaceFirst(ps, key, value), key) == [value]
    ensures other != key ==> ValuesOf(ReplaceFirst(ps, key, value), other) == ValuesOf(ps, other)
  {
    if ps[0].key == key {
      DeleteKeepsOthers(ps[1..], key, other);
      ValuesOfAppend([Param(key, value)], Delete(ps[1..], key), key);
      ValuesOfAppend([Param(key, value)], Delete(ps[1..], key), other);
    } else {
      ReplaceFirstValues(ps[1..], key, value, other);
      ValuesOfAppend([ps[0]], ReplaceFirst(ps[1..], key, value), key);
      ValuesOfAppend([ps[0]], ReplaceFirst(ps[1..], key, value), other);
    }
  }

  /** After `set`, the key holds exactly the new value, and every other key
      keeps its values. */
  lemma SetValues(ps: seq<Param>, key: string, value: string, other: string)
    ensures ValuesOf(Set(ps, key, value), key) == [value]
    ensures other != key ==> ValuesOf(Set(ps, key, value), other) == ValuesOf(ps, other)
  {
    if Get(ps, key).Some? {
      ReplaceFirstValues(ps, key, value, other);
    } else {
      NoEntryNoValues(ps, key);
      ValuesOfAppend(ps, [Param(key, value)], key);
      ValuesOfAppend(ps, [Param(key, value)], other);
    }
  }

  lemma {:induction false} NoEntryNoValues(ps: seq<Param>, key: string)
    requires Get(ps, key).None?
    ensures ValuesOf(ps, key) == []
  {
    if |ps| > 0 {
      NoEntryNoValues(ps[1..], key);
    }
  }

  /** `get` reads the first of a key's values. */
  lemma {:induction false} GetIsFirstValue(ps: seq<Param>, key: string)
    ensures Get(ps, key).Some? <==> ValuesOf(ps, key) != []
    ensures Get(ps, key).Some? ==> Get(ps, key).value == ValuesOf(ps, key)[0]
  {
    if |ps| > 0 {
      GetIsFirstValue(ps[1..], key);
      ValuesOfAppend(if ps[0].key == key then [ps[0]] else [], ps[1..], key);
    }
  }

  /** The encoded `key=value` text of each entry. */
  function Pairs(ps: seq<Param>, encode: string -> string): (r: seq<string>)
    ensures |r| == |ps|
  {
    seq(|ps|, i requires 0 <= i < |ps| => encode(ps[i].key) + "=" + encode(ps[i].value))
  }

  /** `params.toString()`: `key=value` pairs joined with `&`. No entry gives
      the empty text; when the encoding keeps `&` out of every pair (as
      form-urlencoding does), cutting at `&` gives the pairs back. */
  function QueryString(ps: seq<Param>, encode: string -> string): (r: string)
    ensures ps == [] ==> r == ""
    ensures (ps != [] && (forall i :: 0 <= i < |ps| ==> '&' !in Pairs(ps, encode)[i]) ==>
      Split(r, '&') == Pairs(ps, encode))
  {
    var pairs := Pairs(ps, encode);
    assert (ps != [] && (forall i :: 0 <= i < |ps| ==> '&' !in pairs[i]) ==>
      Split(Join(pairs, "&"), '&') == pairs) by {
      if ps != [] && (forall i :: 0 <= i < |ps| ==> '&' !in pairs[i]) {
        SplitJoin(pairs, '&');
      }
    }
    Join(pairs, "&")
  }

  /** A navigation: the new parameters and the URL pushed. */
  datatype Push = Push(params: seq<Param>, url: string)

  function BlogUrl(ps: seq<Param>, encode: string -> string): string {
    "/blog?" + QueryString(ps, encode)
  }

  /** `handleSearch`: a non-empty value sets `search`, an empty one deletes it. */
  function HandleSearch(ps: seq<Param>, value: string, encode: string -> string): (r: Push)
    ensures r.url == BlogUrl(r.params, encode)
  {
    var next := if value != "" then Set(ps, "search", value) else Delete(ps, "search");
    Push(next, BlogUrl(next, encode))
  }

  /** `handleCategoryChange`: a real category sets `category`; an empty value
      or "all" deletes it. */
  function HandleCategoryChange(ps: seq<Param>, category: string, encode: string -> string): (r: Push)
    ensures r.url == BlogUrl(r.params, encode)
  {
    var next := if category != "" && category != "all" then Set(ps, "category", category) else Delete(ps, "category");
    Push(next, BlogUrl(next, encode))
  }

  /** The search handler: `search` ends up holding exactly the value, or
      nothing for an empty value; every other parameter is untouched. */
  lemma SearchUpdatesOnlySearch(ps: seq<Param>, value: string, encode: string -> string, other: string)
    ensures ValuesOf(HandleSearch(ps, value, encode).params, "search") == (if value != "" then [value] else [])
    ensures other != "search" ==> ValuesOf(HandleSearch(ps, value, encode).params, other) == ValuesOf(ps, other)
  {
    SetValues(ps, "search", value, other);
    DeleteKeepsOthers(ps, "search", other);
  }

  /** The category handler: `category` ends up holding exactly the chosen
      category, or nothing for "all" or an empty value; every other
      parameter is untouched. */
  lemma CategoryUpdatesOnlyCategory(ps: seq<Param>, category: string, encode: string -> string, other: string)
    ensures (ValuesOf(HandleCategoryChange(ps, category, encode).params, "category") ==
      if category != "" && category != "all" then [category] else [])
    ensures other != "category" ==>
      ValuesOf(HandleCategoryChange(ps, category, encode).params, other) == ValuesOf(ps, other)
  {
    SetValues(ps, "category", category, other);
    DeleteKeepsOthers(ps, "category", other);
  }

  /** Removing the last parameter leaves a dangling `?`. */
  lemma EmptyQueryKeepsQuestionMark(encode: string -> string)
    ensures HandleSearch([Param("search", "x")], "", encode).url == "/blog?"
  {
    assert Delete([Param("search", "x")], "search") == [];
    assert QueryString([], encode) == "";
  }

  /** `handleClearFilters`: back to the bare page, whatever the parameters. */
  function HandleClearFilters(ps: seq<Param>): (r: Push)
    ensures r.params == [] && r.url == "/blog"
  {
    Push([], "/blog")
  }

  /** `hasFilters`: a non-empty search, or a category other than "all". */
  predicate HasFilters(search: string, category: string) {
    search != "" || (category != "" && category != "all")
  }

  /** The bar and the page agree on the category, but a blank search counts
      as a filter for the bar while the page's query ignores it. */
  lemma FilterBarAndQuery(search: string, category: string)
    ensures PlanBlogQuery(search, category).category.Some? ==> HasFilters(search, category)
    ensures PlanBlogQuery(search, category).search.Some? ==> HasFilters(search, category)
    ensures HasFilters(" ", "all") && PlanBlogQuery(" ", "all") == BlogQuery(None, None)
  {
    assert IsSpace(' ');
    assert AllSpace(" ");
    TrimEmptyIffAllSpace(" ");
  }
}

=== FILE: comment_thread.dfy ===
/** The public comment section under a post: loading the thread of comments
    with their replies, and the form that posts a comment or a reply. */
module CommentThread {
  import opened Wrappers
  import opened Text
  import opened BlogActions
  import opened Ordering

  /** A comment as the section shows it, with the replies fetched for it. */
  datatype Entry = Entry(comment: CommentRow, replies: seq<ReplyRow>)

  /** The replies shown under one comment: all of its approved replies in
      the store, oldest first, or none when fetching them threw. */
  function RepliesShown(s: Store, commentId: string, fetch: Outcome): (r: seq<ReplyRow>)
    ensures fetch.Err? ==> r == []
    ensures forall x :: x in r ==> x.commentId == commentId && x.approved
    ensures fetch.Ok? ==> multiset(r) == multiset(ApprovedRepliesOf(s, commentId))
    ensures fetch.Ok? ==> SortedBy(r, (x: ReplyRow) => x.createdAt)
  {
    if fetch.Err? then [] else GetCommentReplies(s, commentId, Ok)
  }

  /** `fetchComments` once the comment list is in hand: one entry per
      comment, in order, each with its own replies. `replyFetch` says, per
      comment id, whether that comment's reply request threw. */
  function Assemble(s: Store, comments: seq<CommentRow>, replyFetch: string -> Outcome): seq<Entry> {
    seq(|comments|, i requires 0 <= i < |comments| =>
      Entry(comments[i], RepliesShown(s, comments[i].id, replyFetch(comments[i].id))))
  }

  /** The section's list and loading flag. */
  datatype Section = Section(entries: seq<Entry>, loading: bool)

  /** `fetchComments`: a thrown top-level request empties the list; the
      loading flag is cleared on every path. */
  function FetchComments(s: Store, blogId: string, read: Outcome, thrown: bool,
                         replyFetch: string -> Outcome): (r: Section)
    ensures !r.loading
    ensures thrown ==> r.entries == []
    ensures !thrown ==> |r.entries| == |GetBlogComments(s, blogId, read)|
    ensures !thrown ==> forall i :: 0 <= i < |r.entries| ==>
      r.entries[i].comment == GetBlogComments(s, blogId, read)[i]
    ensures (!thrown ==> forall i :: 0 <= i < |r.entries| ==>
      (replyFetch(r.entries[i].comment.id).Err? ==> r.entries[i].replies == []) &&
      (replyFetch(r.entries[i].comment.id).Ok? ==>
         multiset(r.entries[i].replies) == multiset(ApprovedRepliesOf(s, r.entries[i].comment.id))))
  {
    if thrown then Section([], false)
    else Section(Assemble(s, GetBlogComments(s, blogId, read), replyFetch), false)
  }

  /** Every comment belongs to the post and carries exactly the replies
      shown for its own id, each approved and hanging under it. */
  lemma ThreadIsWellFormed(s: Store, blogId: string, read: Outcome, thrown: bool, replyFetch: string -> Outcome)
    ensures var sec := FetchComments(s, blogId, read, thrown, replyFetch);
      forall i :: 0 <= i < |sec.entries| ==>
        sec.entries[i].comment.blogId == blogId
        && forall x :: x in sec.entries[i].replies ==> x.commentId == sec.entries[i].comment.id && x.approved
    ensures var sec := FetchComments(s, blogId, read, thrown, replyFetch);
      !thrown ==> forall i :: 0 <= i < |sec.entries| ==>
        sec.entries[i].replies == RepliesShown(s, sec.entries[i].comment.id, replyFetch(sec.entries[i].comment.id))
  {
    var sec := FetchComments(s, blogId, read, thrown, replyFetch);
    if !thrown {
      var cs := GetBlogComments(s, blogId, read);
      forall i | 0 <= i < |sec.entries|
        ensures sec.entries[i].comment.blogId == blogId
        ensures sec.entries[i].replies == RepliesShown(s, cs[i].id, replyFetch(cs[i].id))
      {
        assert sec.entries[i].comment in cs;
      }
    }
  }

  /** A reply request that throws empties the replies of its own comment
      and of no other. */
  lemma ReplyFailureIsLocal(s: Store, comments: seq<CommentRow>, f: string -> Outcome, g: string -> Outcome, bad: string)
    requires forall id :: id != bad ==> f(id) == g(id)
    ensures var a := Assemble(s, comments, f);
      var b := Assemble(s, comments, g);
      forall i :: 0 <= i < |comments| && comments[i].id != bad ==> a[i] == b[i]
  {
  }

  // ---------------------------------------------------------------- the form

  datatype Form = Form(
    name: string, email: string, content: string, replyingTo: Option<string>,
    error: Option<string>, submitted: bool, submitting: bool)

  /** `if (replyingTo)`: a reply target counts only when it is a non-empty id. */
  predicate IsReplying(f: Form) {
    f.replyingTo.Some? && f.replyingTo.value != ""
  }

  function FailureMessage(replying: bool): (m: string)
    ensures m != ""
    ensures replying <==> m == "Failed to post reply. Please try again."
  {
    if replying then "Failed to post reply. Please try again."
    else "Failed to post comment. Please try again."
  }

  datatype Submitted = Submitted(form: Form, store: Store, sent: bool)

  /** `handleSubmit`: nothing happens unless the trimmed name and content are
      both non-empty. Otherwise the untrimmed fields are posted as a reply to
      `replyingTo` or as a comment on the post. Success clears the fields and
      the reply target; failure keeps them and sets a message that depends on
      what was being posted. */
  function HandleSubmit(f: Form, s: Store, blogId: string, newId: string, now: int, write: Outcome): (r: Submitted)
    ensures r.sent <==> Trim(f.name) != "" && Trim(f.content) != ""
    ensures !r.sent ==> r.form == f && r.store == s
    ensures r.sent && write.Ok? && IsReplying(f) ==>
      r.store == SubmitCommentReply(s, f.replyingTo.value, f.name, f.content, Some(f.email), newId, now, write).value
    ensures r.sent && write.Ok? && !IsReplying(f) ==>
      r.store == SubmitBlogComment(s, blogId, f.name, f.content, Some(f.email), newId, now, write).value
    ensures r.sent && write.Ok? ==> r.form == Form("", "", "", None, None, true, false)
    ensures r.sent && write.Err? ==> (r.store == s
      && r.form == f.(error := Some(FailureMessage(IsReplying(f))), submitting := false))
  {
    if Trim(f.name) == "" || Trim(f.content) == "" then Submitted(f, s, false)
    else
      var posted :=
        if IsReplying(f) then SubmitCommentReply(s, f.replyingTo.value, f.name, f.content, Some(f.email), newId, now, write)
        else SubmitBlogComment(s, blogId, f.name, f.content, Some(f.email), newId, now, write);
      match posted
      case Success(s') => Submitted(Form("", "", "", None, None, true, false), s', true)
      case Failure(_) =>
        Submitted(f.(error := Some(FailureMessage(IsReplying(f))), submitting := false), s, true)
  }

  /** A name or content made only of whitespace is never posted. */
  lemma BlankFieldsAreNotPosted(f: Form, s: Store, blogId: string, newId: string, now: int, write: Outcome)
    requires AllSpace(f.name) || AllSpace(f.content)
    ensures !HandleSubmit(f, s, blogId, newId, now, write).sent
  {
    TrimEmptyIffAllSpace(f.name);
    TrimEmptyIffAllSpace(f.content);
  }

  /** A top-level comment that goes through shows up, untrimmed, in the
      post's list on the next fetch. */
  lemma PostedCommentIsListed(f: Form, s: Store, blogId: string, newId: string, now: int)
    requires Trim(f.name) != "" && Trim(f.content) != "" && !IsReplying(f)
    ensures var r := HandleSubmit(f, s, blogId, newId, now, Ok);
      CommentRow(newId, blogId, f.name, EmailOrNull(Some(f.email)), f.content, true, now)
        in GetBlogComments(r.store, blogId, Ok)
  {
    var r := HandleSubmit(f, s, blogId, newId, now, Ok);
    var c := CommentRow(newId, blogId, f.name, EmailOrNull(Some(f.email)), f.content, true, now);
    assert c in r.store.comments;
  }

  /** A reply that goes through is listed under its comment. */
  lemma PostedReplyIsListed(f: Form, s: Store, blogId: string, newId: string, now: int)
    requires Trim(f.name) != "" && Trim(f.content) != "" && IsReplying(f)
    ensures var r := HandleSubmit(f, s, blogId, newId, now, Ok);
      ReplyRow(newId, f.replyingTo.value, f.name, EmailOrNull(Some(f.email)), f.content, true, now)
        in GetCommentReplies(r.store, f.replyingTo.value, Ok)
  {
    var r := HandleSubmit(f, s, blogId, newId, now, Ok);
    var x := ReplyRow(newId, f.replyingTo.value, f.name, EmailOrNull(Some(f.email)), f.content, true, now);
    assert x in r.store.replies;
  }

  /** The "Reply" button under a comment. */
  function StartReply(f: Form, commentId: string): (r: Form)
    ensures r.replyingTo == Some(commentId) && r.error.None?
    ensures r.name == f.name && r.email == f.email && r.content == f.content
  {
    f.(replyingTo := Some(commentId), error := None)
  }

  /** The "Cancel" button: drops the reply target and the draft. */
  function CancelReply(f: Form): (r: Form)
    ensures r.replyingTo.None? && r.content == "" && r.error.None?
    ensures r.name == f.name && r.email == f.email
  {
    f.(replyingTo := None, content := "", error := None)
  }

  /** Starting a reply and cancelling it returns to a top-level comment with
      the same name and email and an empty draft. */
  lemma CancelUndoesReply(f: Form, commentId: string)
    ensures var r := CancelReply(StartReply(f, commentId));
      !IsReplying(r) && r == f.(replyingTo := None, content := "", error := None)
  {
  }

  /** The thread's heading: "Comment" for exactly one, "Comments" otherwise. */
  lemma HeadingNoun(n: nat)
    ensures Noun("Comment", n) == "Comment" <==> n == 1
    ensures Noun("Comment", n) == "Comments" <==> n != 1
  {
  }
}

=== FILE: contact.dfy ===
/** Contact messages: the server actions that store, list and update them,
    and the admin list's local state. A message's status moves from
    "unread" to "read" or "replied". Store and e-mail round trips are
    outcome parameters; the e-mail never affects the result. */
module Contact {
  import opened Wrappers
  import opened Text
  import opened Seqs
  import opened Ordering

  datatype ContactMessage = ContactMessage(
    id: string, name: string, email: string, subject: string, message: string,
    status: string, replied: bool, replyMessage: Option<string>, createdAt: int)

  datatype ContactInput = ContactInput(name: string, email: string, subject: string, message: string)

  /** What a submission reports, and whether an e-mail was attempted. */
  datatype Submission = Submission(
    table: seq<ContactMessage>, success: bool, message: Option<string>, error: Option<string>, emailed: bool)

  /** `submitContactMessage`. `insert` is the store's answer; `email` is the
      mail service's, which the result ignores. */
  function SubmitContactMessage(table: seq<ContactMessage>, input: ContactInput, newId: string, now: int,
                                insert: Outcome, email: Outcome): (r: Submission)
    ensures r.success <==> insert.Ok?
    ensures r.emailed <==> insert.Ok?
    ensures insert.Err? ==> r.table == table && r.error == Some("Failed to save message. Please try again.")
    ensures (insert.Ok? ==>
      r.table == table + [ContactMessage(newId, input.name, input.email, input.subject, input.message,
                                         "unread", false, None, now)])
  {
    if insert.Err? then Submission(table, false, None, Some("Failed to save message. Please try again."), false)
    else
      var row := ContactMessage(newId, input.name, input.email, input.subject, input.message, "unread", false, None, now);
      Submission(table + [row], true, Some("Message sent successfully!"), None, true)
  }

  /** A failing mail service never changes what a submission reports or
      stores. */
  lemma EmailNeverChangesOutcome(table: seq<ContactMessage>, input: ContactInput, newId: string, now: int,
                                 insert: Outcome, e1: Outcome, e2: Outcome)
    ensures SubmitContactMessage(table, input, newId, now, insert, e1) == SubmitContactMessage(table, input, newId, now, insert, e2)
  {
  }

  function CreatedAt(m: ContactMessage): int {
    m.createdAt
  }

  /** `getContactMessages`: newest first; an error gives []. */
  function GetContactMessages(table: seq<ContactMessage>, read: Outcome): (r: seq<ContactMessage>)
    ensures read.Err? ==> r == []
    ensures read.Ok? ==> multiset(r) == multiset(table)
    ensures SortedDescBy(r, CreatedAt)
  {
    if read.Err? then [] else SortDescBy(table, CreatedAt)
  }

  /** Every row with the id gets the status; the rest stay as they were. */
  function SetStatus(table: seq<ContactMessage>, id: string, status: string): seq<ContactMessage> {
    seq(|table|, i requires 0 <= i < |table| =>
      if table[i].id == id then table[i].(status := status) else table[i])
  }

  datatype Update = Update(table: seq<ContactMessage>, success: bool)

  /** `updateMessageStatus`: any status string is written; a store error is
      reported as `success: false`, not thrown. */
  function UpdateMessageStatus(table: seq<ContactMessage>, id: string, status: string, write: Outcome): (r: Update)
    ensures r.success <==> write.Ok?
    ensures write.Err? ==> r.table == table
    ensures write.Ok? ==> r.table == SetStatus(table, id, status)
  {
    if write.Err? then Update(table, false) else Update(SetStatus(table, id, status), true)
  }

  /** Updating a status touches no other field and no other row. */
  lemma StatusUpdateTouchesOnlyStatus(table: seq<ContactMessage>, id: string, status: string, i: nat)
    requires i < |table|
    ensures var t := UpdateMessageStatus(table, id, status, Ok).table;
      t[i].(status := table[i].status) == table[i] &&
      (table[i].id == id ==> t[i].status == status)
  {
  }

  /** Rows with `id`. */
  function RowsWithId(table: seq<ContactMessage>, id: string): nat {
    |Filter((m: ContactMessage) => m.id == id, table)|
  }

  /** Every row with the id becomes a replied message carrying the reply;
      every other row, and every id, stays as it was. */
  function MarkReplied(table: seq<ContactMessage>, id: string, reply: string): (r: seq<ContactMessage>)
    ensures |r| == |table|
    ensures forall i :: 0 <= i < |r| ==> r[i].id == table[i].id
    ensures forall i :: 0 <= i < |r| && table[i].id != id ==> r[i] == table[i]
    ensures (forall i :: 0 <= i < |r| && table[i].id == id ==>
      r[i].replied && r[i].status == "replied" && r[i].replyMessage == Some(reply))
  {
    seq(|table|, i requires 0 <= i < |table| =>
      if table[i].id == id then table[i].(replied := true, replyMessage := Some(reply), status := "replied")
      else table[i])
  }

  /** `replyToMessage`: the `.single()` lookup needs exactly one row with the
      id; then the mail is sent (its outcome is ignored) and the row is
      marked replied. */
  function ReplyToMessage(table: seq<ContactMessage>, id: string, reply: string,
                          email: Outcome, write: Outcome): (r: Update)
    ensures r.success <==> RowsWithId(table, id) == 1 && write.Ok?
    ensures !r.success ==> r.table == table
    ensures r.success ==> r.table == MarkReplied(table, id, reply)
  {
    if RowsWithId(table, id) != 1 then Update(table, false)
    else if write.Err? then Update(table, false)
    else Update(MarkReplied(table, id, reply), true)
  }

  /** A missing message is never replied to. */
  lemma MissingMessageGetsNoReply(table: seq<ContactMessage>, id: string, reply: string, email: Outcome, write: Outcome)
    requires forall i :: 0 <= i < |table| ==> table[i].id != id
    ensures !ReplyToMessage(table, id, reply, email, write).success
    ensures ReplyToMessage(table, id, reply, email, write).table == table
  {
    FilterDropsAll((m: ContactMessage) => m.id == id, table);
  }

  /** A successful reply marks the row replied with the text, whatever the
      mail service did, and leaves the other rows alone. */
  lemma ReplyMarksReplied(table: seq<ContactMessage>, id: string, reply: string, email: Outcome, i: nat)
    requires RowsWithId(table, id) == 1 && i < |table|
    ensures var t := ReplyToMessage(table, id, reply, email, Ok).table;
      (table[i].id == id ==> t[i].replied && t[i].replyMessage == Some(reply) && t[i].status == "replied") &&
      (table[i].id != id ==> t[i] == table[i])
  {
  }

  // ---------------------------------------------------------------------
  // The admin list
  // ---------------------------------------------------------------------

  /** The list, the message whose reply dialog is open, and the reply text. */
  datatype ListState = ListState(messages: seq<ContactMessage>, selected: Option<ContactMessage>, replyText: string)

  /** The state after a reply click and whether the server was called. */
  datatype ReplyStep = ReplyStep(state: ListState, sent: bool)

  /** `handleReply`. `success` is what `replyToMessage` answered. */
  function HandleReply(st: ListState, success: bool): (r: ReplyStep)
    ensures r.sent <==> st.selected.Some? && Trim(st.replyText) != ""
    ensures !(r.sent && success) ==> r.state == st
    ensures (r.sent && success) ==>
      r.state.messages == MarkReplied(st.messages, st.selected.value.id, st.replyText) &&
      r.state.selected.None? && r.state.replyText == ""
  {
    if st.selected.None? || Trim(st.replyText) == "" then ReplyStep(st, false)
    else if !success then ReplyStep(st, true)
    else ReplyStep(ListState(MarkReplied(st.messages, st.selected.value.id, st.replyText), None, ""), true)
  }

  /** The local list after a successful reply matches what the server wrote,
      the reply text kept untrimmed. */
  lemma ListFollowsServerReply(st: ListState, email: Outcome)
    requires st.selected.Some? && Trim(st.replyText) != ""
    requires RowsWithId(st.messages, st.selected.value.id) == 1
    ensures var server := ReplyToMessage(st.messages, st.selected.value.id, st.replyText, email, Ok);
      server.success && HandleReply(st, server.success).state.messages == server.table
  {
  }

  /** `handleMarkAsRead`: the row shows "read" whatever the server answered. */
  function HandleMarkAsRead(messages: seq<ContactMessage>, id: string, server: Outcome): (r: seq<ContactMessage>)
    ensures r == UpdateMessageStatus(messages, id, "read", Ok).table
  {
    SetStatus(messages, id, "read")
  }

  /** A failed server update still shows the message as read locally, so
      the list and the store can disagree. */
  lemma MarkAsReadIgnoresFailure(messages: seq<ContactMessage>, id: string, i: nat)
    requires i < |messages| && messages[i].id == id && messages[i].status == "unread"
    ensures HandleMarkAsRead(messages, id, Err)[i].status == "read"
    ensures UpdateMessageStatus(messages, id, "read", Err).table[i].status == "unread"
  {
  }

  /** The mark-as-read button is offered only for unread messages. */
  predicate ShowsMarkRead(m: ContactMessage) {
    m.status == "unread"
  }

  /** `status.charAt(0).toUpperCase() + status.slice(1)`. */
  function StatusLabel(status: string): (r: string)
    ensures |r| == |status|
    ensures |status| > 0 ==> r[0] == UpperChar(status[0]) && r[1..] == status[1..]
  {
    if |status| == 0 then "" else [UpperChar(status[0])] + status[1..]
  }

  /** The three statuses the program writes read as "Unread", "Read" and
      "Replied". */
  lemma KnownStatusLabels()
    ensures StatusLabel("unread") == "Unread"
    ensures StatusLabel("read") == "Read"
    ensures StatusLabel("replied") == "Replied"
  {
  }
}

=== FILE: gallery.dfy ===
/** The gallery's server actions and the public gallery page. The six
    tables (photos, videos, audio, notes, quotes, about details) share one
    shape as far as the actions go: rows with an id and a display order. */
module Gallery {
  import opened Wrappers
  import opened Seqs
  import opened Ordering
  import opened YouTube

  datatype Row<T> = Row(id: string, displayOrder: int, data: T)

  /** A write that failed and was rethrown. */
  datatype StoreError = StoreError

  function DisplayOrderOf<T>(r: Row<T>): int {
    r.displayOrder
  }

  /** The six getters: every row, by display order ascending; no data
      (a failed read) gives the empty list. */
  function GetAll<T(==,!new)>(table: seq<Row<T>>, read: Outcome): (r: seq<Row<T>>)
    ensures SortedBy(r, DisplayOrderOf)
    ensures read.Ok? ==> multiset(r) == multiset(table)
    ensures read.Err? ==> r == []
  {
    if read.Err? then [] else SortBy(table, DisplayOrderOf)
  }

  /** The create actions: the row is added, or the store error is thrown. */
  function Create<T>(table: seq<Row<T>>, row: Row<T>, write: Outcome): (r: Result<seq<Row<T>>, StoreError>)
    ensures write.Err? <==> r.Failure?
    ensures r.Success? ==> r.value == table + [row]
  {
    if write.Err? then Failure(StoreError) else Success(table + [row])
  }

  /** The delete actions: the rows with that id go, or the error is thrown. */
  function Delete<T(==,!new)>(table: seq<Row<T>>, id: string, write: Outcome): (r: Result<seq<Row<T>>, StoreError>)
    ensures write.Err? <==> r.Failure?
    ensures r.Success? ==> forall x :: x in r.value <==> x in table && x.id != id
    ensures r.Success? ==> IsSubsequence(r.value, table)
    ensures r.Success? ==> forall x :: multiset(r.value)[x] == if x.id != id then multiset(table)[x] else 0
  {
    var kept := (x: Row<T>) => x.id != id;
    FilterKeepsCounts(kept, table);
    if write.Err? then Failure(StoreError) else Success(Filter(kept, table))
  }

  /** A created row shows up in the next listing, and a deleted id does not. */
  lemma CreateThenListed<T(!new)>(table: seq<Row<T>>, row: Row<T>)
    ensures row in GetAll(Create(table, row, Ok).value, Ok)
  {
    var t := table + [row];
    assert row in multiset(t);
  }

  lemma DeleteThenGone<T(!new)>(table: seq<Row<T>>, id: string)
    ensures forall x :: x in GetAll(Delete(table, id, Ok).value, Ok) ==> x.id != id
  {
    var t := Delete(table, id, Ok).value;
    forall x | x in GetAll(t, Ok) ensures x.id != id {
      assert x in multiset(GetAll(t, Ok));
      assert x in multiset(t);
    }
  }

  // ---------------------------------------------------------------- videos

  datatype VideoInput = VideoInput(title: string, description: Option<string>, youtubeUrl: string)
  datatype Video = Video(title: string, description: Option<string>, youtubeUrl: string, thumbnailUrl: Option<string>)

  /** `createGalleryVideo`: the input fields are copied and the thumbnail is
      derived from the extracted id. */
  function CreateGalleryVideo(table: seq<Row<Video>>, id: string, order: int, v: VideoInput, write: Outcome)
    : (r: Result<seq<Row<Video>>, StoreError>)
    ensures write.Err? <==> r.Failure?
    ensures r.Success? ==> |r.value| == |table| + 1 && r.value[..|table|] == table
    ensures r.Success? ==> var row := r.value[|table|].data;
      row.title == v.title && row.description == v.description && row.youtubeUrl == v.youtubeUrl
      && (row.thumbnailUrl.Some? <==> ExtractYouTubeId(v.youtubeUrl).Some?)
  {
    var row := Video(v.title, v.description, v.youtubeUrl, ThumbnailUrl(ExtractYouTubeId(v.youtubeUrl)));
    Create(table, Row(id, order, row), write)
  }

  /** A short link's thumbnail is built from the id it carries. */
  lemma ShortLinkThumbnail(table: seq<Row<Video>>, vid: string, title: string)
    requires vid != [] && forall k :: 0 <= k < |vid| ==> IdChar(vid[k])
    ensures var r := CreateGalleryVideo(table, "v", 0, VideoInput(title, None, "https://youtu.be/" + vid), Ok);
      r.value[|table|].data.thumbnailUrl == Some("https://img.youtube.com/vi/" + vid + "/maxresdefault.jpg")
  {
    assert "https://youtu.be/" + vid == "https://" + ShortLinkMarker + vid;
    ExtractsWrittenId("https://", ShortLinkMarker, vid);
  }

  // ---------------------------------------------------------------- the page

  datatype Lists<P, V, A, N, Q, D> = Lists(
    photos: seq<P>, videos: seq<V>, audios: seq<A>, notes: seq<N>, quotes: seq<Q>, about: seq<D>)

  datatype Sections = Sections(about: bool, photos: bool, videos: bool, audio: bool, quotes: bool, notes: bool, emptyState: bool)

  /** Which blocks the page renders: About Me always, each media section iff
      its list is non-empty, the "coming soon" note iff all six lists are. */
  function PageSections<P, V, A, N, Q, D>(l: Lists<P, V, A, N, Q, D>): (r: Sections)
    ensures r.about
    ensures r.photos <==> |l.photos| > 0
    ensures r.videos <==> |l.videos| > 0
    ensures r.audio <==> |l.audios| > 0
    ensures r.quotes <==> |l.quotes| > 0
    ensures r.notes <==> |l.notes| > 0
    ensures r.emptyState <==> l.photos == [] && l.videos == [] && l.audios == [] && l.quotes == [] && l.notes == [] && l.about == []
  {
    Sections(true, |l.photos| > 0, |l.videos| > 0, |l.audios| > 0, |l.quotes| > 0, |l.notes| > 0,
      |l.photos| == 0 && |l.videos| == 0 && |l.audios| == 0 && |l.quotes| == 0 && |l.notes| == 0 && |l.about| == 0)
  }

  /** The "coming soon" note never shares the page with a media section,
      and about-details alone suppress it without adding a section. */
  lemma EmptyStateExcludesMedia<P, V, A, N, Q, D>(l: Lists<P, V, A, N, Q, D>)
    ensures var s := PageSections(l);
      s.emptyState ==> !(s.photos || s.videos || s.audio || s.quotes || s.notes)
    ensures var s := PageSections(l);
      |l.about| > 0 ==> !s.emptyState
  {
  }

  /** `photo.image_url || "/placeholder.svg"` and `photo.title || "Gallery photo"`. */
  function PhotoImage(imageUrl: Option<string>, title: Option<string>): (r: (string, string))
    ensures imageUrl.Some? && imageUrl.value != "" ==> r.0 == imageUrl.value
    ensures imageUrl.None? || imageUrl.value == "" ==> r.0 == "/placeholder.svg"
    ensures title.Some? && title.value != "" ==> r.1 == title.value
    ensures title.None? || title.value == "" ==> r.1 == "Gallery photo"
  {
    (if imageUrl.Some? && imageUrl.value != "" then imageUrl.value else "/placeholder.svg",
     if title.Some? && title.value != "" then title.value else "Gallery photo")
  }

  /** A quote's attribution line: none without an author; the source is
      appended only when the author is shown too. */
  function Attribution(author: Option<string>, source: Option<string>): (r: Option<string>)
    ensures r.Some? <==> author.Some? && author.value != ""
    ensures r.Some? && source.Some? && source.value != "" ==> r.value == "— " + author.value + ", " + source.value
    ensures r.Some? && (source.None? || source.value == "") ==> r.value == "— " + author.value
  {
    if author.None? || author.value == "" then None
    else if source.Some? && source.value != "" then Some("— " + author.value + ", " + source.value)
    else Some("— " + author.value)
  }
}

=== FILE: like_widgets.dfy ===
/** The three client widgets that like and share a post: the blog card, the
    post page's interaction bar and the home-page preview card. Each click
    handler is split into the synchronous click (guard and in-flight flag)
    and the completion of the awaited server call. */
module LikeWidgets {
  import opened Wrappers
  import opened Seqs
  import opened Text
  import opened BlogActions

  // ---------------------------------------------------------------- session ids

  /** `localStorage` under the key "blog_session_id", seen from the browser or
      from the server, where there is no `window`. */
  datatype Host = OnServer | InBrowser(stored: Option<string>)

  datatype SessionLookup = SessionLookup(id: string, host: Host)

  /** `getSessionId`/`getOrCreateSessionId`: "" on the server; the stored id
      when it is non-empty; otherwise `generated` is stored and returned. */
  function GetSessionId(host: Host, generated: string): (r: SessionLookup)
    ensures host.OnServer? ==> r == SessionLookup("", host)
    ensures host.InBrowser? && host.stored.Some? && host.stored.value != "" ==> r == SessionLookup(host.stored.value, host)
    ensures host.InBrowser? && (host.stored.None? || host.stored.value == "") ==> r == SessionLookup(generated, InBrowser(Some(generated)))
  {
    match host
    case OnServer => SessionLookup("", host)
    case InBrowser(stored) =>
      if stored.Some? && stored.value != "" then SessionLookup(stored.value, host)
      else SessionLookup(generated, InBrowser(Some(generated)))
  }

  /** Once a browser has a non-empty id, every later lookup returns it,
      whatever generated value would have been generated. */
  lemma SessionIdIsStable(host: Host, generated1: string, generated2: string)
    requires host.InBrowser? && generated1 != ""
    ensures var first := GetSessionId(host, generated1);
      var second := GetSessionId(first.host, generated2);
      second == first && first.id != ""
  {
  }

  /** The preview card's generated id `session_<ms>_<random>`. */
  function PreviewSessionToken(millis: string, random: string): (r: string)
    ensures |r| == 9 + |millis| + |random| && r[..8] == "session_"
  {
    "session_" + millis + "_" + random
  }

  /** All three widgets share one storage key, so the id a card creates is
      the id the post page and the preview reuse. */
  lemma WidgetsShareOneSession(host: Host, uuid: string, millis: string, random: string)
    requires host.InBrowser? && uuid != ""
    ensures var card := GetSessionId(host, uuid);
      GetSessionId(card.host, PreviewSessionToken(millis, random)).id == card.id
  {
  }

  // ---------------------------------------------------------------- like button

  /** `liked`, the displayed count and the in-flight flag `isLiking`. */
  datatype LikeButton = LikeButton(liked: bool, count: int, isLiking: bool)

  /** `likes_count || 0`. */
  function CountOrZero(n: Option<int>): (r: int)
    ensures n.Some? ==> r == n.value
    ensures n.None? ==> r == 0
  {
    n.GetOr(0)
  }

  /** The initial state: not liked, the post's counter, nothing in flight. */
  function InitialButton(count: int): (b: LikeButton)
    ensures !b.liked && b.count == count && !b.isLiking
  {
    LikeButton(false, count, false)
  }

  /** The mount effect of the card and the post page: ask the server only
      when there is a session id. The preview card has no such effect. */
  function SyncLiked(b: LikeButton, sessionId: string, s: Store, blogId: string, read: Outcome): (r: LikeButton)
    ensures r.count == b.count && r.isLiking == b.isLiking
    ensures sessionId == "" ==> r == b
    ensures sessionId != "" ==> (r.liked <==> CheckBlogLiked(s, blogId, sessionId, read))
  {
    if sessionId != "" then b.(liked := CheckBlogLiked(s, blogId, sessionId, read)) else b
  }

  /** A click: ignored while a toggle is in flight; otherwise it raises the
      flag and the toggle request is sent. */
  datatype Click = Click(button: LikeButton, sent: bool)

  function ClickLike(b: LikeButton): (r: Click)
    ensures r.sent <==> !b.isLiking
    ensures r.button.isLiking
    ensures r.button.liked == b.liked && r.button.count == b.count
  {
    if b.isLiking then Click(b, false) else Click(b.(isLiking := true), true)
  }

  /** The awaited toggle finishes: `Some(liked)` on an answer, `None` when it
      threw. The flag is cleared on both paths. */
  function CompleteLike(b: LikeButton, answer: Option<bool>): (r: LikeButton)
    ensures !r.isLiking
    ensures answer.None? ==> r.liked == b.liked && r.count == b.count
    ensures answer.Some? ==> (r.liked == answer.value
      && r.count == (if answer.value then b.count + 1 else b.count - 1))
  {
    match answer
    case None => b.(isLiking := false)
    case Some(liked) => LikeButton(liked, if liked then b.count + 1 else b.count - 1, false)
  }

  /** A second click before the first toggle returns sends nothing and
      changes nothing. */
  lemma DoubleClickSendsOnce(b: LikeButton)
    requires !b.isLiking
    ensures var first := ClickLike(b);
      first.sent && ClickLike(first.button) == Click(first.button, false)
  {
  }

  /** A button that agrees with the store keeps agreeing through a click and
      a toggle that goes through: its flag is the session's like and its
      count is the post's number of like rows. */
  lemma ButtonTracksStore(b: LikeButton, s: Store, blogId: string, sessionId: string, newId: string)
    requires AtMostOneLike(s) && UniqueLikeIds(s) && FreshLikeId(s, newId)
    requires !b.isLiking && b.liked == HasLike(s, blogId, sessionId) && b.count == LikesCount(s, blogId, Ok)
    ensures var t := ToggleBlogLike(s, blogId, sessionId, newId, Ok, Ok);
      var after := CompleteLike(ClickLike(b).button, Some(t.liked));
      after.liked == HasLike(t.store, blogId, sessionId) && after.count == LikesCount(t.store, blogId, Ok)
  {
    ToggleFlipsOnePair(s, blogId, sessionId, newId);
    ToggleMovesCountByOne(s, blogId, sessionId, newId);
  }

  /** The preview card never asks the server, so on a post this session
      already likes its first click answers "unliked" and shows one less. */
  lemma PreviewFirstClickUnlikes(s: Store, blogId: string, sessionId: string, newId: string, count: int)
    requires AtMostOneLike(s) && HasLike(s, blogId, sessionId)
    ensures var t := ToggleBlogLike(s, blogId, sessionId, newId, Ok, Ok);
      var after := CompleteLike(ClickLike(InitialButton(count)).button, Some(t.liked));
      !after.liked && after.count == count - 1
  {
    CheckMatchesHasLike(s, blogId, sessionId);
  }

  /** The post page's label: "Like" for exactly one like, "Likes" otherwise. */
  lemma LikeLabel(count: int)
    ensures Noun("Like", count) == "Like" <==> count == 1
    ensures Noun("Like", count) == "Likes" <==> count != 1
  {
  }

  // ---------------------------------------------------------------- sharing

  datatype ShareAction = OpenTwitter | OpenFacebook | OpenLinkedIn | CopyUrl | NoAction

  function ShareActionFor(platform: string): (a: ShareAction)
    ensures a == NoAction <==> platform !in {"twitter", "facebook", "linkedin", "copy"}
    ensures a == CopyUrl <==> platform == "copy"
  {
    match platform
    case "twitter" => OpenTwitter
    case "facebook" => OpenFacebook
    case "linkedin" => OpenLinkedIn
    case "copy" => CopyUrl
    case _ => NoAction
  }

  datatype Shared = Shared(store: Store, action: ShareAction)

  /** The card's and the post page's `handleShare`: the share is recorded
      first, for any platform string, then dispatched. */
  function HandleShare(s: Store, blogId: string, platform: string, write: Outcome): (r: Shared)
    ensures r.store == TrackBlogShare(s, blogId, platform, write)
    ensures r.action == ShareActionFor(platform)
    ensures write.Ok? ==> (|r.store.shares| == |s.shares| + 1
      && r.store.shares[|s.shares|] == ShareRow(blogId, platform))
  {
    Shared(TrackBlogShare(s, blogId, platform, write), ShareActionFor(platform))
  }

  /** An unknown platform is still counted as a share. */
  lemma UnknownPlatformIsCounted(s: Store, blogId: string)
    ensures var r := HandleShare(s, blogId, "email", Ok);
      r.action == NoAction && SharesCount(r.store, blogId, Ok) == SharesCount(s, blogId, Ok) + 1
  {
    FilterAppend((x: ShareRow) => x.blogId == blogId, s.shares, [ShareRow(blogId, "email")]);
  }

  /** The post page's "copied" tick: set by a copy share, cleared by the
      2000 ms timer. */
  function CopiedAfterShare(copied: bool, platform: string): (r: bool)
    ensures r <==> copied || platform == "copy"
  {
    if ShareActionFor(platform) == CopyUrl then true else copied
  }

  const CopiedResetMillis: nat := 2000

  function CopiedAfterTimer(copied: bool, elapsedMillis: nat): (r: bool)
    ensures r <==> copied && elapsedMillis < CopiedResetMillis
  {
    if elapsedMillis >= CopiedResetMillis then false else copied
  }

  /** The preview card's share: with a native share sheet the share is
      recorded as "native" only after the sheet resolves, a cancel records
      nothing; without one the URL is copied first and "clipboard" is
      recorded only when the copy went through (a rejected
      `clipboard.writeText` ends the handler). */
  function PreviewShare(s: Store, blogId: string, hasNativeShare: bool, sheetResolved: bool, copied: bool,
                        write: Outcome): (r: Store)
    ensures hasNativeShare && !sheetResolved ==> r == s
    ensures hasNativeShare && sheetResolved ==> r == TrackBlogShare(s, blogId, "native", write)
    ensures !hasNativeShare && !copied ==> r == s
    ensures !hasNativeShare && copied ==> r == TrackBlogShare(s, blogId, "clipboard", write)
  {
    if hasNativeShare then
      if sheetResolved then TrackBlogShare(s, blogId, "native", write) else s
    else if copied then TrackBlogShare(s, blogId, "clipboard", write)
    else s
  }

  /** A preview share adds at most one share row, for this post, and only
      when the sheet resolved or the copy went through. */
  lemma PreviewShareAddsAtMostOne(s: Store, blogId: string, hasNativeShare: bool, sheetResolved: bool,
                                  copied: bool, write: Outcome)
    ensures var r := PreviewShare(s, blogId, hasNativeShare, sheetResolved, copied, write);
      (r.shares == s.shares ||
       (write.Ok? && (if hasNativeShare then sheetResolved else copied) &&
        exists p :: r.shares == s.shares + [ShareRow(blogId, p)])) &&
      SharesCount(r, blogId, Ok) <= SharesCount(s, blogId, Ok) + 1
  {
    var r := PreviewShare(s, blogId, hasNativeShare, sheetResolved, copied, write);
    if r.shares != s.shares {
      var p := if hasNativeShare then "native" else "clipboard";
      assert r.shares == s.shares + [ShareRow(blogId, p)];
      FilterAppend((x: ShareRow) => x.blogId == blogId, s.shares, [ShareRow(blogId, p)]);
    }
  }

  // ---------------------------------------------------------------- cards

  /** A blog card shows at most its first two tags. */
  function ShownTags<T>(tags: seq<T>): (r: seq<T>)
    ensures |r| <= 2 && |r| <= |tags| && r == tags[..|r|]
    ensures |tags| >= 2 ==> |r| == 2
  {
    Take(tags, 2)
  }

  /** What the home preview needs of a post. */
  datatype PreviewPost = PreviewPost(
    id: string, slug: string, likesCount: Option<int>, commentsCount: Option<int>, views: Option<int>)

  const MockPosts: seq<PreviewPost> := [
    PreviewPost("1", "getting-started-nextjs-15", Some(24), Some(8), Some(150)),
    PreviewPost("2", "building-scalable-apis-nodejs", Some(18), Some(5), Some(89)),
    PreviewPost("3", "mastering-typescript-react", Some(42), Some(15), Some(234)),
    PreviewPost("4", "modern-css-techniques-2024", Some(15), Some(3), Some(67))
  ]

  /** `displayBlogs`: the first four posts, or the four mock posts when
      there are none. */
  function DisplayBlogs(posts: seq<PreviewPost>): (r: seq<PreviewPost>)
    ensures 1 <= |r| <= 4
    ensures |posts| > 0 ==> |r| == (if |posts| < 4 then |posts| else 4) && r == posts[..|r|]
    ensures |posts| == 0 ==> r == MockPosts
  {
    if |posts| > 0 then Take(posts, 4) else MockPosts
  }

  /** The preview's "No blog posts yet" branch can never be taken. */
  lemma PreviewNeverEmpty(posts: seq<PreviewPost>)
    ensures DisplayBlogs(posts) != []
  {
    assert |DisplayBlogs(posts)| >= 1;
  }

  /** The preview's comment and view counters: a missing value shows 0. */
  function PreviewCounters(p: PreviewPost): (r: (int, int))
    ensures p.commentsCount.Some? ==> r.0 == p.commentsCount.value
    ensures p.commentsCount.None? ==> r.0 == 0
    ensures p.views.Some? ==> r.1 == p.views.value
    ensures p.views.None? ==> r.1 == 0
  {
    (CountOrZero(p.commentsCount), CountOrZero(p.views))
  }
}

=== FILE: listings.dfy ===
/** The read-side pages: the store's product search, the store and blog
    index pages (featured/regular split, category list, layout choice), the
    admin dashboard's statistics and the home page's setup detection. Query
    results arrive as parameters; the database's own filtering and ordering
    are modelled as `Filter` and a sort. */
module Listings {
  import opened Wrappers
  import opened Text
  import opened Seqs
  import opened Ordering
  import opened AdminForms

  // ---------------------------------------------------------------------
  // Categories and the featured split (shared by the store and blog pages)
  // ---------------------------------------------------------------------

  predicate Truthy(s: string) {
    s != ""
  }

  /** `Array.from(new Set(cats.filter(Boolean)))`. */
  function Categories(cats: seq<string>): seq<string> {
    Distinct(Filter(Truthy, cats))
  }

  /** The category list has no repeats and no empty entry, every entry is
      some row's category, every non-empty category is listed, and the order
      is that of first appearance. */
  lemma CategoriesAreDistinctAndListed(cats: seq<string>)
    ensures NoDup(Categories(cats))
    ensures forall c :: c in Categories(cats) <==> c in cats && c != ""
    ensures InFirstOccurrenceOrder(Categories(cats), Filter(Truthy, cats))
  {
    DistinctFirstOccurrenceOrder(Filter(Truthy, cats));
  }

  /** Splitting a list into featured and regular rows loses and duplicates
      nothing, and each side keeps the list order. */
  lemma FeaturedSplitIsPartition<T(!new)>(rows: seq<T>, featured: T -> bool, regular: T -> bool)
    requires forall x :: regular(x) == !featured(x)
    ensures multiset(Filter(featured, rows)) + multiset(Filter(regular, rows)) == multiset(rows)
    ensures IsSubsequence(Filter(featured, rows), rows) && IsSubsequence(Filter(regular, rows), rows)
    ensures forall x :: !(x in Filter(featured, rows) && x in Filter(regular, rows))
  {
    FilterPartition(featured, regular, rows);
    FilterIsSubsequence(featured, rows);
    FilterIsSubsequence(regular, rows);
  }

  // ---------------------------------------------------------------------
  // Store: product search
  // ---------------------------------------------------------------------

  datatype Product = Product(
    id: string, title: string, slug: string, description: Option<string>,
    category: string, featured: bool, active: bool, createdAt: int)

  /** `searchQuery === "" || title ⊇ query || description?. ⊇ query`,
      both sides lower-cased. */
  predicate MatchesSearch(p: Product, query: string) {
    query == "" ||
    Contains(Lower(p.title), Lower(query)) ||
    (p.description.Some? && Contains(Lower(p.description.value), Lower(query)))
  }

  /** `!selectedCategory || product.category === selectedCategory`. */
  predicate MatchesCategory(p: Product, selected: Option<string>) {
    selected.None? || selected.value == "" || p.category == selected.value
  }

  predicate IsFound(p: Product, query: string, selected: Option<string>) {
    MatchesSearch(p, query) && MatchesCategory(p, selected)
  }

  /** `filteredProducts`. */
  function SearchProducts(products: seq<Product>, query: string, selected: Option<string>): (r: seq<Product>)
    ensures IsSubsequence(r, products)
    ensures forall p :: p in r <==> p in products && IsFound(p, query, selected)
  {
    FilterIsSubsequence((p: Product) => IsFound(p, query, selected), products);
    Filter((p: Product) => IsFound(p, query, selected), products)
  }

  /** No query and no category: every product is found. */
  lemma EmptySearchFindsAll(products: seq<Product>)
    ensures SearchProducts(products, "", None) == products
  {
    FilterKeepsAll((p: Product) => IsFound(p, "", None), products);
  }

  /** With a category selected, every result has exactly that category. */
  lemma CategorySearchMatchesCategory(products: seq<Product>, query: string, c: string)
    requires c != ""
    ensures forall p :: p in SearchProducts(products, query, Some(c)) ==> p.category == c
  {
  }

  lemma LowerIdempotent(s: string)
    ensures Lower(Lower(s)) == Lower(s)
  {
  }

  /** The search ignores ASCII case in the query. */
  lemma SearchIgnoresQueryCase(p: Product, query: string)
    ensures MatchesSearch(p, Lower(query)) == MatchesSearch(p, query)
  {
    LowerIdempotent(query);
  }

  /** A product whose title contains the query verbatim is found (when no
      category is selected). */
  lemma TitleHitIsFound(p: Product, query: string, i: nat)
    requires OccursAt(p.title, query, i)
    ensures MatchesSearch(p, query)
  {
    var lt := Lower(p.title);
    var lq := Lower(query);
    assert lt[i..i + |lq|] == lq by {
      forall k | 0 <= k < |lq| ensures lt[i + k] == lq[k] {
        assert p.title[i + k] == query[k];
      }
    }
    assert OccursAt(lt, lq, i);
  }

  /** The results panel: shown iff there is a query or a category. */
  predicate ShowResults(query: string, selected: Option<string>) {
    |query| > 0 || (selected.Some? && selected.value != "")
  }

  /** The grid's `slice(0, 8)` of the results. */
  function ShownProducts(results: seq<Product>): (r: seq<Product>)
    ensures |r| <= 8 && |r| <= |results|
    ensures r == results[..|r|]
    ensures |results| <= 8 ==> r == results
  {
    Take(results, 8)
  }

  /** "N product(s) found" counts every result, not only the shown ones. */
  lemma FoundNoun(results: seq<Product>)
    ensures Noun("product", |results|) == "product" <==> |results| == 1
    ensures Noun("product", |results|) == "products" <==> |results| != 1
  {
  }

  // ---------------------------------------------------------------------
  // Store: the page
  // ---------------------------------------------------------------------

  predicate IsActive(p: Product) {
    p.active
  }

  function CreatedAt(p: Product): int {
    p.createdAt
  }

  /** `getProducts`: active products, newest first; no data gives []. */
  function GetProducts(table: seq<Product>, read: Outcome): (r: seq<Product>)
    ensures read.Err? ==> r == []
    ensures forall p :: p in r <==> read.Ok? && p in table && p.active
    ensures read.Ok? ==> multiset(r) == multiset(Filter(IsActive, table))
    ensures SortedDescBy(r, CreatedAt)
  {
    if read.Err? then []
    else
      var active := Filter(IsActive, table);
      var sorted := SortDescBy(active, CreatedAt);
      assert forall p :: p in sorted <==> p in active by {
        forall p ensures p in sorted <==> p in active {
          assert p in multiset(sorted) <==> p in multiset(active);
        }
      }
      sorted
  }

  predicate IsFeaturedProduct(p: Product) {
    p.featured
  }

  predicate IsRegularProduct(p: Product) {
    !p.featured
  }

  /** The store page's featured/regular split is a partition. */
  lemma StoreSplitIsPartition(products: seq<Product>)
    ensures multiset(Filter(IsFeaturedProduct, products)) + multiset(Filter(IsRegularProduct, products)) == multiset(products)
    ensures IsSubsequence(Filter(IsFeaturedProduct, products), products)
    ensures IsSubsequence(Filter(IsRegularProduct, products), products)
  {
    FeaturedSplitIsPartition(products, IsFeaturedProduct, IsRegularProduct);
  }

  /** `products.map((p) => p.category)`. */
  function ProductCategories(products: seq<Product>): seq<string> {
    seq(|products|, i requires 0 <= i < |products| => products[i].category)
  }

  /** The store lists each non-empty product category exactly once, and
      nothing else. */
  lemma StoreCategoriesComeFromProducts(products: seq<Product>)
    ensures NoDup(Categories(ProductCategories(products)))
    ensures forall c :: c in Categories(ProductCategories(products)) <==>
      c != "" && exists i :: 0 <= i < |products| && products[i].category == c
  {
    var cats := ProductCategories(products);
    CategoriesAreDistinctAndListed(cats);
    forall c | c != "" && exists i :: 0 <= i < |products| && products[i].category == c
      ensures c in cats
    {
      var i :| 0 <= i < |products| && products[i].category == c;
      assert cats[i] == c;
    }
  }

  /** What the store's product grid shows. */
  datatype StoreGrid = AllProducts(products: seq<Product>) | ComingSoon | NoGrid

  datatype StoreView = StoreView(featured: Option<seq<Product>>, grid: StoreGrid)

  function StorePage(products: seq<Product>): (v: StoreView)
    ensures v.featured.Some? <==> exists p :: p in products && p.featured
  {
    var featured := Filter(IsFeaturedProduct, products);
    var regular := Filter(IsRegularProduct, products);
    assert |featured| > 0 ==> featured[0] in featured;
    assert (exists p :: p in products && p.featured) ==> |featured| > 0 by {
      forall p | p in products && p.featured ensures |featured| > 0 {
        assert p in featured;
      }
    }
    StoreView(
      if |featured| > 0 then Some(featured) else None,
      if |regular| > 0 then AllProducts(regular)
      else if |products| == 0 then ComingSoon
      else NoGrid)
  }

  /** "Store coming soon" shows iff there are no products; when every
      product is featured the grid area is empty. */
  lemma StoreGridChoice(products: seq<Product>)
    ensures StorePage(products).grid.ComingSoon? <==> products == []
    ensures (StorePage(products).grid.NoGrid? <==>
      products != [] && forall p :: p in products ==> p.featured)
  {
    var regular := Filter(IsRegularProduct, products);
    if products != [] && forall p :: p in products ==> p.featured {
      FilterDropsAll(IsRegularProduct, products);
    }
    if products != [] && regular == [] {
      forall p | p in products ensures p.featured {
        assert !(p in regular);
      }
    }
  }

  // ---------------------------------------------------------------------
  // Blog index page
  // ---------------------------------------------------------------------

  datatype BlogPost = BlogPost(
    id: string, title: string, excerpt: Option<string>, content: string,
    category: string, featured: bool, published: bool, createdAt: int)

  /** The filters `getBlogs` adds to its query. */
  datatype BlogQuery = BlogQuery(search: Option<string>, category: Option<string>)

  /** `getBlogs`'s conditions: the search filter only for a search with
      non-blank text (the text is used untrimmed), the category filter unless
      the category is empty or "all". */
  function PlanBlogQuery(search: string, category: string): (q: BlogQuery)
    ensures q.search.Some? <==> Trim(search) != ""
    ensures q.search.Some? ==> q.search.value == search
    ensures q.category.Some? <==> category != "" && category != "all"
    ensures q.category.Some? ==> q.category.value == category
  {
    BlogQuery(
      if search != "" && Trim(search) != "" then Some(search) else None,
      if category != "" && category != "all" then Some(category) else None)
  }

  /** The `or(...)` text for a search: `title`, `excerpt` and `content`
      matched case-insensitively against `%search%`. */
  function SearchFilter(search: string): string {
    "title.ilike.%" + search + "%,excerpt.ilike.%" + search + "%,content.ilike.%" + search + "%"
  }

  /** A row the query returns: published, matching the search (as judged by
      `ilike`, an input here) and in the category. */
  predicate Selected(b: BlogPost, q: BlogQuery, ilike: (BlogPost, string) -> bool) {
    b.published &&
    (q.search.None? || ilike(b, SearchFilter(q.search.value))) &&
    (q.category.None? || b.category == q.category.value)
  }

  function BlogCreatedAt(b: BlogPost): int {
    b.createdAt
  }

  datatype BlogWithTags = BlogWithTags(blog: BlogPost, tags: seq<TagRow>)

  /** Attaches to each post the tag rows carrying its id. */
  function JoinTags(blogs: seq<BlogPost>, tags: seq<TagRow>): (r: seq<BlogWithTags>)
    ensures |r| == |blogs|
    ensures forall i :: 0 <= i < |r| ==> r[i].blog == blogs[i]
  {
    seq(|blogs|, i requires 0 <= i < |blogs| =>
      BlogWithTags(blogs[i], Filter((t: TagRow) => t.blogId == blogs[i].id, tags)))
  }

  /** Each post carries exactly the tag rows with its id, in table order. */
  lemma JoinedTagsBelong(blogs: seq<BlogPost>, tags: seq<TagRow>, i: nat)
    requires i < |blogs|
    ensures forall t :: t in JoinTags(blogs, tags)[i].tags <==> t in tags && t.blogId == blogs[i].id
    ensures IsSubsequence(JoinTags(blogs, tags)[i].tags, tags)
  {
    FilterIsSubsequence((t: TagRow) => t.blogId == blogs[i].id, tags);
  }

  /** The rows the blog query returns, newest first; a failed read gives
      none. */
  function SelectBlogs(table: seq<BlogPost>, q: BlogQuery, ilike: (BlogPost, string) -> bool,
                       read: Outcome): (r: seq<BlogPost>)
    ensures forall b :: b in r <==> read.Ok? && b in table && Selected(b, q, ilike)
    ensures read.Ok? ==> multiset(r) == multiset(Filter((b: BlogPost) => Selected(b, q, ilike), table))
    ensures SortedDescBy(r, BlogCreatedAt)
  {
    var rows := if read.Err? then [] else Filter((b: BlogPost) => Selected(b, q, ilike), table);
    var sorted := SortDescBy(rows, BlogCreatedAt);
    assert forall b :: b in sorted <==> b in rows by {
      forall b ensures b in sorted <==> b in rows {
        assert b in multiset(sorted) <==> b in multiset(rows);
      }
    }
    sorted
  }

  function PostCreatedAt(b: BlogWithTags): int {
    b.blog.createdAt
  }

  /** `getBlogs`: exactly the rows the query selects, newest first, each
      with its own tag rows; a failed tag read attaches no tags. */
  function GetBlogs(table: seq<BlogPost>, search: string, category: string,
                    ilike: (BlogPost, string) -> bool, tagTable: seq<TagRow>,
                    blogsRead: Outcome, tagsRead: Outcome): (r: seq<BlogWithTags>)
    ensures blogsRead.Err? ==> r == []
    ensures forall b :: (exists i :: 0 <= i < |r| && r[i].blog == b) <==>
      blogsRead.Ok? && b in table && Selected(b, PlanBlogQuery(search, category), ilike)
    ensures SortedDescBy(r, PostCreatedAt)
    ensures |r| == |SelectBlogs(table, PlanBlogQuery(search, category), ilike, blogsRead)|
    ensures forall i :: 0 <= i < |r| ==> r[i].blog == SelectBlogs(table, PlanBlogQuery(search, category), ilike, blogsRead)[i]
    ensures tagsRead.Err? ==> forall i :: 0 <= i < |r| ==> r[i].tags == []
    ensures tagsRead.Ok? ==> forall i :: 0 <= i < |r| ==>
      forall t :: t in r[i].tags <==> t in tagTable && t.blogId == r[i].blog.id
  {
    var q := PlanBlogQuery(search, category);
    var tags := if tagsRead.Err? then [] else tagTable;
    var sorted := SelectBlogs(table, q, ilike, blogsRead);
    JoinedFromSelected(table, q, ilike, blogsRead, tags);
    var r := JoinTags(sorted, tags);
    forall i | 0 <= i < |r| ensures forall t :: t in r[i].tags <==> t in tags && t.blogId == r[i].blog.id {
      JoinedTagsBelong(sorted, tags, i);
    }
    r
  }

  /** Joining tags keeps exactly the selected posts, in the query's order. */
  lemma JoinedFromSelected(table: seq<BlogPost>, q: BlogQuery, ilike: (BlogPost, string) -> bool,
                           read: Outcome, tags: seq<TagRow>)
    ensures var r := JoinTags(SelectBlogs(table, q, ilike, read), tags);
      (forall b :: (exists i :: 0 <= i < |r| && r[i].blog == b) <==> read.Ok? && b in table && Selected(b, q, ilike))
      && SortedDescBy(r, PostCreatedAt)
  {
    var sorted := SelectBlogs(table, q, ilike, read);
    JoinKeepsPosts(sorted, tags);
  }

  /** Joining tags keeps the posts, and their order by creation time. */
  lemma JoinKeepsPosts(blogs: seq<BlogPost>, tags: seq<TagRow>)
    ensures var r := JoinTags(blogs, tags);
      (forall b :: (exists i :: 0 <= i < |r| && r[i].blog == b) <==> b in blogs)
      && (SortedDescBy(blogs, BlogCreatedAt) ==> SortedDescBy(r, PostCreatedAt))
  {
    var r := JoinTags(blogs, tags);
    forall b ensures (exists i :: 0 <= i < |r| && r[i].blog == b) <==> b in blogs {
      if b in blogs {
        var i :| 0 <= i < |blogs| && blogs[i] == b;
        assert r[i].blog == b;
      }
    }
    if SortedDescBy(blogs, BlogCreatedAt) {
      forall i, j | 0 <= i < j < |r| ensures PostCreatedAt(r[i]) >= PostCreatedAt(r[j]) {
        assert r[i].blog == blogs[i] && r[j].blog == blogs[j];
      }
    }
  }

  /** A post with the featured flag and one without. */
  predicate IsFeaturedPost(b: BlogWithTags) {
    b.blog.featured
  }

  predicate IsRegularPost(b: BlogWithTags) {
    !b.blog.featured
  }

  datatype BlogView = BlogView(featured: seq<BlogWithTags>, grid: seq<BlogWithTags>, heading: string)

  /** The grid's heading: the search, else a chosen category, else "All
      Articles". */
  function Heading(search: string, category: string): (h: string)
    ensures search != "" ==> h == "Search Results for \"" + search + "\""
    ensures search == "" && category != "all" ==> h == category
    ensures search == "" && category == "all" ==> h == "All Articles"
  {
    if search != "" then "Search Results for \"" + search + "\""
    else if category != "all" then category
    else "All Articles"
  }

  /** The page: at most two featured posts, and the grid shows the regular
      posts, or all posts when none is regular. */
  function BlogPage(blogs: seq<BlogWithTags>, search: string, category: string): (v: BlogView)
    ensures |v.featured| <= 2
    ensures forall b :: b in v.featured ==> b in blogs && b.blog.featured
  {
    var featured := Filter(IsFeaturedPost, blogs);
    var regular := Filter(IsRegularPost, blogs);
    assert forall b :: b in Take(featured, 2) ==> b in featured;
    BlogView(Take(featured, 2), if |regular| > 0 then regular else blogs, Heading(search, category))
  }

  /** When every post is featured, the grid falls back to all posts, so the
      featured ones appear twice on the page. */
  lemma AllFeaturedPostsRepeat(blogs: seq<BlogWithTags>, search: string, category: string)
    requires forall b :: b in blogs ==> b.blog.featured
    ensures BlogPage(blogs, search, category).grid == blogs
    ensures BlogPage(blogs, search, category).featured == Take(blogs, 2)
  {
    FilterDropsAll(IsRegularPost, blogs);
    FilterKeepsAll(IsFeaturedPost, blogs);
  }

  /** Otherwise the grid holds exactly the regular posts. */
  lemma GridHoldsRegularPosts(blogs: seq<BlogWithTags>, search: string, category: string, b: BlogWithTags)
    requires exists x :: x in blogs && !x.blog.featured
    ensures b in BlogPage(blogs, search, category).grid <==> b in blogs && !b.blog.featured
  {
    var x :| x in blogs && !x.blog.featured;
    assert x in Filter(IsRegularPost, blogs);
  }

  /** The blog page's featured/regular split is a partition. */
  lemma BlogSplitIsPartition(blogs: seq<BlogWithTags>)
    ensures multiset(Filter(IsFeaturedPost, blogs)) + multiset(Filter(IsRegularPost, blogs)) == multiset(blogs)
  {
    FeaturedSplitIsPartition(blogs, IsFeaturedPost, IsRegularPost);
  }

  // ---------------------------------------------------------------------
  // Admin dashboard statistics
  // ---------------------------------------------------------------------

  /** The dashboard's slice of a blog row; `views` may be null. */
  datatype StatBlog = StatBlog(id: string, published: bool, views: Option<int>)

  /** `blog.views || 0`. */
  function ViewsOrZero(b: StatBlog): int {
    b.views.GetOr(0)
  }

  /** The sum of the views over a list, taken from the back. */
  function SumViews(blogs: seq<StatBlog>): int {
    if |blogs| == 0 then 0 else SumViews(blogs[..|blogs| - 1]) + ViewsOrZero(blogs[|blogs| - 1])
  }

  /** `blogs.reduce((acc, blog) => acc + (blog.views || 0), 0)`. */
  method TotalViews(blogs: seq<StatBlog>) returns (total: int)
    ensures total == SumViews(blogs)
  {
    total := 0;
    var i := 0;
    while i < |blogs|
      invariant 0 <= i <= |blogs|
      invariant total == SumViews(blogs[..i])
    {
      assert blogs[..i + 1][..i] == blogs[..i];
      total := total + ViewsOrZero(blogs[i]);
      i := i + 1;
    }
    assert blogs[..|blogs|] == blogs;
  }

  /** Non-negative view counts give a non-negative total, at least any
      single post's views. */
  lemma {:induction false} SumViewsBounds(blogs: seq<StatBlog>, k: nat)
    requires forall i :: 0 <= i < |blogs| ==> ViewsOrZero(blogs[i]) >= 0
    requires k < |blogs|
    ensures SumViews(blogs) >= ViewsOrZero(blogs[k]) >= 0
  {
    var n := |blogs| - 1;
    if k < n {
      SumViewsBounds(blogs[..n], k);
    } else {
      SumViewsNonNegative(blogs[..n]);
    }
  }

  lemma {:induction false} SumViewsNonNegative(blogs: seq<StatBlog>)
    requires forall i :: 0 <= i < |blogs| ==> ViewsOrZero(blogs[i]) >= 0
    ensures SumViews(blogs) >= 0
  {
    if |blogs| > 0 {
      SumViewsNonNegative(blogs[..|blogs| - 1]);
    }
  }

  predicate IsPublished(b: StatBlog) {
    b.published
  }

  datatype StatProduct = StatProduct(id: string, active: bool)

  predicate IsActiveStat(p: StatProduct) {
    p.active
  }

  datatype Stats = Stats(blogs: int, publishedBlogs: nat, projects: int, products: int, activeProducts: nat, totalViews: int)

  /** `getStats`. Each `count` may be missing (`|| 0`); a missing list is []. */
  method GetStats(blogs: Option<seq<StatBlog>>, blogCount: Option<int>, projectCount: Option<int>,
                  products: Option<seq<StatProduct>>, productCount: Option<int>) returns (s: Stats)
    ensures s.totalViews == SumViews(blogs.GetOr([]))
    ensures s.publishedBlogs == Count(IsPublished, blogs.GetOr([]))
    ensures s.activeProducts == Count(IsActiveStat, products.GetOr([]))
    ensures s.blogs == (if blogCount.Some? then blogCount.value else 0)
    ensures s.projects == (if projectCount.Some? then projectCount.value else 0)
    ensures s.products == (if productCount.Some? then productCount.value else 0)
  {
    var rows := blogs.GetOr([]);
    var total := TotalViews(rows);
    var published := Filter(IsPublished, rows);
    FilterCounts(IsPublished, rows);
    FilterCounts(IsActiveStat, products.GetOr([]));
    s := Stats(
      blogCount.GetOr(0),
      |published|,
      projectCount.GetOr(0),
      productCount.GetOr(0),
      |Filter(IsActiveStat, products.GetOr([]))|,
      total);
  }

  // ---------------------------------------------------------------------
  // Home page: setup detection
  // ---------------------------------------------------------------------

  /** One of the three home-page queries: its rows (null on error) and its
      error code, if any. */
  datatype Fetch<T> = Fetch(data: Option<seq<T>>, error: Option<string>)

  datatype HomeData<P, B, R> = HomeData(projects: seq<P>, blogs: seq<B>, products: seq<R>, needsSetup: bool)

  /** `err?.code === "PGRST205"`: a missing table. */
  predicate TableMissing<T>(f: Fetch<T>) {
    f.error == Some("PGRST205")
  }

  /** `getData`. `threw` is whether the fan-out itself threw. */
  function GetData<P, B, R>(projects: Fetch<P>, blogs: Fetch<B>, products: Fetch<R>, threw: bool): (d: HomeData<P, B, R>)
    ensures d.needsSetup <==> !threw && (TableMissing(projects) || TableMissing(blogs) || TableMissing(products))
    ensures (d.needsSetup || threw) ==> d.projects == [] && d.blogs == [] && d.products == []
    ensures (!d.needsSetup && !threw) ==>
      d.projects == projects.data.GetOr([]) && d.blogs == blogs.data.GetOr([]) && d.products == products.data.GetOr([])
  {
    if threw then HomeData([], [], [], false)
    else if TableMissing(projects) || TableMissing(blogs) || TableMissing(products) then HomeData([], [], [], true)
    else HomeData(projects.data.GetOr([]), blogs.data.GetOr([]), products.data.GetOr([]), false)
  }

  /** Another error blanks only its own section: the other lists keep their
      rows. */
  lemma OtherErrorsAreLocal<P, B, R>(projects: Fetch<P>, blogs: Fetch<B>, products: Fetch<R>)
    requires blogs.error.Some? && !TableMissing(blogs) && blogs.data.None?
    requires !TableMissing(projects) && !TableMissing(products)
    ensures GetData(projects, blogs, products, false).blogs == []
    ensures GetData(projects, blogs, products, false).projects == projects.data.GetOr([])
    ensures GetData(projects, blogs, products, false).products == products.data.GetOr([])
  {
  }

  /** The home page: only the setup notice, or the full page. */
  datatype HomeView = SetupNotice | FullPage

  function HomePage<P, B, R>(d: HomeData<P, B, R>): (v: HomeView)
    ensures v.SetupNotice? <==> d.needsSetup
  {
    if d.needsSetup then SetupNotice else FullPage
  }
}

=== FILE: moderation.dfy ===
/** The admin comment list: expanding reply threads, approving, hiding and
    deleting comments and replies. Each handler changes the local list only
    after its server call has gone through. */
module Moderation {
  import opened Wrappers
  import opened Seqs
  import opened BlogActions

  /** A listed comment; `replies` is absent when the query brought none. */
  datatype Listed = Listed(comment: CommentRow, replies: Option<seq<ReplyRow>>)

  /** `toggleExpanded`: flips the membership of one id. */
  function ToggleExpanded(expanded: set<string>, id: string): (r: set<string>)
    ensures id in r <==> id !in expanded
    ensures forall x :: x != id ==> (x in r <==> x in expanded)
  {
    if id in expanded then expanded - {id} else expanded + {id}
  }

  lemma ToggleExpandedTwice(expanded: set<string>, id: string)
    ensures ToggleExpanded(ToggleExpanded(expanded, id), id) == expanded
  {
  }

  function SetApproved(list: seq<Listed>, id: string, approved: bool): seq<Listed> {
    seq(|list|, i requires 0 <= i < |list| =>
      if list[i].comment.id == id then list[i].(comment := list[i].comment.(approved := approved)) else list[i])
  }

  /** `handleApproval`: after the update goes through, only the matching
      comments' `approved` changes; a thrown update leaves the list. */
  function HandleApproval(list: seq<Listed>, id: string, approved: bool, write: Outcome): (r: seq<Listed>)
    ensures write.Err? ==> r == list
    ensures |r| == |list|
    ensures forall i :: 0 <= i < |list| ==>
      r[i].replies == list[i].replies
      && r[i].comment.(approved := list[i].comment.approved) == list[i].comment
      && r[i].comment.approved == (if write.Ok? && list[i].comment.id == id then approved else list[i].comment.approved)
  {
    if write.Err? then list else SetApproved(list, id, approved)
  }

  /** `handleDelete`: nothing without confirmation; otherwise, once the
      delete goes through, the comments with that id leave the list. */
  function HandleDelete(list: seq<Listed>, id: string, confirmed: bool, write: Outcome): (r: seq<Listed>)
    ensures !confirmed || write.Err? ==> r == list
    ensures confirmed && write.Ok? ==> forall e :: e in r <==> e in list && e.comment.id != id
    ensures IsSubsequence(r, list)
  {
    FilterIsSubsequence((e: Listed) => e.comment.id != id, list);
    if !confirmed || write.Err? then
      IsSubsequenceRefl(list);
      list
    else Filter((e: Listed) => e.comment.id != id, list)
  }

  function SetReplyApproved(replies: seq<ReplyRow>, replyId: string, approved: bool): seq<ReplyRow> {
    seq(|replies|, j requires 0 <= j < |replies| =>
      if replies[j].id == replyId then replies[j].(approved := approved) else replies[j])
  }

  /** `c.replies || []`. */
  function RepliesOrEmpty(e: Listed): seq<ReplyRow> {
    e.replies.GetOr([])
  }

  /** `handleReplyApproval`: inside the matching comment only, the matching
      reply's `approved` changes; a comment without replies ends with an
      empty list. */
  function HandleReplyApproval(list: seq<Listed>, commentId: string, replyId: string, approved: bool,
                               write: Outcome): (r: seq<Listed>)
    ensures write.Err? ==> r == list
    ensures |r| == |list|
    ensures forall i :: 0 <= i < |list| ==> r[i].comment == list[i].comment
    ensures write.Ok? ==> forall i :: 0 <= i < |list| && list[i].comment.id != commentId ==> r[i] == list[i]
    ensures (write.Ok? ==> forall i :: 0 <= i < |list| && list[i].comment.id == commentId ==>
      r[i].replies.Some? && |r[i].replies.value| == |RepliesOrEmpty(list[i])|
      && forall j :: 0 <= j < |RepliesOrEmpty(list[i])| ==>
        var before, after := RepliesOrEmpty(list[i])[j], r[i].replies.value[j];
        after.(approved := before.approved) == before
        && after.approved == (if before.id == replyId then approved else before.approved))
  {
    if write.Err? then list
    else
      seq(|list|, i requires 0 <= i < |list| =>
        if list[i].comment.id == commentId
        then list[i].(replies := Some(SetReplyApproved(RepliesOrEmpty(list[i]), replyId, approved)))
        else list[i])
  }

  /** `after` is `before` with exactly the replies carrying `replyId` taken out. */
  ghost predicate ExactDeletion(after: seq<ReplyRow>, before: seq<ReplyRow>, replyId: string) {
    IsSubsequence(after, before)
    && forall x :: multiset(after)[x] == if x.id != replyId then multiset(before)[x] else 0
  }

  /** `handleDeleteReply`: after confirmation and a delete that goes
      through, the reply leaves the matching comment and nothing else moves. */
  function HandleDeleteReply(list: seq<Listed>, commentId: string, replyId: string, confirmed: bool,
                             write: Outcome): (r: seq<Listed>)
    ensures !confirmed || write.Err? ==> r == list
    ensures |r| == |list|
    ensures forall i :: 0 <= i < |list| ==> r[i].comment == list[i].comment
    ensures confirmed && write.Ok? ==> forall i :: 0 <= i < |list| && list[i].comment.id != commentId ==> r[i] == list[i]
    ensures confirmed && write.Ok? ==> forall i :: 0 <= i < |list| && list[i].comment.id == commentId ==>
      r[i].replies.Some?
      && (forall x :: x in r[i].replies.value <==> x in RepliesOrEmpty(list[i]) && x.id != replyId)
      && IsSubsequence(r[i].replies.value, RepliesOrEmpty(list[i]))
      && forall x :: multiset(r[i].replies.value)[x] == if x.id != replyId then multiset(RepliesOrEmpty(list[i]))[x] else 0
  {
    var kept := (x: ReplyRow) => x.id != replyId;
    assert forall i :: 0 <= i < |list| ==> ExactDeletion(Filter(kept, RepliesOrEmpty(list[i])), RepliesOrEmpty(list[i]), replyId) by {
      forall i | 0 <= i < |list| ensures ExactDeletion(Filter(kept, RepliesOrEmpty(list[i])), RepliesOrEmpty(list[i]), replyId) {
        FilterKeepsCounts(kept, RepliesOrEmpty(list[i]));
      }
    }
    if !confirmed || write.Err? then list
    else
      seq(|list|, i requires 0 <= i < |list| =>
        if list[i].comment.id == commentId
        then list[i].(replies := Some(Filter(kept, RepliesOrEmpty(list[i]))))
        else list[i])
  }

  /** The status badge. */
  function Badge(approved: bool): (r: string)
    ensures r == "Approved" <==> approved
    ensures r == "Pending" <==> !approved
  {
    if approved then "Approved" else "Pending"
  }

  /** The approval button offers the opposite of the current state. */
  function ApprovalTarget(approved: bool): (r: bool)
    ensures r != approved
  {
    !approved
  }

  /** Pressing the offered button flips the badge. */
  lemma ButtonFlipsBadge(list: seq<Listed>, i: nat)
    requires i < |list|
    requires forall j :: 0 <= j < |list| && j != i ==> list[j].comment.id != list[i].comment.id
    ensures var c := list[i].comment;
      var r := HandleApproval(list, c.id, ApprovalTarget(c.approved), Ok);
      Badge(r[i].comment.approved) != Badge(c.approved)
      && forall j :: 0 <= j < |list| && j != i ==> r[j] == list[j]
  {
    var c := list[i].comment;
    var r := HandleApproval(list, c.id, ApprovalTarget(c.approved), Ok);
    forall j | 0 <= j < |list| && j != i ensures r[j] == list[j] {
      assert r[j].comment == list[j].comment;
    }
  }

  /** Every comment the admin list shows is a row of the store. */
  predicate ListedInStore(list: seq<Listed>, s: Store) {
    forall i :: 0 <= i < |list| ==> list[i].comment in s.comments
  }

  /** The list stays a view of the store when the same approval is applied
      to both. */
  lemma ApprovalKeepsListInStore(list: seq<Listed>, s: Store, id: string, approved: bool)
    requires ListedInStore(list, s)
    ensures ListedInStore(HandleApproval(list, id, approved, Ok),
                          UpdateCommentApproval(s, id, approved, Ok).value)
  {
    var r := HandleApproval(list, id, approved, Ok);
    var t := UpdateCommentApproval(s, id, approved, Ok).value;
    forall i | 0 <= i < |r| ensures r[i].comment in t.comments {
      var c := list[i].comment;
      var k :| 0 <= k < |s.comments| && s.comments[k] == c;
      assert t.comments[k] == r[i].comment;
    }
  }

  /** After a delete on both sides, the list is still a view of the store
      and no longer shows the deleted id. */
  lemma DeleteKeepsListInStore(list: seq<Listed>, s: Store, id: string)
    requires ListedInStore(list, s)
    ensures var r := HandleDelete(list, id, true, Ok);
      ListedInStore(r, DeleteComment(s, id, Ok).value)
      && forall i :: 0 <= i < |r| ==> r[i].comment.id != id
  {
    var r := HandleDelete(list, id, true, Ok);
    forall i | 0 <= i < |r| ensures r[i].comment in DeleteComment(s, id, Ok).value.comments && r[i].comment.id != id {
      assert r[i] in r;
    }
  }
}

=== FILE: navigation.dfy ===
/** Which navigation link is highlighted for the current pathname: the
    public site header and the admin sidebar and mobile menu. Matching is a
    plain string prefix test, without any segment boundary. */
module Navigation {
  import opened Text

  // ---------------------------------------------------------------------
  // The site header
  // ---------------------------------------------------------------------

  /** The header's links, in order; the first is an in-page anchor. */
  const HeaderHrefs: seq<string> := ["/#about", "/portfolio", "/blog", "/store", "/gallery", "/contact"]

  /** `href.split("#")[0]`. */
  function BeforeHash(href: string): string {
    Split(href, '#')[0]
  }

  /** The header's `isActive(href)` on `pathname`. */
  predicate HeaderActive(href: string, pathname: string) {
    if href == "/#about" || href == "/#projects" then pathname == "/" && '#' in href
    else pathname == href || (href != "/" && StartsWith(pathname, BeforeHash(href)))
  }

  /** The about anchor is highlighted exactly on the home page. */
  lemma AboutActiveOnlyOnHome(pathname: string)
    ensures HeaderActive("/#about", pathname) <==> pathname == "/"
  {
    assert "/#about"[1] == '#';
  }

  /** A plain link is highlighted exactly on the pathnames it prefixes, so
      "/blog" is also highlighted on "/blogroll". */
  lemma HeaderActiveIsPrefix(href: string, pathname: string)
    requires '#' !in href && href != "/"
    ensures HeaderActive(href, pathname) <==> StartsWith(pathname, href)
    ensures HeaderActive("/blog", "/blogroll")
  {
    SplitWithoutSeparator(href, '#');
    SplitWithoutSeparator("/blog", '#');
    assert "/blogroll"[..5] == "/blog";
  }

  /** No entry of `hrefs` from position `from` on is a prefix of another. */
  predicate PrefixFree(hrefs: seq<string>, from: nat) {
    forall i, j :: from <= i < |hrefs| && from <= j < |hrefs| && i != j ==> !StartsWith(hrefs[i], hrefs[j])
  }

  /** A header list like the site's: the about anchor, then prefix-free
      links of at least two characters with no `#`. */
  predicate HeaderShape(hrefs: seq<string>) {
    |hrefs| >= 1 && hrefs[0] == "/#about" && PrefixFree(hrefs, 1) &&
    forall k :: 1 <= k < |hrefs| ==> '#' !in hrefs[k] && |hrefs[k]| >= 2
  }

  /** For a header list of that shape at most one link is highlighted. */
  lemma HeaderAtMostOneActive(hrefs: seq<string>, pathname: string, i: nat, j: nat)
    requires HeaderShape(hrefs) && i < |hrefs| && j < |hrefs|
    requires HeaderActive(hrefs[i], pathname) && HeaderActive(hrefs[j], pathname)
    ensures i == j
  {
    AboutActiveOnlyOnHome(pathname);
    if i >= 1 {
      HeaderActiveIsPrefix(hrefs[i], pathname);
    }
    if j >= 1 {
      HeaderActiveIsPrefix(hrefs[j], pathname);
    }
    if i >= 1 && j >= 1 {
      if |hrefs[i]| <= |hrefs[j]| {
        PrefixesAreNested(pathname, hrefs[i], hrefs[j]);
      } else {
        PrefixesAreNested(pathname, hrefs[j], hrefs[i]);
      }
    }
  }

  /** The site's header list has that shape. */
  lemma HeaderHrefsShape()
    ensures HeaderShape(HeaderHrefs)
  {
    forall i, j | 1 <= i < |HeaderHrefs| && 1 <= j < |HeaderHrefs| && i != j
      ensures !StartsWith(HeaderHrefs[i], HeaderHrefs[j])
    {
      var a := HeaderHrefs[i];
      var b := HeaderHrefs[j];
      if a[1] != b[1] {
        DifferentCharNotPrefix(a, b, 1);
      } else {
        DifferentCharNotPrefix(a, b, 2);
      }
    }
  }

  /** The header's scroll flag and mobile menu. */
  datatype HeaderState = HeaderState(pathname: string, mobileOpen: bool, isScrolled: bool)

  /** The scroll listener: the header turns solid past 50 pixels. */
  function OnScroll(st: HeaderState, scrollY: int): (r: HeaderState)
    ensures r.isScrolled <==> scrollY > 50
    ensures r.pathname == st.pathname && r.mobileOpen == st.mobileOpen
  {
    st.(isScrolled := scrollY > 50)
  }

  /** A navigation: the pathname effect closes the mobile menu whenever the
      pathname changes, and does not run when it stays the same. */
  function OnPathname(st: HeaderState, pathname: string): (r: HeaderState)
    ensures r.pathname == pathname && r.isScrolled == st.isScrolled
    ensures r.mobileOpen <==> st.mobileOpen && pathname == st.pathname
  {
    if pathname == st.pathname then st else st.(pathname := pathname, mobileOpen := false)
  }

  /** The two effects touch different fields, so their order does not
      matter; only the latest scroll position counts, and a second visit to
      the same pathname changes nothing. */
  lemma HeaderEffectsIndependent(st: HeaderState, scrollY: int, scrollY2: int, pathname: string)
    ensures OnScroll(OnPathname(st, pathname), scrollY) == OnPathname(OnScroll(st, scrollY), pathname)
    ensures OnScroll(OnScroll(st, scrollY), scrollY2) == OnScroll(st, scrollY2)
    ensures OnPathname(OnPathname(st, pathname), pathname) == OnPathname(st, pathname)
  {
  }

  // ---------------------------------------------------------------------
  // The admin sidebar and mobile menu
  // ---------------------------------------------------------------------

  const SidebarHrefs: seq<string> := [
    "/admin", "/admin/blogs", "/admin/comments", "/admin/contact",
    "/admin/projects", "/admin/products", "/admin/gallery", "/admin/settings"
  ]

  const MobileHrefs: seq<string> := ["/admin", "/admin/blogs", "/admin/projects", "/admin/products", "/admin/settings"]

  /** The shared `isActive`: the dashboard on an exact match, every other
      section on an exact match or a prefix. */
  predicate AdminActive(href: string, pathname: string) {
    pathname == href || (href != "/admin" && StartsWith(pathname, href))
  }

  /** An admin list like the two menus: the dashboard first, then
      prefix-free sections under "/admin/". */
  predicate AdminShape(hrefs: seq<string>) {
    |hrefs| >= 1 && hrefs[0] == "/admin" && PrefixFree(hrefs, 1) &&
    forall k :: 1 <= k < |hrefs| ==> StartsWith(hrefs[k], "/admin/")
  }

  /** The dashboard is highlighted only on "/admin" itself; a section on
      its own pathname and everything below it. */
  lemma AdminActiveMeaning(href: string, pathname: string)
    ensures AdminActive("/admin", pathname) <==> pathname == "/admin"
    ensures href != "/admin" ==> (AdminActive(href, pathname) <==> StartsWith(pathname, href))
  {
  }

  /** In an admin list of that shape at most one entry is highlighted. */
  lemma AdminAtMostOneActive(hrefs: seq<string>, pathname: string, i: nat, j: nat)
    requires AdminShape(hrefs) && i < |hrefs| && j < |hrefs|
    requires AdminActive(hrefs[i], pathname) && AdminActive(hrefs[j], pathname)
    ensures i == j
  {
    if i >= 1 && j >= 1 {
      AdminActiveMeaning(hrefs[i], pathname);
      AdminActiveMeaning(hrefs[j], pathname);
      if |hrefs[i]| <= |hrefs[j]| {
        PrefixesAreNested(pathname, hrefs[i], hrefs[j]);
      } else {
        PrefixesAreNested(pathname, hrefs[j], hrefs[i]);
      }
    }
  }

  /** A pathname outside "/admin" highlights nothing. */
  lemma NothingActiveOutsideAdmin(hrefs: seq<string>, pathname: string, i: nat)
    requires AdminShape(hrefs) && i < |hrefs|
    requires !StartsWith(pathname, "/admin")
    ensures !AdminActive(hrefs[i], pathname)
  {
    if i >= 1 {
      AdminActiveMeaning(hrefs[i], pathname);
    }
  }

  /** Both admin lists have that shape. */
  lemma AdminListsShape()
    ensures AdminShape(SidebarHrefs) && AdminShape(MobileHrefs)
  {
    SidebarShape();
    MobileShape();
  }

  lemma SidebarShape()
    ensures AdminShape(SidebarHrefs)
  {
    forall i, j | 1 <= i < |SidebarHrefs| && 1 <= j < |SidebarHrefs| && i != j
      ensures !StartsWith(SidebarHrefs[i], SidebarHrefs[j])
    {
      var a := SidebarHrefs[i];
      var b := SidebarHrefs[j];
      if a[7] != b[7] {
        DifferentCharNotPrefix(a, b, 7);
      } else if a[9] != b[9] {
        DifferentCharNotPrefix(a, b, 9);
      } else {
        DifferentCharNotPrefix(a, b, 10);
      }
    }
  }

  lemma MobileShape()
    ensures AdminShape(MobileHrefs)
  {
    forall i, j | 1 <= i < |MobileHrefs| && 1 <= j < |MobileHrefs| && i != j
      ensures !StartsWith(MobileHrefs[i], MobileHrefs[j])
    {
      var a := MobileHrefs[i];
      var b := MobileHrefs[j];
      if a[7] != b[7] {
        DifferentCharNotPrefix(a, b, 7);
      } else if a[9] != b[9] {
        DifferentCharNotPrefix(a, b, 9);
      } else {
        DifferentCharNotPrefix(a, b, 10);
      }
    }
  }

  /** The mobile menu lists no comments, contact or gallery section, so on
      those pages nothing is highlighted, while the sidebar highlights the
      matching entry. */
  lemma MobileMenuOmissions(pathname: string, i: nat)
    requires pathname == "/admin/comments" || pathname == "/admin/contact" || pathname == "/admin/gallery"
    requires i < |MobileHrefs|
    ensures !AdminActive(MobileHrefs[i], pathname)
    ensures exists k :: 0 <= k < |SidebarHrefs| && AdminActive(SidebarHrefs[k], pathname)
  {
    if i >= 1 {
      DifferentCharNotPrefix(pathname, MobileHrefs[i], 7);
    }
    assert AdminActive(SidebarHrefs[2], "/admin/comments");
    assert AdminActive(SidebarHrefs[3], "/admin/contact");
    assert AdminActive(SidebarHrefs[6], "/admin/gallery");
  }

  /** Strings that differ at a position both have are not prefixes of one
      another. */
  lemma DifferentCharNotPrefix(s: string, prefix: string, k: nat)
    requires k < |s| && k < |prefix| && s[k] != prefix[k]
    ensures !StartsWith(s, prefix)
  {
    if |prefix| <= |s| {
      assert s[..|prefix|][k] == s[k];
    }
  }
}

=== FILE: ordering.dfy ===
/** `ORDER BY key ASC` / `DESC` over a result set, as an insertion sort on
    sequences. Ties keep their input order. */
module Ordering {

  predicate SortedBy<T>(s: seq<T>, key: T -> int) {
    forall i, j :: 0 <= i < j < |s| ==> key(s[i]) <= key(s[j])
  }

  predicate SortedDescBy<T>(s: seq<T>, key: T -> int) {
    forall i, j :: 0 <= i < j < |s| ==> key(s[i]) >= key(s[j])
  }

  function Insert<T(==,!new)>(x: T, s: seq<T>, key: T -> int): (r: seq<T>)
    requires SortedBy(s, key)
    ensures |r| == |s| + 1
    ensures multiset(r) == multiset(s) + multiset{x}
    ensures SortedBy(r, key)
    ensures forall i :: 0 <= i < |r| ==> key(r[i]) >= (if |s| == 0 || key(x) <= key(s[0]) then key(x) else key(s[0]))
  {
    if |s| == 0 then [x]
    else if key(x) <= key(s[0]) then [x] + s
    else
      var rest := Insert(x, s[1..], key);
      assert s == [s[0]] + s[1..];
      ConsSorted(s[0], rest, key);
      [s[0]] + rest
  }

  /** A head no larger than every key of a sorted tail keeps it sorted. */
  lemma ConsSorted<T>(h: T, t: seq<T>, key: T -> int)
    requires SortedBy(t, key)
    requires forall i :: 0 <= i < |t| ==> key(h) <= key(t[i])
    ensures SortedBy([h] + t, key)
  {
    var r := [h] + t;
    forall i, j | 0 <= i < j < |r| ensures key(r[i]) <= key(r[j]) {
      assert r[j] == t[j - 1];
      if i > 0 {
        assert r[i] == t[i - 1];
      }
    }
  }

  /** Ascending order by `key`. */
  function SortBy<T(==,!new)>(s: seq<T>, key: T -> int): (r: seq<T>)
    ensures multiset(r) == multiset(s)
    ensures |r| == |s|
    ensures SortedBy(r, key)
  {
    if |s| == 0 then []
    else
      assert s == [s[0]] + s[1..];
      Insert(s[0], SortBy(s[1..], key), key)
  }

  /** Descending order by `key`. */
  function SortDescBy<T(==,!new)>(s: seq<T>, key: T -> int): (r: seq<T>)
    ensures multiset(r) == multiset(s)
    ensures |r| == |s|
    ensures SortedDescBy(r, key)
  {
    var r := SortBy(s, x => -key(x));
    assert forall i, j :: 0 <= i < j < |r| ==> -key(r[i]) <= -key(r[j]);
    r
  }

  /** An ordered list is returned unchanged by the sort. */
  lemma {:induction false} SortSortedIsIdentity<T(!new)>(s: seq<T>, key: T -> int)
    requires SortedBy(s, key)
    ensures SortBy(s, key) == s
  {
    if |s| > 0 {
      assert SortedBy(s[1..], key);
      SortSortedIsIdentity(s[1..], key);
      if |s| > 1 {
        assert key(s[0]) <= key(s[1]);
      }
    }
  }

  /** The sort neither adds nor drops elements. */
  lemma SortKeepsMembers<T(!new)>(s: seq<T>, key: T -> int, x: T)
    ensures x in SortBy(s, key) <==> x in s
  {
    assert x in multiset(SortBy(s, key)) <==> x in multiset(s);
  }

  lemma SortDescKeepsMembers<T(!new)>(s: seq<T>, key: T -> int, x: T)
    ensures x in SortDescBy(s, key) <==> x in s
  {
    assert x in multiset(SortDescBy(s, key)) <==> x in multiset(s);
  }
}

=== FILE: seqs.dfy ===
/** Sequence combinators behind the program's `filter`, `slice`, `includes`
    and `Array.from(new Set(...))` idioms, with the facts the model uses. */
module Seqs {

  /** `s.filter(p)`. */
  function Filter<T(==,!new)>(p: T -> bool, s: seq<T>): (r: seq<T>)
    ensures |r| <= |s|
    ensures forall i :: 0 <= i < |r| ==> p(r[i])
    ensures forall x {:trigger x in r} :: x in r <==> x in s && p(x)
  {
    if |s| == 0 then []
    else (if p(s[0]) then [s[0]] else []) + Filter(p, s[1..])
  }

  /** `s.slice(0, n)`. */
  function Take<T>(s: seq<T>, n: nat): (r: seq<T>)
    ensures |r| == if |s| < n then |s| else n
    ensures r == s[..|r|]
  {
    if |s| < n then s else s[..n]
  }

  /** `a` can be obtained from `b` by deleting elements (order is kept). */
  predicate IsSubsequence<T(==,!new)>(a: seq<T>, b: seq<T>)
    decreases |b|
  {
    if |a| == 0 then true
    else if |b| == 0 then false
    else if a[0] == b[0] then IsSubsequence(a[1..], b[1..])
    else IsSubsequence(a, b[1..])
  }

  predicate NoDup<T(==,!new)>(s: seq<T>) {
    forall i, j :: 0 <= i < j < |s| ==> s[i] != s[j]
  }

  /** Filtering keeps the surviving elements in their original order. */
  lemma {:induction false} FilterIsSubsequence<T(!new)>(p: T -> bool, s: seq<T>)
    ensures IsSubsequence(Filter(p, s), s)
  {
    if |s| > 0 {
      FilterIsSubsequence(p, s[1..]);
      var rest := Filter(p, s[1..]);
      if p(s[0]) {
        assert Filter(p, s) == [s[0]] + rest;
        assert ([s[0]] + rest)[1..] == rest;
      } else {
        assert Filter(p, s) == rest;
        if |rest| > 0 {
          assert p(rest[0]);
          assert rest[0] != s[0];
        }
      }
    }
  }

  /** Filtering keeps every passing element as often as it occurs, and no other. */
  lemma {:induction false} FilterMultiplicity<T(!new)>(p: T -> bool, s: seq<T>, x: T)
    ensures multiset(Filter(p, s))[x] == if p(x) then multiset(s)[x] else 0
  {
    if |s| > 0 {
      FilterMultiplicity(p, s[1..], x);
      assert s == [s[0]] + s[1..];
      assert Filter(p, s) == (if p(s[0]) then [s[0]] else []) + Filter(p, s[1..]);
    }
  }

  /** Filtering is an exact deletion: it keeps the order, and each passing
      element as often as it occurs. */
  lemma FilterKeepsCounts<T(!new)>(p: T -> bool, s: seq<T>)
    ensures IsSubsequence(Filter(p, s), s)
    ensures forall x :: multiset(Filter(p, s))[x] == if p(x) then multiset(s)[x] else 0
  {
    FilterIsSubsequence(p, s);
    forall x ensures multiset(Filter(p, s))[x] == if p(x) then multiset(s)[x] else 0 {
      FilterMultiplicity(p, s, x);
    }
  }

  /** Every list is a subsequence of itself: filtering by "always" keeps it whole. */
  lemma {:induction false} IsSubsequenceRefl<T(!new)>(s: seq<T>)
    ensures IsSubsequence(s, s)
  {
    FilterIsSubsequence((x: T) => true, s);
    FilterKeepsAll((x: T) => true, s);
  }

  /** Filtering by a predicate and by its complement splits a list in two. */
  lemma {:induction false} FilterPartition<T(!new)>(p: T -> bool, q: T -> bool, s: seq<T>)
    requires forall x :: q(x) == !p(x)
    ensures multiset(Filter(p, s)) + multiset(Filter(q, s)) == multiset(s)
    ensures |Filter(p, s)| + |Filter(q, s)| == |s|
  {
    if |s| > 0 {
      FilterPartition(p, q, s[1..]);
      assert s == [s[0]] + s[1..];
      assert multiset(s) == multiset{s[0]} + multiset(s[1..]);
      if p(s[0]) {
        assert Filter(p, s) == [s[0]] + Filter(p, s[1..]);
        assert Filter(q, s) == Filter(q, s[1..]);
      } else {
        assert Filter(p, s) == Filter(p, s[1..]);
        assert Filter(q, s) == [s[0]] + Filter(q, s[1..]);
      }
    }
  }

  /** A filtered list without duplicates stays without duplicates. */
  lemma {:induction false} FilterNoDup<T(!new)>(p: T -> bool, s: seq<T>)
    requires NoDup(s)
    ensures NoDup(Filter(p, s))
  {
    if |s| > 0 {
      assert NoDup(s[1..]) by {
        forall i, j | 0 <= i < j < |s[1..]| ensures s[1..][i] != s[1..][j] {
          assert s[1..][i] == s[i + 1] && s[1..][j] == s[j + 1];
        }
      }
      FilterNoDup(p, s[1..]);
      var rest := Filter(p, s[1..]);
      if p(s[0]) {
        assert s[0] !in s[1..] by {
          forall k | 0 <= k < |s[1..]| ensures s[1..][k] != s[0] {
            assert s[1..][k] == s[k + 1];
          }
        }
        assert s[0] !in rest;
        var r := [s[0]] + rest;
        forall i, j | 0 <= i < j < |r| ensures r[i] != r[j] {
          if i == 0 {
            assert r[j] == rest[j - 1];
          } else {
            assert r[i] == rest[i - 1] && r[j] == rest[j - 1];
          }
        }
      } else {
        assert Filter(p, s) == rest;
      }
    }
  }

  /** Index of the first occurrence of `x` in `s`. */
  function FirstIndex<T(==,!new)>(s: seq<T>, x: T): (k: nat)
    requires x in s
    ensures k < |s| && s[k] == x
    ensures forall j :: 0 <= j < k ==> s[j] != x
  {
    if s[0] == x then 0 else 1 + FirstIndex(s[1..], x)
  }

  lemma {:induction false} FirstIndexOfPrefix<T(!new)>(s: seq<T>, n: nat, x: T)
    requires n <= |s| && x in s[..n]
    ensures x in s && FirstIndex(s, x) == FirstIndex(s[..n], x)
  {
    var k := FirstIndex(s[..n], x);
    assert s[k] == x;
    forall j | 0 <= j < k ensures s[j] != x {
      assert s[j] == s[..n][j];
    }
    FirstIndexUnique(s, x, k);
  }

  lemma FirstIndexUnique<T(!new)>(s: seq<T>, x: T, k: nat)
    requires k < |s| && s[k] == x
    requires forall j :: 0 <= j < k ==> s[j] != x
    ensures FirstIndex(s, x) == k
  {
  }

  /** The distinct elements of `s`, each at the place of its first
      occurrence: `Array.from(new Set(s))`. */
  function Distinct<T(==,!new)>(s: seq<T>): (r: seq<T>)
    ensures NoDup(r)
    ensures forall x :: x in r <==> x in s
  {
    if |s| == 0 then []
    else
      var d := Distinct(s[..|s| - 1]);
      var last := s[|s| - 1];
      assert forall x :: x in s <==> x in s[..|s| - 1] || x == last by {
        assert s == s[..|s| - 1] + [last];
      }
      if last in d then d else d + [last]
  }

  /** The elements of `r` occur in `s`, and earlier in `r` means first seen
      earlier in `s`. */
  predicate InFirstOccurrenceOrder<T(==,!new)>(r: seq<T>, s: seq<T>) {
    forall i, j :: 0 <= i < j < |r| ==> r[i] in s && r[j] in s && FirstIndex(s, r[i]) < FirstIndex(s, r[j])
  }

  /** `Distinct` lists the elements in order of first occurrence. */
  lemma {:induction false} DistinctFirstOccurrenceOrder<T(!new)>(s: seq<T>)
    ensures InFirstOccurrenceOrder(Distinct(s), s)
  {
    if |s| > 0 {
      var n := |s| - 1;
      var init := s[..n];
      DistinctFirstOccurrenceOrder(init);
      assert s[..n] == init;
      if s[n] in Distinct(init) {
        DistinctOrderSeenLast(s);
      } else {
        DistinctOrderNewLast(s);
      }
    }
  }

  /** The order of first occurrences survives a repeated last element. */
  lemma DistinctOrderSeenLast<T(!new)>(s: seq<T>)
    requires |s| > 0 && InFirstOccurrenceOrder(Distinct(s[..|s| - 1]), s[..|s| - 1])
    requires s[|s| - 1] in Distinct(s[..|s| - 1])
    ensures InFirstOccurrenceOrder(Distinct(s), s)
  {
    var n := |s| - 1;
    var init := s[..n];
    var d := Distinct(init);
    assert Distinct(s) == d;
    forall i, j | 0 <= i < j < |d|
      ensures d[i] in s && d[j] in s && FirstIndex(s, d[i]) < FirstIndex(s, d[j])
    {
      assert d[i] in d && d[j] in d;
      FirstIndexOfPrefix(s, n, d[i]);
      FirstIndexOfPrefix(s, n, d[j]);
    }
  }

  /** A new last element joins the end of the order of first occurrences. */
  lemma DistinctOrderNewLast<T(!new)>(s: seq<T>)
    requires |s| > 0 && InFirstOccurrenceOrder(Distinct(s[..|s| - 1]), s[..|s| - 1])
    requires s[|s| - 1] !in Distinct(s[..|s| - 1])
    ensures InFirstOccurrenceOrder(Distinct(s), s)
  {
    var n := |s| - 1;
    var d := Distinct(s[..n]);
    var r := d + [s[n]];
    DistinctAppendsNew(s);
    forall i, j | 0 <= i < j < |r|
      ensures r[i] in s && r[j] in s && FirstIndex(s, r[i]) < FirstIndex(s, r[j])
    {
      assert r[i] == d[i] && d[i] in d;
      FirstIndexOfPrefix(s, n, d[i]);
      if j < |d| {
        assert r[j] == d[j] && d[j] in d;
        FirstIndexOfPrefix(s, n, d[j]);
      }
    }
  }

  /** A last element not seen before is appended, and first seen at the end. */
  lemma DistinctAppendsNew<T(!new)>(s: seq<T>)
    requires |s| > 0 && s[|s| - 1] !in Distinct(s[..|s| - 1])
    ensures Distinct(s) == Distinct(s[..|s| - 1]) + [s[|s| - 1]]
    ensures s[|s| - 1] in s && FirstIndex(s, s[|s| - 1]) == |s| - 1
  {
    FirstIndexOfFresh(s);
  }

  lemma FirstIndexOfFresh<T(!new)>(s: seq<T>)
    requires |s| > 0 && s[|s| - 1] !in s[..|s| - 1]
    ensures s[|s| - 1] in s && FirstIndex(s, s[|s| - 1]) == |s| - 1
  {
    var n := |s| - 1;
    forall j | 0 <= j < n ensures s[j] != s[n] {
      assert s[j] == s[..n][j];
    }
    FirstIndexUnique(s, s[n], n);
  }



  lemma {:induction false} FilterAppend<T(!new)>(p: T -> bool, a: seq<T>, b: seq<T>)
    ensures Filter(p, a + b) == Filter(p, a) + Filter(p, b)
  {
    if |a| > 0 {
      FilterAppend(p, a[1..], b);
      assert (a + b)[1..] == a[1..] + b;
      assert Filter(p, a + b) == (if p(a[0]) then [a[0]] else []) + Filter(p, a[1..] + b);
    } else {
      assert a + b == b;
    }
  }

  lemma {:induction false} FilterCommute<T(!new)>(p: T -> bool, q: T -> bool, s: seq<T>)
    ensures Filter(p, Filter(q, s)) == Filter(q, Filter(p, s))
  {
    if |s| > 0 {
      FilterCommute(p, q, s[1..]);
      var x := s[0];
      var fq := (if q(x) then [x] else []);
      var fp := (if p(x) then [x] else []);
      FilterAppend(p, fq, Filter(q, s[1..]));
      FilterAppend(q, fp, Filter(p, s[1..]));
      assert Filter(p, fq) == Filter(q, fp);
    }
  }

  /** Filtering by a predicate that every element meets changes nothing. */
  lemma {:induction false} FilterKeepsAll<T(!new)>(p: T -> bool, s: seq<T>)
    requires forall i :: 0 <= i < |s| ==> p(s[i])
    ensures Filter(p, s) == s
  {
    if |s| > 0 {
      FilterKeepsAll(p, s[1..]);
      assert s == [s[0]] + s[1..];
    }
  }

  /** Filtering by a predicate that exactly one position meets yields it alone. */
  lemma {:induction false} FilterSingle<T(!new)>(p: T -> bool, s: seq<T>, k: nat)
    requires k < |s| && p(s[k])
    requires forall j :: 0 <= j < |s| && j != k ==> !p(s[j])
    ensures Filter(p, s) == [s[k]]
  {
    if k == 0 {
      FilterDropsAll(p, s[1..]);
    } else {
      FilterSingle(p, s[1..], k - 1);
    }
  }

  lemma {:induction false} FilterDropsAll<T(!new)>(p: T -> bool, s: seq<T>)
    requires forall j :: 0 <= j < |s| ==> !p(s[j])
    ensures Filter(p, s) == []
  {
    if |s| > 0 {
      FilterDropsAll(p, s[1..]);
    }
  }

  /** Filtering out at least one element makes the list strictly shorter. */
  lemma {:induction false} FilterShrinks<T(!new)>(p: T -> bool, s: seq<T>, x: T)
    requires x in s && !p(x)
    ensures |Filter(p, s)| < |s|
  {
    if s[0] != x {
      FilterShrinks(p, s[1..], x);
    }
  }

  /** Two predicates that agree on every element filter alike. */
  lemma {:induction false} FilterExt<T(!new)>(p: T -> bool, q: T -> bool, s: seq<T>)
    requires forall x :: x in s ==> p(x) == q(x)
    ensures Filter(p, s) == Filter(q, s)
  {
    if |s| > 0 {
      FilterExt(p, q, s[1..]);
    }
  }

  /** Filtering by a conjunction is filtering twice. */
  lemma {:induction false} FilterConj<T(!new)>(pq: T -> bool, p: T -> bool, q: T -> bool, s: seq<T>)
    requires forall x :: pq(x) == (q(x) && p(x))
    ensures Filter(pq, s) == Filter(p, Filter(q, s))
  {
    if |s| > 0 {
      FilterConj(pq, p, q, s[1..]);
      var x := s[0];
      FilterAppend(p, if q(x) then [x] else [], Filter(q, s[1..]));
    }
  }

  /** The blocks one after another. */
  function Concat<T>(blocks: seq<seq<T>>): seq<T> {
    if |blocks| == 0 then [] else blocks[0] + Concat(blocks[1..])
  }

  /** Where block `i` starts in `Concat(blocks)`. */
  function Offset<T>(blocks: seq<seq<T>>, i: nat): nat
    requires i <= |blocks|
  {
    if i == 0 then 0 else |blocks[0]| + Offset(blocks[1..], i - 1)
  }

  /** Every block appears whole, at its offset. */
  lemma {:induction false} ConcatHasBlock<T>(blocks: seq<seq<T>>, i: nat)
    requires i < |blocks|
    ensures Offset(blocks, i) + |blocks[i]| <= |Concat(blocks)|
    ensures Concat(blocks)[Offset(blocks, i)..Offset(blocks, i) + |blocks[i]|] == blocks[i]
  {
    if i > 0 {
      ConcatHasBlock(blocks[1..], i - 1);
      var o := Offset(blocks[1..], i - 1);
      var rest := Concat(blocks[1..]);
      assert blocks[1..][i - 1] == blocks[i];
      SliceAfterPrefix(blocks[0], rest, o, |blocks[i]|);
    }
  }

  /** A slice that lies past a prefix is the same slice of what follows it. */
  lemma SliceAfterPrefix<T>(a: seq<T>, b: seq<T>, o: nat, n: nat)
    requires o + n <= |b|
    ensures (a + b)[|a| + o..|a| + o + n] == b[o..o + n]
  {
    var left, right := (a + b)[|a| + o..|a| + o + n], b[o..o + n];
    forall k | 0 <= k < n
      ensures left[k] == right[k]
    {
      assert left[k] == (a + b)[|a| + o + k];
    }
  }

  /** Non-empty blocks give at least one element each. */
  lemma {:induction false} ConcatLength<T>(blocks: seq<seq<T>>)
    requires forall i :: 0 <= i < |blocks| ==> |blocks[i]| >= 1
    ensures |Concat(blocks)| >= |blocks|
  {
    if |blocks| > 0 {
      ConcatLength(blocks[1..]);
    }
  }

  /** The number of elements of `s` that meet `p`, counted from the back. */
  function Count<T>(p: T -> bool, s: seq<T>): nat {
    if |s| == 0 then 0 else Count(p, s[..|s| - 1]) + (if p(s[|s| - 1]) then 1 else 0)
  }

  /** `s.filter(p).length` counts the elements that meet `p`. */
  lemma {:induction false} FilterCounts<T(!new)>(p: T -> bool, s: seq<T>)
    ensures |Filter(p, s)| == Count(p, s)
  {
    if |s| > 0 {
      var n := |s| - 1;
      FilterCounts(p, s[..n]);
      FilterAppend(p, s[..n], [s[n]]);
      assert s[..n] + [s[n]] == s;
      assert Filter(p, [s[n]]) == (if p(s[n]) then [s[n]] else []) + Filter(p, []);
    }
  }

  /** A list without duplicates has as many distinct members as entries. */
  lemma {:induction false} NoDupCardinality<T(!new)>(s: seq<T>)
    requires NoDup(s)
    ensures |(set x | x in s)| == |s|
  {
    if |s| > 0 {
      assert NoDup(s[1..]) by {
        forall i, j | 0 <= i < j < |s[1..]| ensures s[1..][i] != s[1..][j] {
          assert s[1..][i] == s[i + 1] && s[1..][j] == s[j + 1];
        }
      }
      NoDupCardinality(s[1..]);
      assert (set x | x in s) == {s[0]} + (set x | x in s[1..]) by {
        assert s == [s[0]] + s[1..];
      }
      assert s[0] !in s[1..] by {
        forall k | 0 <= k < |s[1..]| ensures s[1..][k] != s[0] {
          assert s[1..][k] == s[k + 1];
        }
      }
    }
  }
}

=== FILE: setup_page.dfy ===
/** The setup page: a manual checklist of SQL scripts the administrator
    ticks off, and an automatic setup button that calls the database
    initialisation route. */
module SetupPage {
  import opened Wrappers
  import opened Seqs

  /** The four scripts the checklist shows, in order. */
  const ChecklistScripts: seq<string> := [
    "007-complete-schema-setup.sql",
    "008-enable-all-rls.sql",
    "009-setup-storage-buckets.sql",
    "010-seed-sample-content.sql"
  ]

  /** `handleScriptComplete`: a ticked script is unticked, an unticked one is
      appended. */
  function Toggle(completed: seq<string>, name: string): (r: seq<string>)
    ensures forall x :: x in r <==> (x in completed) != (x == name)
  {
    if name in completed then Filter((s: string) => s != name, completed) else completed + [name]
  }

  /** Toggling keeps the list free of duplicates. */
  lemma ToggleKeepsNoDup(completed: seq<string>, name: string)
    requires NoDup(completed)
    ensures NoDup(Toggle(completed, name))
  {
    if name in completed {
      FilterNoDup((s: string) => s != name, completed);
    }
  }

  /** Toggling the same script twice restores which scripts are ticked (the
      script itself may move to the end). */
  lemma ToggleTwice(completed: seq<string>, name: string)
    ensures forall x :: x in Toggle(Toggle(completed, name), name) <==> x in completed
    ensures name !in completed ==> Toggle(Toggle(completed, name), name) == completed
  {
    if name !in completed {
      FilterKeepsAll((s: string) => s != name, completed);
      FilterAppend((s: string) => s != name, completed, [name]);
    }
  }

  /** A ticked list the page can reach: no duplicates, listed scripts only. */
  predicate Reachable(names: seq<string>, completed: seq<string>) {
    NoDup(completed) && forall i :: 0 <= i < |completed| ==> completed[i] in names
  }

  /** Clicking a listed script keeps the list reachable. */
  lemma ToggleStaysReachable(names: seq<string>, completed: seq<string>, name: string)
    requires Reachable(names, completed) && name in names
    ensures Reachable(names, Toggle(completed, name))
  {
    ToggleKeepsNoDup(completed, name);
    var r := Toggle(completed, name);
    forall i | 0 <= i < |r| ensures r[i] in names {
      assert r[i] in r;
    }
  }

  /** `allComplete`: as many ticked scripts as listed ones. */
  predicate AllComplete(names: seq<string>, completed: seq<string>) {
    |completed| == |names|
  }

  /** `sqlScripts.length - completedScripts.length`. */
  function Remaining(names: seq<string>, completed: seq<string>): int {
    |names| - |completed|
  }

  /** For a reachable list, the length test means every listed script is
      ticked, and the remaining count is the number of unticked scripts. */
  lemma AllCompleteIffEveryScript(names: seq<string>, completed: seq<string>)
    requires NoDup(names) && Reachable(names, completed)
    ensures AllComplete(names, completed) <==> forall i :: 0 <= i < |names| ==> names[i] in completed
    ensures Remaining(names, completed) == |(set x | x in names && x !in completed)|
  {
    var done := set x | x in completed;
    var all := set x | x in names;
    NoDupCardinality(completed);
    NoDupCardinality(names);
    assert done <= all;
    assert (set x | x in names && x !in completed) == all - done;
    assert |all - done| == |all| - |done|;
    if |completed| == |names| {
      assert done == all;
      forall i | 0 <= i < |names| ensures names[i] in completed {
        assert names[i] in all;
      }
    } else if forall i :: 0 <= i < |names| ==> names[i] in completed {
      assert false;
    }
  }

  /** What the page shows after the automatic setup. */
  datatype AutoResult = AutoResult(success: bool, message: string)

  /** The answer of `POST /api/db/init`: a response, or a thrown value
      (network failure or unparsable body). */
  datatype AutoReply =
    | Responded(ok: bool, dataSuccess: bool, dataMessage: Option<string>)
    | Threw(thrown: Thrown)

  datatype PageState = PageState(completed: seq<string>, result: Option<AutoResult>)

  /** `handleAutoSetup`. */
  function AutoSetup(names: seq<string>, st: PageState, reply: AutoReply): (r: PageState)
    ensures (r.completed == names) <==> (reply.Responded? && reply.ok && reply.dataSuccess) || st.completed == names
    ensures r.result.Some?
    ensures r.result.value.success <==> reply.Responded? && reply.ok && reply.dataSuccess
    ensures !r.result.value.success ==> r.completed == st.completed
  {
    match reply
    case Responded(ok, dataSuccess, dataMessage) =>
      if ok && dataSuccess then PageState(names, Some(AutoResult(true, "Database initialized successfully!")))
      else
        var msg := if dataMessage.Some? && dataMessage.value != "" then dataMessage.value
                   else "Automatic setup not available. Follow manual setup below.";
        PageState(st.completed, Some(AutoResult(false, msg)))
    case Threw(thrown) =>
      var msg := match thrown
        case ErrorObject(m) => m
        case OtherValue => "Setup failed";
      PageState(st.completed, Some(AutoResult(false, msg)))
  }

  /** A failed setup shows the route's message when it has one, the manual
      hint when it does not, and an exception's own message. */
  lemma AutoSetupFailureMessage(names: seq<string>, st: PageState, reply: AutoReply)
    ensures (reply.Responded? && !(reply.ok && reply.dataSuccess) ==>
      AutoSetup(names, st, reply).result.value.message ==
        if reply.dataMessage.GetOr("") != "" then reply.dataMessage.value
        else "Automatic setup not available. Follow manual setup below.")
    ensures (reply.Threw? && reply.thrown.ErrorObject? ==>
      AutoSetup(names, st, reply).result.value.message == reply.thrown.message)
  {
  }

  /** "Setup complete!" is shown instead of the remaining count. */
  predicate ShowsComplete(names: seq<string>, st: PageState) {
    AllComplete(names, st.completed) || (st.result.Some? && st.result.value.success)
  }

  /** After a successful automatic setup every listed script is ticked and
      the page says the setup is complete; a failed one leaves the
      checklist as it was. */
  lemma AutoSetupCompletesChecklist(names: seq<string>, st: PageState, reply: AutoReply)
    requires NoDup(names) && Reachable(names, st.completed)
    ensures var r := AutoSetup(names, st, reply);
      Reachable(names, r.completed) &&
      (r.result.value.success ==> ShowsComplete(names, r) && forall i :: 0 <= i < |names| ==> names[i] in r.completed) &&
      (ShowsComplete(names, r) <==> r.result.value.success || AllComplete(names, st.completed))
  {
  }

  /** The page's own list has no duplicates, so the lemmas above apply to it. */
  lemma ChecklistHasNoDuplicates()
    ensures NoDup(ChecklistScripts) && |ChecklistScripts| == 4
  {
  }
}

=== FILE: slug.dfy ===
/** The admin forms' `generateSlug`: lower-case the title, delete every
    character that is not a lower-case letter, a digit or whitespace, then
    turn each run of whitespace into one hyphen. The blog, project and
    product forms carry identical copies; this is the one definition. */
module Slug {
  import opened Seqs
  import opened Text

  /** No two hyphens in a row. */
  predicate NoDoubleHyphen(s: string) {
    forall i :: 0 <= i < |s| - 1 ==> !(s[i] == '-' && s[i + 1] == '-')
  }

  predicate KeptBySlug(c: char) {
    IsLowerAlnum(c) || IsSpace(c)
  }

  /** `.replace(/[^a-z0-9\s]/g, "")`. */
  function KeepSlugChars(s: string): (r: string)
    ensures forall i :: 0 <= i < |r| ==> KeptBySlug(r[i])
    ensures '-' !in r
  {
    Filter(KeptBySlug, s)
  }

  /** `.replace(/\s+/g, "-")`. */
  function Hyphenate(s: string): (r: string)
    decreases |s|
    ensures r == [] <==> s == []
  {
    if s == [] then []
    else if IsSpace(s[0]) then
      var t := TrimStart(s);
      assert t == TrimStart(s[1..]);
      "-" + Hyphenate(t)
    else
      [s[0]] + Hyphenate(s[1..])
  }

  /** A whitespace run at the start becomes a first hyphen. */
  lemma HyphenateFirst(s: string)
    requires |s| > 0
    ensures Hyphenate(s)[0] == (if IsSpace(s[0]) then '-' else s[0])
  {
  }

  /** Every character of the output is a hyphen or a non-space character
      of the input that meets whatever `p` the input's non-space characters
      meet. */
  lemma {:induction false} HyphenateKeeps(s: string, p: char -> bool)
    decreases |s|
    requires forall i :: 0 <= i < |s| ==> IsSpace(s[i]) || p(s[i])
    ensures forall i :: 0 <= i < |Hyphenate(s)| ==> Hyphenate(s)[i] == '-' || (p(Hyphenate(s)[i]) && !IsSpace(Hyphenate(s)[i]))
  {
    if s != [] {
      if IsSpace(s[0]) {
        var t := TrimStart(s);
        assert t == TrimStart(s[1..]);
        HyphenateKeeps(t, p);
      } else {
        HyphenateKeeps(s[1..], p);
      }
    }
  }

  /** A whitespace run at the end becomes a final hyphen. */
  lemma {:induction false} HyphenateLast(s: string)
    decreases |s|
    requires |s| > 0
    ensures var r := Hyphenate(s);
      r[|r| - 1] == (if IsSpace(s[|s| - 1]) then '-' else s[|s| - 1])
  {
    if IsSpace(s[0]) {
      var t := TrimStart(s);
      assert t == TrimStart(s[1..]);
      if t != [] {
        assert t[|t| - 1] == s[|s| - 1];
        HyphenateLast(t);
      }
    } else if |s| > 1 {
      HyphenateLast(s[1..]);
    }
  }

  /** Without hyphens in the input, every hyphen of the output stands for a
      whole whitespace run, so no two are adjacent. */
  lemma {:induction false} HyphenateNoDouble(s: string)
    decreases |s|
    requires '-' !in s
    ensures NoDoubleHyphen(Hyphenate(s))
  {
    if s != [] {
      if IsSpace(s[0]) {
        var t := TrimStart(s);
        assert t == TrimStart(s[1..]);
        HyphenateNoDouble(t);
        if t != [] {
          HyphenateFirst(t);
        }
      } else {
        HyphenateNoDouble(s[1..]);
        if |s| > 1 {
          HyphenateFirst(s[1..]);
        }
      }
    }
  }

  /** Text without whitespace passes through unchanged. */
  lemma {:induction false} HyphenateNoSpace(s: string)
    requires forall i :: 0 <= i < |s| ==> !IsSpace(s[i])
    ensures Hyphenate(s) == s
  {
    if s != [] {
      HyphenateNoSpace(s[1..]);
    }
  }

  /** The slug: lower-cased, stripped to letters, digits and whitespace, whitespace runs hyphenated.
      Reading it without its hyphens gives back exactly the title's lower-case letters and digits, in order. */
  function GenerateSlug(title: string): (r: string)
    ensures forall i :: 0 <= i < |r| ==> IsLowerAlnum(r[i]) || r[i] == '-'
    ensures NoDoubleHyphen(r)
    ensures Filter(NotHyphen, r) == Filter(IsLowerAlnum, Lower(title))
  {
    var kept := KeepSlugChars(Lower(title));
    HyphenateNoDouble(kept);
    HyphenateKeeps(kept, IsLowerAlnum);
    HyphenateLetters(kept);
    FilterConj(IsLowerAlnum, NotSpace, KeptBySlug, Lower(title));
    Hyphenate(kept)
  }

  predicate NotHyphen(c: char) { c != '-' }

  predicate NotSpace(c: char) { !IsSpace(c) }

  /** Trimming leading whitespace loses no other character. */
  lemma {:induction false} TrimStartKeepsNonSpace(s: string)
    decreases |s|
    ensures Filter(NotSpace, TrimStart(s)) == Filter(NotSpace, s)
  {
    if |s| > 0 && IsSpace(s[0]) {
      TrimStartKeepsNonSpace(s[1..]);
    }
  }

  /** Hyphenating replaces whitespace only: every other character survives, in order. */
  lemma {:induction false} HyphenateLetters(s: string)
    decreases |s|
    requires '-' !in s
    ensures Filter(NotHyphen, Hyphenate(s)) == Filter(NotSpace, s)
  {
    if s == [] {
    } else if IsSpace(s[0]) {
      var t := TrimStart(s);
      assert t == s[|s| - |t|..];
      HyphenateLetters(t);
      HyphenateRunStep(s);
    } else {
      HyphenateLetters(s[1..]);
      HyphenateCharStep(s);
    }
  }

  /** A leading whitespace run turns into one hyphen, which reading without hyphens skips. */
  lemma HyphenateRunStep(s: string)
    requires s != [] && IsSpace(s[0])
    requires Filter(NotHyphen, Hyphenate(TrimStart(s))) == Filter(NotSpace, TrimStart(s))
    ensures Filter(NotHyphen, Hyphenate(s)) == Filter(NotSpace, s)
  {
    var t := TrimStart(s);
    assert Hyphenate(s) == "-" + Hyphenate(t);
    FilterAppend(NotHyphen, "-", Hyphenate(t));
    assert Filter(NotHyphen, "-") == [];
    TrimStartKeepsNonSpace(s);
  }

  /** A leading character that is neither whitespace nor a hyphen is kept by both readings. */
  lemma HyphenateCharStep(s: string)
    requires s != [] && !IsSpace(s[0]) && s[0] != '-'
    requires Filter(NotHyphen, Hyphenate(s[1..])) == Filter(NotSpace, s[1..])
    ensures Filter(NotHyphen, Hyphenate(s)) == Filter(NotSpace, s)
  {
    assert Hyphenate(s) == [s[0]] + Hyphenate(s[1..]);
    FilterAppend(NotHyphen, [s[0]], Hyphenate(s[1..]));
    assert Filter(NotHyphen, [s[0]]) == [s[0]];
  }


  lemma {:induction false} FilterHead(p: char -> bool, s: string)
    requires |s| > 0 && p(s[0])
    ensures |Filter(p, s)| > 0 && Filter(p, s)[0] == s[0]
  {
  }

  lemma {:induction false} FilterLast(p: char -> bool, s: string)
    requires |s| > 0 && p(s[|s| - 1])
    ensures |Filter(p, s)| > 0 && Filter(p, s)[|Filter(p, s)| - 1] == s[|s| - 1]
  {
    var n := |s| - 1;
    assert s == s[..n] + [s[n]];
    FilterAppend(p, s[..n], [s[n]]);
  }

  /** Leading whitespace in the title becomes a leading hyphen. */
  lemma SlugLeadingHyphen(title: string)
    requires |title| > 0 && IsSpace(title[0])
    ensures |GenerateSlug(title)| > 0 && GenerateSlug(title)[0] == '-'
  {
    var lower := Lower(title);
    assert IsSpace(lower[0]);
    FilterHead(KeptBySlug, lower);
    var kept := KeepSlugChars(lower);
    HyphenateFirst(kept);
    assert GenerateSlug(title) == Hyphenate(kept);
  }

  /** Trailing whitespace in the title becomes a trailing hyphen. */
  lemma SlugTrailingHyphen(title: string)
    requires |title| > 0 && IsSpace(title[|title| - 1])
    ensures var g := GenerateSlug(title); |g| > 0 && g[|g| - 1] == '-'
  {
    var kept := KeepSlugChars(Lower(title));
    KeptEndsWithSpace(title);
    HyphenateLast(kept);
  }

  /** Whitespace survives lower-casing and the character filter. */
  lemma KeptEndsWithSpace(title: string)
    requires |title| > 0 && IsSpace(title[|title| - 1])
    ensures var k := KeepSlugChars(Lower(title)); |k| > 0 && IsSpace(k[|k| - 1])
  {
    var lower := Lower(title);
    assert IsSpace(lower[|lower| - 1]);
    FilterLast(KeptBySlug, lower);
  }

  /** A slug of a slug drops its hyphens: the function is not idempotent. */
  lemma SlugOfSlugDropsHyphens(title: string)
    ensures GenerateSlug(GenerateSlug(title)) == Filter((c: char) => c != '-', GenerateSlug(title))
  {
    var g := GenerateSlug(title);
    assert Lower(g) == g;
    FilterExt(KeptBySlug, (c: char) => c != '-', g);
    var kept := KeepSlugChars(g);
    assert forall i :: 0 <= i < |kept| ==> !IsSpace(kept[i]) by {
      forall i | 0 <= i < |kept| ensures !IsSpace(kept[i]) {
        assert kept[i] in kept;
      }
    }
    HyphenateNoSpace(kept);
  }

  /** "a b" becomes "a-b", whose own slug is "ab". */
  lemma SlugIsNotIdempotent()
    ensures GenerateSlug("a b") == "a-b"
    ensures GenerateSlug(GenerateSlug("a b")) == "ab"
  {
    SpacedPairSlug();
    SlugOfSlugDropsHyphens("a b");
    DropHyphenPair();
  }

  lemma SpacedPairSlug()
    ensures GenerateSlug("a b") == "a-b"
  {
    var s := "a b";
    assert Lower(s) == s by {
      forall i | 0 <= i < |s| ensures Lower(s)[i] == s[i] {
      }
    }
    FilterKeepsAll(KeptBySlug, s);
    assert KeepSlugChars(Lower(s)) == s;
    SpacedPairHyphenates();
  }

  lemma SpacedPairHyphenates()
    ensures Hyphenate("a b") == "a-b"
  {
    WordSpaceWord('a', ' ', 'b');
    assert "a b" == ['a', ' ', 'b'];
  }

  /** Two non-space characters around one space hyphenate to a pair around
      a hyphen. */
  lemma WordSpaceWord(x: char, sp: char, y: char)
    requires !IsSpace(x) && IsSpace(sp) && !IsSpace(y)
    ensures Hyphenate([x, sp, y]) == [x, '-', y]
  {
    var s := [x, sp, y];
    assert s[1..] == [sp, y];
    assert [sp, y][1..] == [y];
    assert TrimStart([y]) == [y];
    assert TrimStart([sp, y]) == [y];
    HyphenateNoSpace([y]);
  }

  lemma DropHyphenPair()
    ensures Filter((c: char) => c != '-', "a-b") == "ab"
  {
    var p := (c: char) => c != '-';
    assert "a-b"[1..] == "-b";
    assert "-b"[1..] == "b";
    FilterKeepsAll(p, "b");
  }
}

=== FILE: sql_scripts.dfy ===
/** The database set-up paths. Four places cut a SQL script into statements,
    each slightly differently: the `/api/setup` route, the `/api/db/init`
    route, the `/api/init-db` route (which only cleans the text for display)
    and the `scripts/setup-database.ts` command. File reads, the RPC calls
    and the HTTP layer are parameters. */
module SqlScripts {
  import opened Wrappers
  import opened Text
  import opened Seqs
  import opened Ordering

  // ---------------------------------------------------------------------
  // Cutting text into statements
  // ---------------------------------------------------------------------

  /** `pieces.map((p) => p.trim())`. */
  function TrimAll(pieces: seq<string>): seq<string> {
    seq(|pieces|, i requires 0 <= i < |pieces| => Trim(pieces[i]))
  }

  predicate NonEmpty(s: string) {
    |s| > 0
  }

  /** The shape every produced statement has. */
  predicate IsStatement(s: string) {
    |s| > 0 && ';' !in s && Trim(s) == s
  }

  /** `text.split(";").map(trim).filter((s) => s.length > 0)`, the core
      shared by the splitters: every statement is non-empty, trimmed and
      free of `;`. */
  function Statements(text: string): (r: seq<string>)
    ensures forall i :: 0 <= i < |r| ==> IsStatement(r[i])
  {
    var kept := Filter(NonEmpty, TrimAll(Split(text, ';')));
    PiecesAreStatements(text, kept);
    kept
  }

  lemma PiecesAreStatements(text: string, kept: seq<string>)
    requires kept == Filter(NonEmpty, TrimAll(Split(text, ';')))
    ensures forall i :: 0 <= i < |kept| ==> IsStatement(kept[i])
  {
    var pieces := Split(text, ';');
    var trimmed := TrimAll(pieces);
    forall i | 0 <= i < |kept| ensures IsStatement(kept[i]) {
      var st := kept[i];
      assert st in kept;
      var j :| 0 <= j < |trimmed| && trimmed[j] == st;
      TrimAddsNothing(pieces[j], ';');
      TrimIdempotent(pieces[j]);
    }
  }

  /** Statements joined with `;` are cut back into exactly those statements. */
  lemma StatementsRoundTrip(stmts: seq<string>)
    requires forall i :: 0 <= i < |stmts| ==> IsStatement(stmts[i])
    ensures Statements(Join(stmts, ";")) == stmts
  {
    if |stmts| == 0 {
      NoStatementsInEmptyText();
    } else {
      SplitJoin(stmts, ';');
      StatementsOfStatementPieces(Join(stmts, ";"), stmts);
    }
  }

  lemma NoStatementsInEmptyText()
    ensures Statements("") == []
  {
    assert Split("", ';') == [""];
    assert Trim("") == "";
    assert TrimAll([""]) == [""];
  }

  /** Text whose `;` pieces are already statements yields those pieces. */
  lemma StatementsOfStatementPieces(text: string, pieces: seq<string>)
    requires Split(text, ';') == pieces
    requires forall i :: 0 <= i < |pieces| ==> IsStatement(pieces[i])
    ensures Statements(text) == pieces
  {
    assert TrimAll(pieces) == pieces;
    FilterKeepsAll(NonEmpty, pieces);
  }

  // ---------------------------------------------------------------------
  // `/api/setup`: strip comment lines, then split
  // ---------------------------------------------------------------------

  /** A line whose trimmed text starts with `--`. */
  predicate IsCommentLine(line: string) {
    StartsWith(Trim(line), "--")
  }

  predicate IsCodeLine(line: string) {
    !IsCommentLine(line)
  }

  /** The script with its comment lines removed. */
  function StripCommentLines(sql: string): string {
    Join(Filter(IsCodeLine, Split(sql, '\n')), "\n")
  }

  /** The statements `/api/setup` sends, in order: each non-empty, trimmed
      and free of `;`. */
  function SetupStatements(sql: string): (r: seq<string>)
    ensures forall i :: 0 <= i < |r| ==> IsStatement(r[i])
  {
    Statements(StripCommentLines(sql))
  }

  /** Keeping some of a text's lines and joining them again: the lines of the
      result are exactly the kept lines. */
  lemma KeptLinesRoundTrip(p: string -> bool, sql: string)
    requires Filter(p, Split(sql, '\n')) != []
    ensures Split(Join(Filter(p, Split(sql, '\n')), "\n"), '\n') == Filter(p, Split(sql, '\n'))
  {
    var kept := Filter(p, Split(sql, '\n'));
    forall i | 0 <= i < |kept| ensures '\n' !in kept[i] {
      assert kept[i] in kept;
    }
    SplitJoin(kept, '\n');
  }

  /** The stripped text consists of exactly the code lines of the script, in
      order. */
  lemma StrippedLinesAreCodeLines(sql: string)
    requires Filter(IsCodeLine, Split(sql, '\n')) != []
    ensures Split(StripCommentLines(sql), '\n') == Filter(IsCodeLine, Split(sql, '\n'))
  {
    KeptLinesRoundTrip(IsCodeLine, sql);
  }

  /** A script without comment lines is not changed by the stripping. */
  lemma StripKeepsCommentFreeScript(sql: string)
    requires forall i :: 0 <= i < |Split(sql, '\n')| ==> IsCodeLine(Split(sql, '\n')[i])
    ensures StripCommentLines(sql) == sql
    ensures SetupStatements(sql) == Statements(sql)
  {
    FilterKeepsAll(IsCodeLine, Split(sql, '\n'));
    JoinSplit(sql, '\n');
  }

  /** A script made only of comment lines yields no statement. */
  lemma CommentOnlyScriptHasNoStatements(sql: string)
    requires forall i :: 0 <= i < |Split(sql, '\n')| ==> IsCommentLine(Split(sql, '\n')[i])
    ensures SetupStatements(sql) == []
  {
    FilterDropsAll(IsCodeLine, Split(sql, '\n'));
    StatementsRoundTrip([]);
  }

  /** Only whole comment lines are stripped: a comment after a statement on
      the same line becomes a statement of its own. */
  lemma TrailingCommentBecomesStatement(code: string, comment: string)
    requires IsStatement(code) && IsStatement(comment)
    requires '\n' !in code + ";" + comment && IsCodeLine(code + ";" + comment)
    ensures SetupStatements(code + ";" + comment) == [code, comment]
  {
    var line := code + ";" + comment;
    SplitWithoutSeparator(line, '\n');
    assert Filter(IsCodeLine, [line]) == [line];
    assert Join([line], "\n") == line;
    assert Join([code, comment], ";") == line;
    StatementsRoundTrip([code, comment]);
  }

  /** Whether a script file exists (`fs.existsSync`) and, if so, what
      `fs.readFileSync` does with it: return its text, or throw an error with
      a message (a directory, a file without read permission). */
  datatype SqlFile = Missing | ReadFails(message: string) | Present(sql: string)

  /** One entry of the route's `results`. */
  datatype FileResult = FileResult(file: string, status: string, error: Option<string>)

  /** The statement loop's `errorOccurred` flag: `exec` answers whether the
      RPC call for a statement came back ok (a thrown call counts as not ok). */
  function AnyFailed(stmts: seq<string>, exec: string -> bool): bool {
    if |stmts| == 0 then false
    else !exec(stmts[0]) || AnyFailed(stmts[1..], exec)
  }

  /** The loop's flag is set exactly when some statement failed. */
  lemma {:induction false} AnyFailedIff(stmts: seq<string>, exec: string -> bool)
    ensures AnyFailed(stmts, exec) <==> exists i :: 0 <= i < |stmts| && !exec(stmts[i])
  {
    if |stmts| > 0 {
      AnyFailedIff(stmts[1..], exec);
      if AnyFailed(stmts[1..], exec) {
        var i :| 0 <= i < |stmts[1..]| && !exec(stmts[1..][i]);
        assert !exec(stmts[i + 1]);
      }
      if exists i :: 0 <= i < |stmts| && !exec(stmts[i]) {
        var i :| 0 <= i < |stmts| && !exec(stmts[i]);
        if i > 0 {
          assert stmts[1..][i - 1] == stmts[i];
        }
      }
    }
  }

  /** One iteration of `/api/setup`'s file loop: the file's result entry,
      or the message of the error `readFileSync` throws, which no inner
      `try` catches. */
  function SetupFile(name: string, file: SqlFile, exec: string -> bool): (r: Result<FileResult, string>)
    ensures r.Failure? <==> file.ReadFails?
    ensures r.Failure? ==> r.error == file.message
    ensures r.Success? ==> r.value.file == name
  {
    match file
    case Missing => Success(FileResult(name, "skipped", Some("File not found")))
    case ReadFails(message) => Failure(message)
    case Present(sql) =>
      if AnyFailed(SetupStatements(sql), exec) then Success(FileResult(name, "partial", Some("Some statements may have failed")))
      else Success(FileResult(name, "completed", None))
  }

  /** A readable file is skipped iff it is missing, and partial iff one of
      its statements failed; otherwise it is completed without an error. */
  lemma SetupFileStatus(name: string, file: SqlFile, exec: string -> bool)
    requires !file.ReadFails?
    ensures SetupFile(name, file, exec).value.status == "skipped" <==> file.Missing?
    ensures (SetupFile(name, file, exec).value.status == "partial") ==
      (file.Present? && exists i :: 0 <= i < |SetupStatements(file.sql)| && !exec(SetupStatements(file.sql)[i]))
    ensures SetupFile(name, file, exec).value.status == "completed" <==> SetupFile(name, file, exec).value.error.None?
  {
    if file.Present? {
      AnyFailedIff(SetupStatements(file.sql), exec);
    }
  }

  /** The file loop over `names`: every file's entry in order, or the first
      read error, which ends the loop. */
  function SetupLoop(names: seq<string>, files: string -> SqlFile, exec: string -> bool)
    : (r: Result<seq<FileResult>, string>)
    ensures r.Failure? <==> exists i :: 0 <= i < |names| && files(names[i]).ReadFails?
    ensures (r.Failure? ==>
      exists i :: 0 <= i < |names| && files(names[i]) == ReadFails(r.error) &&
        forall j :: 0 <= j < i ==> !files(names[j]).ReadFails?)
    ensures r.Success? ==> |r.value| == |names|
    ensures (r.Success? ==>
      forall i :: 0 <= i < |names| ==> Success(r.value[i]) == SetupFile(names[i], files(names[i]), exec))
    decreases |names|
  {
    if |names| == 0 then Success([])
    else
      var head := SetupFile(names[0], files(names[0]), exec);
      if head.Failure? then Failure(head.error)
      else
        var rest := SetupLoop(names[1..], files, exec);
        if rest.Failure? then
          assert forall i :: 0 <= i < |names| - 1 ==> names[1..][i] == names[i + 1];
          rest
        else
          assert forall i :: 0 <= i < |names| - 1 ==> names[1..][i] == names[i + 1];
          Success([head.value] + rest.value)
  }

  /** The execution order of `/api/setup` (and of `/api/init-db`). */
  const SetupFileNames: seq<string> := [
    "001-create-tables.sql",
    "002-enable-rls.sql",
    "003-create-functions.sql",
    "001a-add-missing-blog-columns.sql",
    "002a-create-blog-interactions-tables.sql",
    "003a-update-blog-interaction-counts.sql",
    "004a-blog-rls-policies.sql",
    "005b-create-contact-messages-table.sql",
    "006a-create-comment-replies-table.sql",
    "004-setup-storage.sql",
    "004-seed-data.sql"
  ]

  datatype SetupReply =
    | SetupConfigMissing
    | SetupInitiated(results: seq<FileResult>)
    | SetupFailed(details: string)

  /** `POST /api/setup`. `configured` is whether the URL and service key are
      set; `files` reads the scripts directory. A read error reaches the
      outer `catch`, which answers "Database setup failed" with the error's
      message as `details`. */
  function SetupRoute(configured: bool, files: string -> SqlFile, exec: string -> bool): (r: SetupReply)
    ensures r.SetupConfigMissing? <==> !configured
    ensures (r.SetupFailed? <==>
      configured && exists i :: 0 <= i < |SetupFileNames| && files(SetupFileNames[i]).ReadFails?)
    ensures (r.SetupInitiated? ==>
      |r.results| == |SetupFileNames| &&
      forall i :: 0 <= i < |r.results| ==> r.results[i].file == SetupFileNames[i])
  {
    if !configured then SetupConfigMissing
    else
      match SetupLoop(SetupFileNames, files, exec)
      case Success(results) => SetupInitiated(results)
      case Failure(details) => SetupFailed(details)
  }

  /** The HTTP status of `/api/setup`: statement failures never turn into an
      error status; missing configuration and a read error do. */
  function SetupStatus(r: SetupReply): (code: int)
    ensures code == 200 <==> r.SetupInitiated?
    ensures code == 500 <==> r.SetupConfigMissing? || r.SetupFailed?
  {
    if r.SetupInitiated? then 200 else 500
  }

  /** Once configured, `/api/setup` answers 200 exactly when every listed
      file is missing or readable, whatever the statement outcomes were;
      an unreadable file answers 500 with its read error's message. */
  lemma SetupOkUnlessUnreadable(files: string -> SqlFile, exec: string -> bool)
    ensures (SetupStatus(SetupRoute(true, files, exec)) == 200 <==>
      forall i :: 0 <= i < |SetupFileNames| ==> !files(SetupFileNames[i]).ReadFails?)
    ensures (SetupRoute(true, files, exec).SetupFailed? ==>
      exists i :: 0 <= i < |SetupFileNames| && files(SetupFileNames[i]) == ReadFails(SetupRoute(true, files, exec).details))
  {
  }

  // ---------------------------------------------------------------------
  // `/api/db/init`: split without stripping, terminate with `;`
  // ---------------------------------------------------------------------

  /** Each of `stmts` followed by its `;`. */
  function Terminated(stmts: seq<string>): (r: seq<string>)
    ensures |r| == |stmts|
  {
    seq(|stmts|, i requires 0 <= i < |stmts| => stmts[i] + ";")
  }

  /** `readSQLFile`: one entry per statement, each a statement followed by
      its one `;`. */
  function ReadSqlFile(content: string): (r: seq<string>)
    ensures |r| == |Statements(content)|
    ensures forall i :: 0 <= i < |r| ==> IsTerminatedStatement(r[i])
  {
    var stmts := Statements(content);
    TerminatedAll(stmts);
    Terminated(stmts)
  }

  lemma TerminatedAll(stmts: seq<string>)
    requires forall i :: 0 <= i < |stmts| ==> IsStatement(stmts[i])
    ensures forall i :: 0 <= i < |stmts| ==> IsTerminatedStatement(Terminated(stmts)[i])
  {
    forall i | 0 <= i < |stmts| ensures IsTerminatedStatement(Terminated(stmts)[i]) {
      TerminatedShape(stmts[i]);
    }
  }

  /** A statement followed by its one `;`. */
  predicate IsTerminatedStatement(st: string) {
    |st| >= 2 && st[|st| - 1] == ';' && IsStatement(st[..|st| - 1])
  }

  lemma TerminatedShape(stmt: string)
    requires IsStatement(stmt)
    ensures IsTerminatedStatement(stmt + ";")
  {
    assert (stmt + ";")[..|stmt|] == stmt;
  }

  /** A file of statements joined with `;` reads back as those statements,
      each terminated. */
  lemma ReadSqlFileRoundTrip(stmts: seq<string>)
    requires forall i :: 0 <= i < |stmts| ==> IsStatement(stmts[i])
    ensures ReadSqlFile(Join(stmts, ";")) == Terminated(stmts)
  {
    StatementsRoundTrip(stmts);
  }

  /** A comment line `c` on the line before a one-line statement `x`. */
  predicate CommentThenStatement(c: string, x: string) {
    StartsWith(c, "--") && ';' !in c && '\n' !in c &&
    IsStatement(x) && '\n' !in x && !StartsWith(x, "--")
  }

  /** The whole text is one statement for the shared splitter. */
  lemma CommentLedStatement(c: string, x: string)
    requires CommentThenStatement(c, x)
    ensures IsStatement(c + "\n" + x)
    ensures Statements(c + "\n" + x) == [c + "\n" + x]
    ensures StartsWith(c + "\n" + x, "--")
  {
    var t := c + "\n" + x;
    TrimIsTrimmed(x);
    assert t[|t| - 1] == x[|x| - 1];
    assert t[0] == c[0] == '-';
    TrimOfTrimmed(t);
    assert t[..2] == c[..2];
    assert Join([t], ";") == t;
    StatementsRoundTrip([t]);
  }

  /** `/api/db/init` keeps the comment line inside the statement. */
  lemma CommentKeptByDbInit(c: string, x: string)
    requires CommentThenStatement(c, x)
    ensures ReadSqlFile(c + "\n" + x) == [c + "\n" + x + ";"]
  {
    CommentLedStatement(c, x);
    ReadSqlFileRoundTrip([c + "\n" + x]);
    assert Join([c + "\n" + x], ";") == c + "\n" + x;
  }

  /** A line starting with `--` is a comment line. */
  lemma DashLineIsComment(c: string)
    requires StartsWith(c, "--")
    ensures IsCommentLine(c)
  {
    TrimKeepsPrefix(c, "--");
  }

  /** `/api/setup` strips the comment line and keeps the statement. */
  lemma CommentStrippedBySetup(c: string, x: string)
    requires CommentThenStatement(c, x)
    ensures SetupStatements(c + "\n" + x) == [x]
  {
    assert Join([c, x], "\n") == c + "\n" + x;
    SplitJoin([c, x], '\n');
    DashLineIsComment(c);
    assert IsCodeLine(x);
    CodeAfterComment(c, x);
    assert Join([x], ";") == x;
    StatementsRoundTrip([x]);
  }

  lemma CodeAfterComment(c: string, x: string)
    requires IsCommentLine(c) && IsCodeLine(x)
    ensures Join(Filter(IsCodeLine, [c, x]), "\n") == x
  {
    assert Filter(IsCodeLine, [x]) == [x];
    assert [c, x][1..] == [x];
    assert Filter(IsCodeLine, [c, x]) == [x];
  }

  /** `setup-database.ts` drops the whole statement, since it now starts
      with `--`. */
  lemma CommentDropsStatementInSetupDatabase(c: string, x: string)
    requires CommentThenStatement(c, x)
    ensures ScriptStatements(c + "\n" + x) == []
  {
    CommentLedStatement(c, x);
    ScriptStatementsDropComments(c + "\n" + x);
    assert !IsNotCommentStatement(c + "\n" + x);
    assert Filter(IsNotCommentStatement, [c + "\n" + x]) == [];
  }

  /** An RPC error object: `code` and `message` may be absent. */
  datatype RpcError = RpcError(code: Option<string>, message: Option<string>)

  /** What one `exec_sql` call gives back. */
  datatype RpcReply = Done | Failed(error: RpcError) | Threw

  /** The route's test for "the `exec_sql` function does not exist". */
  predicate MissingFunction(e: RpcError) {
    e.code == Some("42883") || (e.message.Some? && Contains(e.message.value, "does not exist"))
  }

  /** `error.message || error.code` inside a template string. */
  function ErrorText(e: RpcError): string {
    if e.message.Some? && e.message.value != "" then e.message.value
    else if e.code.Some? then e.code.value
    else "undefined"
  }

  function Tag(script: string): string {
    "[" + script + "] "
  }

  const FallbackNote := "Using fallback execution method"

  /** The detail lines written while running one script's statements. */
  function RunStatements(tag: string, stmts: seq<string>, rpc: string -> RpcReply): (r: seq<string>)
    ensures |r| <= |stmts|
  {
    if |stmts| == 0 then []
    else
      match rpc(stmts[0])
      case Failed(e) =>
        if MissingFunction(e) then [tag + FallbackNote]
        else [tag + "Error: " + ErrorText(e)] + RunStatements(tag, stmts[1..], rpc)
      case _ => RunStatements(tag, stmts[1..], rpc)
  }

  /** The first statement whose reply says the function is missing ends the
      loop: the replies to later statements make no difference, and the
      fallback note is the last line. */
  lemma {:induction false} FallbackIgnoresLaterStatements(
    tag: string, stmts: seq<string>, rpc: string -> RpcReply, rpc2: string -> RpcReply, k: nat)
    requires k < |stmts| && rpc(stmts[k]).Failed? && MissingFunction(rpc(stmts[k]).error)
    requires forall j :: 0 <= j <= k ==> rpc2(stmts[j]) == rpc(stmts[j])
    ensures RunStatements(tag, stmts, rpc2) == RunStatements(tag, stmts, rpc)
    ensures var r := RunStatements(tag, stmts, rpc); |r| > 0 && r[|r| - 1] == tag + FallbackNote
  {
    assert rpc2(stmts[0]) == rpc(stmts[0]);
    if k > 0 && !(rpc(stmts[0]).Failed? && MissingFunction(rpc(stmts[0]).error)) {
      FallbackIgnoresLaterStatements(tag, stmts[1..], rpc, rpc2, k - 1);
    }
  }

  /** Without a missing-function reply, the loop visits every statement and
      every failed one leaves its error line; no fallback note appears. */
  lemma {:induction false} ErrorsDoNotStopTheLoop(tag: string, stmts: seq<string>, rpc: string -> RpcReply, i: nat)
    requires forall j :: 0 <= j < |stmts| ==> !(rpc(stmts[j]).Failed? && MissingFunction(rpc(stmts[j]).error))
    requires i < |stmts| && rpc(stmts[i]).Failed?
    ensures tag + "Error: " + ErrorText(rpc(stmts[i]).error) in RunStatements(tag, stmts, rpc)
  {
    if i > 0 {
      ErrorsDoNotStopTheLoop(tag, stmts[1..], rpc, i - 1);
    }
  }

  /** Whether `readSQLFile` could read a script. */
  datatype ScriptRead = Unreadable(reason: string) | Readable(content: string)

  /** The detail lines of one script of `executeSQLScripts`. */
  function ScriptDetails(script: string, read: ScriptRead, rpc: string -> RpcReply): (r: seq<string>)
    ensures |r| >= 1
  {
    match read
    case Unreadable(reason) => [Tag(script) + "\U{2717} Failed: " + reason]
    case Readable(content) =>
      var stmts := ReadSqlFile(content);
      [Tag(script) + "Found " + NatToString(|stmts|) + " SQL statements"]
        + RunStatements(Tag(script), stmts, rpc)
        + [Tag(script) + "\U{2713} Processed"]
  }

  /** A readable script opens with its statement count and always closes
      with the processed line, whatever its statements did; an unreadable
      one leaves the single failure line. */
  lemma ScriptDetailsShape(script: string, read: ScriptRead, rpc: string -> RpcReply)
    ensures var r := ScriptDetails(script, read, rpc);
      (read.Readable? ==>
        r[0] == Tag(script) + "Found " + NatToString(|Statements(read.content)|) + " SQL statements" &&
        r[|r| - 1] == Tag(script) + "\U{2713} Processed" &&
        |r| <= |Statements(read.content)| + 2)
    ensures read.Unreadable? ==> |ScriptDetails(script, read, rpc)| == 1
  {
  }

  /** The reported count reads back as the number of statements. */
  lemma FoundCountIsStatementCount(content: string)
    ensures DigitsValue(NatToString(|ReadSqlFile(content)|)) == |Statements(content)|
  {
    NatToStringRoundTrip(|ReadSqlFile(content)|);
  }

  /** The scripts `executeSQLScripts` runs, in order. */
  const DbInitScripts: seq<string> := [
    "001-create-tables.sql",
    "002-enable-rls.sql",
    "003-create-functions.sql",
    "004-seed-data.sql",
    "004-setup-storage.sql",
    "005-seed-sample-data.sql"
  ]

  /** Each script's detail lines, in list order. */
  function ScriptBlocks(scripts: seq<string>, read: string -> ScriptRead, rpc: string -> RpcReply): (r: seq<seq<string>>)
    ensures |r| == |scripts|
  {
    seq(|scripts|, i requires 0 <= i < |scripts| => ScriptDetails(scripts[i], read(scripts[i]), rpc))
  }

  /** Every script's lines appear in full, in list order: a failing script
      never stops the later ones. */
  lemma EveryScriptReported(scripts: seq<string>, read: string -> ScriptRead, rpc: string -> RpcReply, i: nat)
    requires i < |scripts|
    ensures var blocks := ScriptBlocks(scripts, read, rpc);
      var o := Offset(blocks, i);
      var block := ScriptDetails(scripts[i], read(scripts[i]), rpc);
      o + |block| <= |Concat(blocks)| && Concat(blocks)[o..o + |block|] == block
  {
    ConcatHasBlock(ScriptBlocks(scripts, read, rpc), i);
  }

  datatype InitReport = InitReport(success: bool, message: string, details: seq<string>)

  /** `executeSQLScripts`: per-script failures are caught inside the loop,
      so the outer error branch cannot be reached. */
  function ExecuteSqlScripts(read: string -> ScriptRead, rpc: string -> RpcReply): (r: InitReport)
    ensures r.success
    ensures |r.details| >= |DbInitScripts|
  {
    var blocks := ScriptBlocks(DbInitScripts, read, rpc);
    ConcatLength(blocks);
    InitReport(true, "Database initialization completed", Concat(blocks))
  }

  /** The HTTP status of `/api/db/init`. */
  function DbInitStatus(report: InitReport): (code: int)
    ensures code == 200 <==> report.success
  {
    if report.success then 200 else 500
  }

  /** `/api/db/init` answers 200 whatever the scripts and replies. */
  lemma DbInitAlwaysAnswersOk(read: string -> ScriptRead, rpc: string -> RpcReply)
    ensures DbInitStatus(ExecuteSqlScripts(read, rpc)) == 200
  {
  }

  // ---------------------------------------------------------------------
  // `/api/init-db`: clean the text for display, send it as one batch
  // ---------------------------------------------------------------------

  /** A line kept in `cleanedSql`: neither blank nor a comment line. */
  predicate IsDisplayLine(line: string) {
    !IsCommentLine(line) && Trim(line) != ""
  }

  /** `cleanedSql`: the display lines, verbatim, joined with newlines; it is
      empty iff the script has no display line. */
  function CleanSql(sql: string): (r: string)
    ensures r == "" <==> Filter(IsDisplayLine, Split(sql, '\n')) == []
  {
    var kept := Filter(IsDisplayLine, Split(sql, '\n'));
    assert forall i :: 0 <= i < |kept| ==> |kept[i]| > 0 by {
      forall i | 0 <= i < |kept| ensures |kept[i]| > 0 {
        assert kept[i] in kept;
      }
    }
    JoinEmptyIff(kept, "\n");
    Join(kept, "\n")
  }

  /** The cleaned text's lines are exactly the script's display lines, in
      order; it is empty iff the script has none. */
  lemma CleanSqlLines(sql: string)
    ensures Filter(IsDisplayLine, Split(sql, '\n')) != [] ==>
      Split(CleanSql(sql), '\n') == Filter(IsDisplayLine, Split(sql, '\n'))
    ensures CleanSql(sql) == "" <==> Filter(IsDisplayLine, Split(sql, '\n')) == []
  {
    var kept := Filter(IsDisplayLine, Split(sql, '\n'));
    if kept != [] {
      KeptLinesRoundTrip(IsDisplayLine, sql);
      JoinStartsWithFirst(kept, "\n");
      assert IsDisplayLine(kept[0]);
      assert |kept[0]| > 0;
    }
  }

  /** What reading one script gives. */
  datatype ScriptFile = NotFound | ReadError(thrown: Thrown) | Loaded(sql: string)

  datatype PreparedScript = PreparedScript(file: string, status: string, sql: Option<string>, error: Option<string>)

  /** One entry of `results` in `/api/init-db`. */
  function PrepareScript(name: string, f: ScriptFile): (r: PreparedScript)
    ensures r.file == name
    ensures r.sql.Some? <==> r.status == "ready"
  {
    match f
    case NotFound => PreparedScript(name, "skipped", None, Some("File not found"))
    case ReadError(t) =>
      PreparedScript(name, "error", None, Some(if t.ErrorObject? then t.message else "Unknown error"))
    case Loaded(sql) => PreparedScript(name, "ready", Some(CleanSql(sql)), None)
  }

  /** `.filter((r) => r.sql)`: an empty string is falsy too. */
  predicate HasSql(r: PreparedScript) {
    r.sql.Some? && r.sql.value != ""
  }

  function SqlTexts(rs: seq<PreparedScript>): (r: seq<string>)
    ensures |r| == |rs|
  {
    seq(|rs|, i requires 0 <= i < |rs| => rs[i].sql.GetOr(""))
  }

  /** `allSql`, the batch sent in one request: empty iff no entry has text. */
  function AllSql(results: seq<PreparedScript>): (r: string)
    ensures r == "" <==> forall i :: 0 <= i < |results| ==> !HasSql(results[i])
  {
    var kept := Filter(HasSql, results);
    var texts := SqlTexts(kept);
    assert forall i :: 0 <= i < |texts| ==> |texts[i]| > 0 by {
      forall i | 0 <= i < |texts| ensures |texts[i]| > 0 {
        assert kept[i] in kept;
      }
    }
    JoinEmptyIff(texts, "\n\n");
    assert kept == [] <==> forall i :: 0 <= i < |results| ==> !HasSql(results[i]) by {
      if kept != [] {
        assert kept[0] in kept;
      } else {
        forall i | 0 <= i < |results| ensures !HasSql(results[i]) {
          var x := results[i];
          assert x in results;
          assert HasSql(x) ==> x in kept;
        }
      }
    }
    Join(texts, "\n\n")
  }

  /** The route's `results`: one prepared entry per listed file. */
  function PrepareAll(names: seq<string>, files: string -> ScriptFile): seq<PreparedScript> {
    seq(|names|, i requires 0 <= i < |names| => PrepareScript(names[i], files(names[i])))
  }

  /** A prepared entry with display text comes from a loaded script and
      carries that script's cleaned text. */
  predicate FromLoadedScript(r: PreparedScript, names: seq<string>, files: string -> ScriptFile) {
    exists i :: 0 <= i < |names| && r == PrepareScript(names[i], files(names[i])) && files(names[i]).Loaded?
  }

  /** Only loaded scripts with some display text contribute to the batch,
      each with its cleaned text, and the batch is empty iff there is no
      such script. */
  lemma AllSqlParts(names: seq<string>, files: string -> ScriptFile)
    ensures forall r :: r in Filter(HasSql, PrepareAll(names, files)) ==>
      r.status == "ready" && r.sql.value != "" && FromLoadedScript(r, names, files)
    ensures (AllSql(PrepareAll(names, files)) == "" <==>
      forall i :: 0 <= i < |names| ==> !(files(names[i]).Loaded? && CleanSql(files(names[i]).sql) != ""))
  {
    KeptScriptsAreLoaded(names, files);
    BatchEmptyIff(names, files);
  }

  lemma KeptScriptsAreLoaded(names: seq<string>, files: string -> ScriptFile)
    ensures forall r :: r in Filter(HasSql, PrepareAll(names, files)) ==>
      r.status == "ready" && r.sql.value != "" && FromLoadedScript(r, names, files)
  {
    var results := PrepareAll(names, files);
    forall r | r in Filter(HasSql, results)
      ensures r.status == "ready" && r.sql.value != "" && FromLoadedScript(r, names, files)
    {
      var i :| 0 <= i < |results| && results[i] == r;
      assert r == PrepareScript(names[i], files(names[i]));
    }
  }

  lemma BatchEmptyIff(names: seq<string>, files: string -> ScriptFile)
    ensures (AllSql(PrepareAll(names, files)) == "" <==>
      forall i :: 0 <= i < |names| ==> !(files(names[i]).Loaded? && CleanSql(files(names[i]).sql) != ""))
  {
    var results := PrepareAll(names, files);
    var kept := Filter(HasSql, results);
    if kept != [] {
      JoinStartsWithFirst(SqlTexts(kept), "\n\n");
      assert HasSql(kept[0]) && kept[0] in kept;
      var i :| 0 <= i < |results| && results[i] == kept[0];
      assert files(names[i]).Loaded? && CleanSql(files(names[i]).sql) != "";
    } else {
      forall i | 0 <= i < |names| ensures !(files(names[i]).Loaded? && CleanSql(files(names[i]).sql) != "") {
        var x := results[i];
        assert x == PrepareScript(names[i], files(names[i])) && x in results;
        assert HasSql(x) ==> x in kept;
      }
    }
  }

  datatype InitDbReply =
    | InitDbConfigMissing
    | InitDbPrepared(success: bool, message: string, scripts: seq<PreparedScript>, automatic: string)

  /** `POST /api/init-db`. `batch` answers whether the batched request came
      back ok (a thrown request counts as not ok). */
  function InitDbRoute(configured: bool, files: string -> ScriptFile, batch: string -> bool): (r: InitDbReply)
    ensures r.InitDbConfigMissing? <==> !configured
    ensures (r.InitDbPrepared? ==>
      |r.scripts| == |SetupFileNames| &&
      (forall i :: 0 <= i < |r.scripts| ==> r.scripts[i].file == SetupFileNames[i]) &&
      r.success == batch(AllSql(r.scripts)))
  {
    if !configured then InitDbConfigMissing
    else
      var results := PrepareAll(SetupFileNames, files);
      var ok := batch(AllSql(results));
      InitDbPrepared(
        ok,
        if ok then "Database initialized successfully!" else "SQL scripts ready. Please run them in your Supabase Dashboard.",
        results,
        if ok then "Completed" else "Not available")
  }

  /** The HTTP status of `/api/init-db`: a failed batch is still a 200. */
  function InitDbStatus(r: InitDbReply): (code: int)
    ensures code == 500 <==> r.InitDbConfigMissing?
    ensures code == 200 <==> r.InitDbPrepared?
  {
    if r.InitDbConfigMissing? then 500 else 200
  }

  /** The message and the automatic-setup note follow the batch outcome. */
  lemma InitDbMessageFollowsBatch(files: string -> ScriptFile, batch: string -> bool)
    ensures var r := InitDbRoute(true, files, batch);
      (r.automatic == "Completed" <==> r.success) &&
      (r.message == "Database initialized successfully!" <==> r.success) &&
      InitDbStatus(r) == 200
  {
  }

  // ---------------------------------------------------------------------
  // `scripts/setup-database.ts`
  // ---------------------------------------------------------------------

  /** A statement not starting with `--`. */
  predicate IsNotCommentStatement(s: string) {
    !StartsWith(s, "--")
  }

  /** The script's filter: non-empty and not starting with `--`. */
  predicate IsScriptStatement(s: string) {
    |s| > 0 && !StartsWith(s, "--")
  }

  /** The statements `setup-database.ts` executes: statements, none of
      them starting with `--`. */
  function ScriptStatements(sql: string): (r: seq<string>)
    ensures forall i :: 0 <= i < |r| ==> IsStatement(r[i]) && !StartsWith(r[i], "--")
  {
    var r := Filter(IsScriptStatement, TrimAll(Split(sql, ';')));
    FilterConj(IsScriptStatement, IsNotCommentStatement, NonEmpty, TrimAll(Split(sql, ';')));
    assert forall i :: 0 <= i < |r| ==> IsStatement(r[i]) by {
      forall i | 0 <= i < |r| ensures IsStatement(r[i]) {
        var x := r[i];
        assert x in r;
        assert x in Statements(sql);
      }
    }
    r
  }

  /** The script's statements are the shared ones minus those that begin
      with `--`, so a statement led by a comment line is dropped whole. */
  lemma ScriptStatementsDropComments(sql: string)
    ensures ScriptStatements(sql) == Filter(IsNotCommentStatement, Statements(sql))
  {
    FilterConj(IsScriptStatement, IsNotCommentStatement, NonEmpty, TrimAll(Split(sql, ';')));
  }

  /** The inner `statement.trim()` guard never skips a statement. */
  lemma ScriptGuardSkipsNothing(sql: string)
    ensures Filter((s: string) => Trim(s) != "", ScriptStatements(sql)) == ScriptStatements(sql)
  {
    var stmts := ScriptStatements(sql);
    ScriptStatementsDropComments(sql);
    forall i | 0 <= i < |stmts| ensures Trim(stmts[i]) != "" {
      assert stmts[i] in stmts;
    }
    FilterKeepsAll((s: string) => Trim(s) != "", stmts);
  }

  datatype SqlFileEntry = SqlFileEntry(name: string, path: string, order: int)

  function OrderOf(f: SqlFileEntry): int {
    f.order
  }

  function Entry(name: string, order: int): SqlFileEntry {
    SqlFileEntry(name, "./scripts/" + name, order)
  }

  /** The script's file list. */
  const SetupDatabaseFiles: seq<SqlFileEntry> := [
    Entry("001-create-tables.sql", 1),
    Entry("002-enable-rls.sql", 2),
    Entry("003-create-functions.sql", 3),
    Entry("001a-add-missing-blog-columns.sql", 4),
    Entry("002a-create-blog-interactions-tables.sql", 5),
    Entry("003a-update-blog-interaction-counts.sql", 6),
    Entry("004a-blog-rls-policies.sql", 7),
    Entry("005b-create-contact-messages-table.sql", 8),
    Entry("006a-create-comment-replies-table.sql", 9),
    Entry("004-setup-storage.sql", 10),
    Entry("004-seed-data.sql", 11)
  ]

  /** The file list numbers its entries 1..11 in list order. */
  lemma FileOrdersCountUp()
    ensures forall i :: 0 <= i < |SetupDatabaseFiles| ==> SetupDatabaseFiles[i].order == i + 1
  {
  }

  /** Sorting a list already numbered in list order keeps it as written. */
  lemma SortKeepsNumberedList(files: seq<SqlFileEntry>)
    requires forall i :: 0 <= i < |files| ==> files[i].order == i + 1
    ensures SortBy(files, OrderOf) == files
  {
    assert SortedBy(files, OrderOf);
    SortSortedIsIdentity(files, OrderOf);
  }

  /** What the disk holds for a path. */
  datatype DiskFile = Absent | Unreadable | OnDisk(sql: string)

  /** What `executeSqlFile` does with one file: skip it, run its statements
      (errors are only logged), or catch a read failure. */
  datatype FileRun = SkippedFile(name: string) | RanFile(name: string, attempted: seq<string>) | CrashedFile(name: string)

  function RunSqlFile(f: SqlFileEntry, disk: DiskFile): (r: FileRun)
    ensures r.name == f.name
    ensures r.SkippedFile? <==> disk.Absent?
  {
    match disk
    case Absent => SkippedFile(f.name)
    case Unreadable => CrashedFile(f.name)
    case OnDisk(sql) => RanFile(f.name, Filter((s: string) => Trim(s) != "", ScriptStatements(sql)))
  }

  /** `setupDatabase`: sort the files by `order`, then run each on its own. */
  function SetupDatabase(files: seq<SqlFileEntry>, disk: string -> DiskFile): (r: seq<FileRun>)
    ensures |r| == |files|
  {
    var sorted := SortBy(files, OrderOf);
    seq(|sorted|, i requires 0 <= i < |sorted| => RunSqlFile(sorted[i], disk(sorted[i].path)))
  }

  /** A present file has every one of its statements attempted: statement
      errors are only logged. */
  lemma PresentFileRunsAllStatements(f: SqlFileEntry, sql: string)
    ensures RunSqlFile(f, OnDisk(sql)) == RanFile(f.name, ScriptStatements(sql))
  {
    ScriptGuardSkipsNothing(sql);
  }

  /** The run handles the files in list order, one entry each, when the
      list is numbered in that order (as the script's list is), and a file's
      entry depends only on that file: a missing, unreadable or failing file
      does not stop the others. */
  lemma SetupDatabaseRunsEveryFile(files: seq<SqlFileEntry>, disk: string -> DiskFile, i: nat)
    requires forall j :: 0 <= j < |files| ==> files[j].order == j + 1
    requires i < |files|
    ensures SetupDatabase(files, disk)[i].name == files[i].name
    ensures SetupDatabase(files, disk)[i] == RunSqlFile(files[i], disk(files[i].path))
  {
    SortKeepsNumberedList(files);
  }
}

=== FILE: text.dfy ===
/** ASCII text primitives. JavaScript's `trim`, `\s`, `toLowerCase`,
    `startsWith`, `includes`, `split` and `join` are modelled on ASCII:
    whitespace is space, tab, line feed, carriage return, vertical tab and
    form feed, and only 'A'..'Z' change case. */
module Text {

  predicate IsSpace(c: char) {
    c == ' ' || c == '\t' || c == '\n' || c == '\r' || c == '\U{000B}' || c == '\U{000C}'
  }

  predicate IsLowerAlnum(c: char) {
    ('a' <= c <= 'z') || ('0' <= c <= '9')
  }

  function LowerChar(c: char): char {
    if 'A' <= c <= 'Z' then (c as int + 32) as char else c
  }

  function UpperChar(c: char): char {
    if 'a' <= c <= 'z' then (c as int - 32) as char else c
  }

  function Lower(s: string): (r: string)
    ensures |r| == |s|
    ensures forall i :: 0 <= i < |s| ==> r[i] == LowerChar(s[i])
  {
    seq(|s|, i requires 0 <= i < |s| => LowerChar(s[i]))
  }

  /** Drops leading whitespace. */
  function TrimStart(s: string): (r: string)
    ensures |r| <= |s|
    ensures r == s[|s| - |r|..]
    ensures r == [] || !IsSpace(r[0])
    ensures forall i :: 0 <= i < |s| - |r| ==> IsSpace(s[i])
  {
    if |s| > 0 && IsSpace(s[0]) then TrimStart(s[1..]) else s
  }

  /** Drops trailing whitespace. */
  function TrimEnd(s: string): (r: string)
    ensures |r| <= |s|
    ensures r == s[..|r|]
    ensures r == [] || !IsSpace(r[|r| - 1])
    ensures forall i :: |r| <= i < |s| ==> IsSpace(s[i])
  {
    if |s| > 0 && IsSpace(s[|s| - 1]) then TrimEnd(s[..|s| - 1]) else s
  }

  /** `String.prototype.trim`. */
  function Trim(s: string): string {
    TrimEnd(TrimStart(s))
  }

  predicate AllSpace(s: string) {
    forall i :: 0 <= i < |s| ==> IsSpace(s[i])
  }

  lemma TrimStartEmptyIff(s: string)
    ensures TrimStart(s) == [] <==> AllSpace(s)
  {
    var r := TrimStart(s);
    if r != [] {
      assert r[0] == s[|s| - |r|];
    }
  }

  /** `!s.trim()` holds exactly for strings made only of whitespace. */
  lemma TrimEmptyIffAllSpace(s: string)
    ensures Trim(s) == [] <==> AllSpace(s)
  {
    TrimStartEmptyIff(s);
  }

  /** A trimmed string neither starts nor ends with whitespace. */
  lemma TrimIsTrimmed(s: string)
    ensures Trim(s) == [] || (!IsSpace(Trim(s)[0]) && !IsSpace(Trim(s)[|Trim(s)| - 1]))
  {
    var t := TrimStart(s);
    var r := TrimEnd(t);
    if r != [] {
      assert r[0] == t[0];
    }
  }

  /** Trimming is idempotent. */
  lemma TrimIdempotent(s: string)
    ensures Trim(Trim(s)) == Trim(s)
  {
    TrimIsTrimmed(s);
    var r := Trim(s);
    if r != [] {
      assert TrimStart(r) == r;
      assert TrimEnd(r) == r;
    }
  }

  predicate StartsWith(s: string, prefix: string) {
    |prefix| <= |s| && s[..|prefix|] == prefix
  }

  /** `sub` occurs in `s` starting at index `i`. */
  predicate OccursAt(s: string, sub: string, i: int) {
    0 <= i && i + |sub| <= |s| && s[i..i + |sub|] == sub
  }

  /** `s.includes(sub)`: `sub` occurs at some position of `s`. */
  predicate Contains(s: string, sub: string) {
    exists i | 0 <= i <= |s| - |sub| :: OccursAt(s, sub, i)
  }

  /** Two prefixes of one string: the shorter is a prefix of the longer. */
  lemma PrefixesAreNested(s: string, a: string, b: string)
    requires StartsWith(s, a) && StartsWith(s, b) && |a| <= |b|
    ensures StartsWith(b, a)
  {
    assert b[..|a|] == s[..|b|][..|a|];
  }

  /** `s.split(sep)` for a one-character separator: the pieces between the
      separators, so `k` separators give `k + 1` pieces, empty ones included. */
  function Split(s: string, sep: char): (r: seq<string>)
    ensures |r| >= 1
    ensures forall i :: 0 <= i < |r| ==> sep !in r[i]
  {
    if |s| == 0 then [""]
    else
      var rest := Split(s[1..], sep);
      if s[0] == sep then [""] + rest
      else [[s[0]] + rest[0]] + rest[1..]
  }

  /** `parts.join(sep)`. */
  function Join(parts: seq<string>, sep: string): string {
    if |parts| == 0 then ""
    else if |parts| == 1 then parts[0]
    else parts[0] + sep + Join(parts[1..], sep)
  }

  /** Splitting and joining again with the same separator gives the input back. */
  lemma {:induction false} JoinSplit(s: string, sep: char)
    ensures Join(Split(s, sep), [sep]) == s
  {
    if |s| > 0 {
      var rest := Split(s[1..], sep);
      JoinSplit(s[1..], sep);
      assert s == [s[0]] + s[1..];
      if s[0] == sep {
        var parts := [""] + rest;
        assert Split(s, sep) == parts && parts[1..] == rest;
        assert Join(parts, [sep]) == "" + [sep] + Join(rest, [sep]);
      } else {
        var head := [s[0]] + rest[0];
        if |rest| == 1 {
          assert Split(s, sep) == [head];
        } else {
          var parts := [head] + rest[1..];
          assert Split(s, sep) == parts && parts[1..] == rest[1..];
          var tail := Join(rest[1..], [sep]);
          assert Join(parts, [sep]) == head + [sep] + tail;
          assert Join(rest, [sep]) == rest[0] + [sep] + tail;
          assert head + [sep] + tail == [s[0]] + (rest[0] + [sep] + tail);
        }
      }
    }
  }

  /** A separator-free prefix glues onto the first piece of the rest. */
  lemma {:induction false} SplitPrefix(a: string, rest: string, sep: char)
    requires sep !in a
    ensures Split(a + rest, sep) == [a + Split(rest, sep)[0]] + Split(rest, sep)[1..]
  {
    if |a| == 0 {
      assert a + rest == rest;
      var r := Split(rest, sep);
      assert a + r[0] == r[0];
      assert r == [r[0]] + r[1..];
    } else {
      assert (a + rest)[1..] == a[1..] + rest;
      assert (a + rest)[0] == a[0];
      SplitPrefix(a[1..], rest, sep);
      assert [a[0]] + (a[1..] + Split(rest, sep)[0]) == a + Split(rest, sep)[0];
    }
  }

  /** Joining separator-free pieces and splitting again gives the pieces back. */
  lemma {:induction false} SplitJoin(parts: seq<string>, sep: char)
    requires |parts| >= 1
    requires forall i :: 0 <= i < |parts| ==> sep !in parts[i]
    ensures Split(Join(parts, [sep]), sep) == parts
  {
    if |parts| == 1 {
      SplitPrefix(parts[0], "", sep);
      assert parts[0] + "" == parts[0];
    } else {
      var tail := Join(parts[1..], [sep]);
      SplitJoin(parts[1..], sep);
      assert Join(parts, [sep]) == parts[0] + ([sep] + tail);
      SplitPrefix(parts[0], [sep] + tail, sep);
      assert ([sep] + tail)[1..] == tail;
      assert Split([sep] + tail, sep) == [""] + parts[1..];
      assert parts[0] + "" == parts[0];
      assert parts == [parts[0]] + parts[1..];
    }
  }

  /** A string with no separator splits into itself alone. */
  lemma SplitWithoutSeparator(s: string, sep: char)
    requires sep !in s
    ensures Split(s, sep) == [s]
  {
    SplitPrefix(s, "", sep);
    assert s + "" == s;
  }

  /** A joined list starts with its first element. */
  lemma {:induction false} JoinStartsWithFirst(parts: seq<string>, sep: string)
    requires |parts| >= 1
    ensures StartsWith(Join(parts, sep), parts[0])
  {
    if |parts| > 1 {
      assert Join(parts, sep) == parts[0] + (sep + Join(parts[1..], sep));
    }
  }

  /** Non-empty parts join to the empty text only when there are none. */
  lemma JoinEmptyIff(parts: seq<string>, sep: string)
    requires forall i :: 0 <= i < |parts| ==> |parts[i]| > 0
    ensures Join(parts, sep) == "" <==> parts == []
  {
    if parts != [] {
      JoinStartsWithFirst(parts, sep);
    }
  }

  /** Trimming never introduces a character. */
  lemma TrimAddsNothing(s: string, c: char)
    requires c !in s
    ensures c !in Trim(s)
  {
    var t := TrimStart(s);
    forall k | 0 <= k < |Trim(s)| ensures Trim(s)[k] != c {
      assert Trim(s)[k] == t[k];
      assert t[k] == s[|s| - |t| + k];
    }
  }

  /** A prefix with non-space ends survives trimming. */
  lemma TrimKeepsPrefix(s: string, p: string)
    requires StartsWith(s, p) && |p| > 0 && !IsSpace(p[0]) && !IsSpace(p[|p| - 1])
    ensures StartsWith(Trim(s), p)
  {
    assert s[0] == p[0];
    assert TrimStart(s) == s;
    var r := TrimEnd(s);
    assert s[|p| - 1] == p[|p| - 1];
    assert |r| >= |p|;
    assert r[..|p|] == s[..|p|];
  }

  /** A string with non-space ends is its own trim. */
  lemma TrimOfTrimmed(s: string)
    requires |s| > 0 && !IsSpace(s[0]) && !IsSpace(s[|s| - 1])
    ensures Trim(s) == s
  {
    assert TrimStart(s) == s;
  }

  /** A counted word as the pages print it (`n === 1 ? word : word + "s"`):
      the word alone for a count of one, its plural for any other count. */
  function Noun(word: string, n: int): (r: string)
    ensures r == word <==> n == 1
    ensures n != 1 ==> |r| == |word| + 1 && r[..|word|] == word && r[|word|] == 's'
  {
    if n == 1 then word else word + "s"
  }

  function DigitChar(d: nat): (c: char)
    requires d < 10
    ensures '0' <= c <= '9' && c as int - '0' as int == d
  {
    ('0' as int + d) as char
  }

  /** `String(n)` for a natural number: decimal, no leading zeros. */
  function NatToString(n: nat): (r: string)
    ensures |r| >= 1
    ensures forall i :: 0 <= i < |r| ==> '0' <= r[i] <= '9'
    ensures |r| > 1 ==> r[0] != '0'
    decreases n
  {
    if n < 10 then [DigitChar(n)]
    else
      var h := NatToString(n / 10);
      h + [DigitChar(n % 10)]
  }

  /** The value of a string of decimal digits. */
  function DigitsValue(s: string): nat
    requires forall i :: 0 <= i < |s| ==> '0' <= s[i] <= '9'
  {
    if |s| == 0 then 0
    else DigitsValue(s[..|s| - 1]) * 10 + (s[|s| - 1] as int - '0' as int)
  }

  /** Reading the decimal text of `n` back gives `n`. */
  lemma {:induction false} NatToStringRoundTrip(n: nat)
    ensures DigitsValue(NatToString(n)) == n
    decreases n
  {
    if n >= 10 {
      NatToStringRoundTrip(n / 10);
      var r := NatToString(n);
      assert r[..|r| - 1] == NatToString(n / 10);
    }
  }
}

=== FILE: toc.dfy ===
/** The blog post's table of contents: one entry per `h2`/`h3` heading of
    the post's HTML, the entry under the viewport highlighted, and a mobile
    panel that a click on an entry closes. Parsing the HTML is left to the
    caller: the input is the document's elements in document order. */
module Toc {
  import opened Wrappers
  import opened Text
  import opened Seqs

  /** An element of the parsed post: its tag name, `id` attribute and text
      content (`None` when the DOM reports none). */
  datatype Element = Element(tag: string, id: string, text: Option<string>)

  datatype TocItem = TocItem(id: string, text: string, level: int)

  /** `querySelectorAll("h2, h3")` matches the element. */
  predicate IsHeading(e: Element) {
    e.tag == "h2" || e.tag == "h3"
  }

  /** The headings in document order. */
  function Headings(elements: seq<Element>): (r: seq<Element>)
    ensures forall i :: 0 <= i < |r| ==> IsHeading(r[i])
    ensures forall e :: e in r <==> e in elements && IsHeading(e)
    ensures IsSubsequence(r, elements)
  {
    FilterIsSubsequence(IsHeading, elements);
    Filter(IsHeading, elements)
  }

  /** `heading.id || \`heading-${index}\``. */
  function ItemId(h: Element, index: nat): (r: string)
    ensures r != ""
    ensures r == h.id <==> h.id != ""
  {
    if h.id != "" then h.id else "heading-" + NatToString(index)
  }

  /** `Number.parseInt(tagName.charAt(1))`. */
  function Level(tag: string): (r: int)
    requires |tag| >= 2 && '0' <= tag[1] <= '9'
    ensures 0 <= r <= 9
    ensures tag == "h2" ==> r == 2
    ensures tag == "h3" ==> r == 3
  {
    tag[1] as int - '0' as int
  }

  /** The items the parsing effect stores. */
  function TocItems(elements: seq<Element>): (r: seq<TocItem>)
    ensures |r| == |Headings(elements)|
    ensures forall i :: 0 <= i < |r| ==> r[i].level == 2 || r[i].level == 3
  {
    var hs := Headings(elements);
    seq(|hs|, i requires 0 <= i < |hs| => TocItem(ItemId(hs[i], i), hs[i].text.GetOr(""), Level(hs[i].tag)))
  }

  /** Each item comes from the heading at the same position: its own id when
      it has one, otherwise "heading-" and its position among all headings;
      its text or ""; level 3 exactly for an `h3`. */
  lemma ItemsFollowHeadings(elements: seq<Element>, i: nat)
    requires i < |TocItems(elements)|
    ensures var h := Headings(elements)[i]; var item := TocItems(elements)[i];
      (h.id != "" ==> item.id == h.id) &&
      (h.id == "" ==> item.id == "heading-" + NatToString(i)) &&
      item.text == (if h.text.Some? then h.text.value else "") &&
      (item.level == 3 <==> h.tag == "h3")
  {
  }

  /** Decimal text is injective. */
  lemma NatToStringInjective(a: nat, b: nat)
    requires NatToString(a) == NatToString(b)
    ensures a == b
  {
    NatToStringRoundTrip(a);
    NatToStringRoundTrip(b);
  }

  /** Two headings without an id never get the same generated id. */
  lemma FallbackIdsDiffer(elements: seq<Element>, i: nat, j: nat)
    requires i < j < |TocItems(elements)|
    requires Headings(elements)[i].id == "" && Headings(elements)[j].id == ""
    ensures TocItems(elements)[i].id != TocItems(elements)[j].id
  {
    var a := "heading-" + NatToString(i);
    var b := "heading-" + NatToString(j);
    if a == b {
      assert a[8..] == b[8..];
      assert a[8..] == NatToString(i);
      assert b[8..] == NatToString(j);
      NatToStringInjective(i, j);
    }
  }

  /** A heading whose own id looks generated can collide with a later
      heading's fallback. */
  lemma ExplicitIdCanCollide()
    ensures var doc := [Element("h2", "heading-1", None), Element("h3", "", None)];
      TocItems(doc)[0].id == TocItems(doc)[1].id
  {
    var doc := [Element("h2", "heading-1", None), Element("h3", "", None)];
    assert Headings(doc) == doc by {
      FilterKeepsAll(IsHeading, doc);
    }
  }

  /** Level-3 items are indented. */
  predicate Indented(item: TocItem) {
    item.level == 3
  }

  /** The component renders nothing without items. */
  predicate Renders(items: seq<TocItem>) {
    |items| != 0
  }

  /** A post without headings has no table of contents. */
  lemma NoHeadingsNoToc(elements: seq<Element>)
    ensures Renders(TocItems(elements)) <==> exists e :: e in elements && IsHeading(e)
  {
    var hs := Headings(elements);
    if |hs| > 0 {
      assert hs[0] in hs;
    }
  }

  /** One intersection report: the element's id and whether it entered the
      observed band. */
  datatype Entry = Entry(targetId: string, isIntersecting: bool)

  /** The observer's callback: every intersecting entry sets the active id
      in turn, so the last one wins. */
  function OnIntersect(activeId: string, entries: seq<Entry>): (r: string)
    ensures (forall k :: 0 <= k < |entries| ==> !entries[k].isIntersecting) ==> r == activeId
    decreases |entries|
  {
    if |entries| == 0 then activeId
    else if entries[|entries| - 1].isIntersecting then entries[|entries| - 1].targetId
    else OnIntersect(activeId, entries[..|entries| - 1])
  }

  /** The active id is that of the last intersecting entry, when there is
      one. */
  lemma {:induction false} LastIntersectingWins(activeId: string, entries: seq<Entry>, k: nat)
    requires k < |entries| && entries[k].isIntersecting
    requires forall m :: k < m < |entries| ==> !entries[m].isIntersecting
    ensures OnIntersect(activeId, entries) == entries[k].targetId
    decreases |entries|
  {
    if k < |entries| - 1 {
      var init := entries[..|entries| - 1];
      assert forall m :: k < m < |init| ==> init[m] == entries[m];
      LastIntersectingWins(activeId, init, k);
    }
  }

  /** `scrollToHeading`: the panel closes only when the element exists;
      otherwise nothing happens. */
  function ScrollToHeading(isOpen: bool, id: string, inDocument: string -> bool): (r: bool)
    ensures r <==> isOpen && !inDocument(id)
  {
    if inDocument(id) then false else isOpen
  }

  /** Clicking an entry twice is clicking it once, and a closed panel stays
      closed. */
  lemma ScrollToHeadingSettles(isOpen: bool, id: string, inDocument: string -> bool)
    ensures ScrollToHeading(ScrollToHeading(isOpen, id, inDocument), id, inDocument)
      == ScrollToHeading(isOpen, id, inDocument)
    ensures !isOpen ==> !ScrollToHeading(isOpen, id, inDocument)
  {
  }
}

=== FILE: wrappers.dfy ===
/** Failure-carrying datatypes used across the model. A `null` column or an
    absent optional argument is `None`; a thrown store error is `Failure`. */
module Wrappers {

  datatype Option<+T> = None | Some(value: T) {

    /** The value, or `default` when absent (the `x ?? d` of the program). */
    function GetOr(default: T): T {
      match this
      case Some(v) => v
      case None => default
    }
  }

  datatype Result<+R, +E> = Success(value: R) | Failure(error: E)

  /** Outcome of one round trip to the backing store: it either went through
      or reported an error (an unreachable store reads the same way). */
  datatype Outcome = Ok | Err {
    predicate Succeeded() { Ok? }
  }

  /** A value caught by a `catch` clause: an `Error` object, which carries a
      message, or anything else that was thrown. */
  datatype Thrown = ErrorObject(message: string) | OtherValue
}

=== FILE: youtube.dfy ===
/** `extractYouTubeId`, shared verbatim by the gallery actions and the
    gallery page. The two regular expressions are unanchored: the first
    matches one of three markers followed by a non-empty run of characters
    other than `&`, line feed, `?` and `#`; the second does the same for
    the shorts marker, and is tried only when the first matches nowhere. */
module YouTube {
  import opened Wrappers
  import opened Text

  const WatchMarker := "youtube.com/watch?v="
  const ShortLinkMarker := "youtu.be/"
  const EmbedMarker := "youtube.com/embed/"
  const ShortsMarker := "youtube.com/shorts/"

  /** The first pattern's alternatives, in the order the engine tries them. */
  const FirstPattern: seq<string> := [WatchMarker, ShortLinkMarker, EmbedMarker]
  const SecondPattern: seq<string> := [ShortsMarker]

  /** `[^&\n?#]`. */
  predicate IdChar(c: char) {
    c != '&' && c != '\n' && c != '?' && c != '#'
  }

  /** The greedy capture: the longest run of id characters from `j`. */
  function Run(s: string, j: nat): (r: string)
    requires j <= |s|
    decreases |s| - j
    ensures j + |r| <= |s|
    ensures forall k :: 0 <= k < |r| ==> IdChar(r[k])
    ensures j + |r| < |s| ==> !IdChar(s[j + |r|])
  {
    if j < |s| && IdChar(s[j]) then [s[j]] + Run(s, j + 1) else []
  }

  /** The run is the text right after `j`. */
  lemma {:induction false} RunIsSlice(s: string, j: nat)
    requires j <= |s|
    ensures Run(s, j) == s[j..j + |Run(s, j)|]
    decreases |s| - j
  {
    if j < |s| && IdChar(s[j]) {
      RunIsSlice(s, j + 1);
    }
  }

  /** The capture the pattern yields at position `i`: the first alternative
      that occurs there and is followed by at least one id character. */
  function MatchAt(s: string, i: nat, alternatives: seq<string>): (r: Option<string>)
    requires i <= |s|
    ensures r.Some? ==> r.value != [] && forall k :: 0 <= k < |r.value| ==> IdChar(r.value[k])
  {
    if alternatives == [] then None
    else
      var m := alternatives[0];
      if OccursAt(s, m, i) && Run(s, i + |m|) != [] then Some(Run(s, i + |m|))
      else MatchAt(s, i, alternatives[1..])
  }

  /** A capture at `i` is the whole run after one of the alternatives. */
  lemma {:induction false} MatchAtWitness(s: string, i: nat, alternatives: seq<string>) returns (j: nat)
    requires i <= |s| && MatchAt(s, i, alternatives).Some?
    ensures j < |alternatives| && OccursAt(s, alternatives[j], i)
    ensures MatchAt(s, i, alternatives).value == Run(s, i + |alternatives[j]|)
  {
    var m := alternatives[0];
    if OccursAt(s, m, i) && Run(s, i + |m|) != [] {
      j := 0;
      assert MatchAt(s, i, alternatives) == Some(Run(s, i + |m|));
    } else {
      var rest := alternatives[1..];
      var k := MatchAtWitness(s, i, rest);
      assert rest[k] == alternatives[k + 1];
      assert MatchAt(s, i, alternatives) == MatchAt(s, i, rest);
      j := k + 1;
    }
  }

  /** No alternative occurring at `i` is followed by an id character. */
  lemma {:induction false} MatchAtNone(s: string, i: nat, alternatives: seq<string>, m: string)
    requires i <= |s| && MatchAt(s, i, alternatives).None?
    requires m in alternatives && OccursAt(s, m, i)
    ensures Run(s, i + |m|) == []
  {
    if alternatives[0] != m {
      MatchAtNone(s, i, alternatives[1..], m);
    }
  }

  predicate MatchesAt(s: string, k: nat, alternatives: seq<string>)
    requires k <= |s|
  {
    MatchAt(s, k, alternatives).Some?
  }

  /** The leftmost position from `i` where the pattern matches. */
  function FirstMatchAt(s: string, i: nat, alternatives: seq<string>): (r: Option<nat>)
    requires i <= |s|
    decreases |s| - i
    ensures r.None? ==> forall k :: i <= k <= |s| ==> !MatchesAt(s, k, alternatives)
    ensures r.Some? ==> i <= r.value <= |s| && MatchesAt(s, r.value, alternatives)
    ensures r.Some? ==> forall j :: i <= j < r.value ==> !MatchesAt(s, j, alternatives)
  {
    if MatchesAt(s, i, alternatives) then Some(i)
    else if i == |s| then None
    else FirstMatchAt(s, i + 1, alternatives)
  }

  /** `String.prototype.match` with a non-global pattern, group 1: the
      capture at the leftmost matching position. */
  function Capture(s: string, alternatives: seq<string>): (r: Option<string>)
    ensures r.Some? <==> FirstMatchAt(s, 0, alternatives).Some?
    ensures r.Some? ==> r == MatchAt(s, FirstMatchAt(s, 0, alternatives).value, alternatives)
    ensures r.Some? ==> r.value != [] && forall k :: 0 <= k < |r.value| ==> IdChar(r.value[k])
  {
    match FirstMatchAt(s, 0, alternatives)
    case Some(k) => MatchAt(s, k, alternatives)
    case None => None
  }

  function ExtractYouTubeId(url: string): (r: Option<string>)
    ensures r.Some? ==> r.value != [] && forall k :: 0 <= k < |r.value| ==> IdChar(r.value[k])
    ensures Capture(url, FirstPattern).Some? ==> r == Capture(url, FirstPattern)
    ensures Capture(url, FirstPattern).None? ==> r == Capture(url, SecondPattern)
  {
    var first := Capture(url, FirstPattern);
    if first.Some? then first else Capture(url, SecondPattern)
  }

  /** `id` is the whole run of id characters right after marker `m` at `i`. */
  predicate CapturedAfter(url: string, m: string, i: int, id: string) {
    0 <= i && i + |m| + |id| <= |url| && OccursAt(url, m, i)
    && url[i + |m|..i + |m| + |id|] == id
    && (i + |m| + |id| < |url| ==> !IdChar(url[i + |m| + |id|]))
  }

  /** A returned id is the whole run after one of the markers: the character
      after it, if any, is one of the stop characters. */
  lemma IdIsMaximalRun(url: string)
    requires ExtractYouTubeId(url).Some?
    ensures exists m, i :: m in FirstPattern + SecondPattern && CapturedAfter(url, m, i, ExtractYouTubeId(url).value)
  {
    var id := ExtractYouTubeId(url).value;
    if Capture(url, FirstPattern).Some? {
      var m, i := CaptureIsRun(url, FirstPattern);
      assert m in FirstPattern + SecondPattern;
    } else {
      var m, i := CaptureIsRun(url, SecondPattern);
      assert m in FirstPattern + SecondPattern;
    }
  }

  lemma CaptureIsRun(url: string, alternatives: seq<string>) returns (m: string, i: nat)
    requires Capture(url, alternatives).Some?
    ensures m in alternatives && CapturedAfter(url, m, i, Capture(url, alternatives).value)
  {
    i := FirstMatchAt(url, 0, alternatives).value;
    var j := MatchAtWitness(url, i, alternatives);
    m := alternatives[j];
    var run := Run(url, i + |m|);
    assert Capture(url, alternatives).value == run;
    RunIsSlice(url, i + |m|);
    assert OccursAt(url, m, i);
    assert i + |m| + |run| < |url| ==> !IdChar(url[i + |m| + |run|]);
    assert CapturedAfter(url, m, i, run);
  }

  /** A URL with no marker anywhere yields null. */
  lemma NoMarkerNoId(url: string)
    requires forall m, i :: m in FirstPattern + SecondPattern && 0 <= i <= |url| ==> !OccursAt(url, m, i)
    ensures ExtractYouTubeId(url).None?
  {
    NoMarkerNoCapture(url, FirstPattern);
    NoMarkerNoCapture(url, SecondPattern);
  }

  lemma NoMarkerNoCapture(url: string, alternatives: seq<string>)
    requires forall m, i :: m in alternatives && 0 <= i <= |url| ==> !OccursAt(url, m, i)
    ensures Capture(url, alternatives).None?
  {
    if FirstMatchAt(url, 0, alternatives).Some? {
      var j := MatchAtWitness(url, FirstMatchAt(url, 0, alternatives).value, alternatives);
    }
  }

  /** Every marker begins with 'y', so nothing matches inside a prefix free of it. */
  lemma NoMatchBeforeY(s: string, prefix: string, alternatives: seq<string>, i: nat)
    requires forall m :: m in alternatives ==> |m| > 0 && m[0] == 'y'
    requires 'y' !in prefix && |prefix| <= |s| && s[..|prefix|] == prefix && i < |prefix|
    ensures !MatchesAt(s, i, alternatives)
  {
    forall m | m in alternatives ensures !OccursAt(s, m, i) {
      assert s[i] == prefix[i];
    }
    if MatchesAt(s, i, alternatives) {
      var j := MatchAtWitness(s, i, alternatives);
    }
  }

  /** Scanning from `i` finds the match at `k` when nothing matches between. */
  lemma {:induction false} FirstMatchFinds(s: string, i: nat, k: nat, alternatives: seq<string>)
    requires i <= k <= |s|
    requires forall j :: i <= j < k ==> !MatchesAt(s, j, alternatives)
    ensures FirstMatchAt(s, i, alternatives) == FirstMatchAt(s, k, alternatives)
    decreases k - i
  {
    if i < k {
      assert !MatchesAt(s, i, alternatives);
      FirstMatchFinds(s, i + 1, k, alternatives);
    }
  }

  /** Round trip: a host prefix without 'y', one of the first pattern's
      markers and an id made of id characters give back exactly that id. */
  lemma ExtractsWrittenId(prefix: string, m: string, id: string)
    requires m in FirstPattern && 'y' !in prefix
    requires id != [] && forall k :: 0 <= k < |id| ==> IdChar(id[k])
    ensures ExtractYouTubeId(prefix + m + id) == Some(id)
  {
    var s := prefix + m + id;
    var p := |prefix|;
    assert s[..p] == prefix;
    forall j | 0 <= j < p ensures !MatchesAt(s, j, FirstPattern) {
      NoMatchBeforeY(s, prefix, FirstPattern, j);
    }
    FirstMatchFinds(s, 0, p, FirstPattern);
    assert s[p..p + |m|] == m;
    assert OccursAt(s, m, p);
    assert s[p + |m|..] == id;
    RunToEnd(s, p + |m|, id);
    AlternativesAtMarker(s, p, m, id);
    assert FirstMatchAt(s, p, FirstPattern) == Some(p);
  }

  lemma {:induction false} RunToEnd(s: string, j: nat, id: string)
    requires j + |id| == |s| && s[j..] == id
    requires forall k :: 0 <= k < |id| ==> IdChar(id[k])
    ensures Run(s, j) == id
    decreases |id|
  {
    if id != [] {
      assert s[j + 1..] == id[1..];
      RunToEnd(s, j + 1, id[1..]);
    }
  }

  lemma AlternativesAtMarker(s: string, p: nat, m: string, id: string)
    requires m in FirstPattern && p + |m| + |id| == |s| && OccursAt(s, m, p)
    requires Run(s, p + |m|) == id && id != []
    ensures MatchAt(s, p, FirstPattern) == Some(id)
  {
    var rest := FirstPattern[1..];
    var last := FirstPattern[2..];
    if m == WatchMarker {
    } else if m == ShortLinkMarker {
      assert !OccursAt(s, WatchMarker, p) by {
        assert s[p + 5] == '.';
      }
      assert MatchAt(s, p, FirstPattern) == MatchAt(s, p, rest);
    } else {
      assert !OccursAt(s, WatchMarker, p) by {
        assert s[p + 12] == 'e';
      }
      assert !OccursAt(s, ShortLinkMarker, p) by {
        assert s[p + 5] == 'b';
      }
      assert MatchAt(s, p, FirstPattern) == MatchAt(s, p, rest);
      assert MatchAt(s, p, rest) == MatchAt(s, p, last);
    }
  }

  // ---------------------------------------------------------------- derived URLs

  /** `createGalleryVideo`'s thumbnail: present exactly when an id was found. */
  function ThumbnailUrl(id: Option<string>): (r: Option<string>)
    ensures r.Some? <==> id.Some?
    ensures id.Some? ==> r.value == "https://img.youtube.com/vi/" + id.value + "/maxresdefault.jpg"
  {
    match id
    case Some(v) => Some("https://img.youtube.com/vi/" + v + "/maxresdefault.jpg")
    case None => None
  }

  /** The gallery page's iframe source. An unrecognised URL interpolates
      `null` into the template literal. */
  function EmbedSrc(id: Option<string>): (r: string)
    ensures id.Some? ==> r == "https://www.youtube.com/embed/" + id.value
    ensures id.None? ==> r == "https://www.youtube.com/embed/null"
  {
    "https://www.youtube.com/embed/" + (if id.Some? then id.value else "null")
  }

  /** The embed URL built for a recognised id is itself recognised, with
      the same id. */
  lemma EmbedSrcRoundTrip(url: string)
    requires ExtractYouTubeId(url).Some?
    ensures ExtractYouTubeId(EmbedSrc(ExtractYouTubeId(url))) == ExtractYouTubeId(url)
  {
    var id := ExtractYouTubeId(url).value;
    assert "https://www.youtube.com/embed/" + id == "https://www." + EmbedMarker + id;
    ExtractsWrittenId("https://www.", EmbedMarker, id);
  }
}
